=== FILE: README.md ===
# Fertilizer blend optimiser: a Dafny model

The engine (`optim/solver.py`) chooses, for every field (*potrero*), a dose in
kg/ha of every fertilizer product that meets the crop's N, P2O5 and K2O
requirements at least cost. It reads three tables:
- fields: identifier, crop and area;
- requirements: per-crop N, P2O5 and K2O in kg/ha;
- products: nutrient percentages, price per tonne and dose bounds.

A run then goes through these steps:
1. It normalises the headers and checks the required columns.
2. It runs a fast feasibility pre-check.
3. It builds a linear program, with an optional N cap, an optional mix cap, a
   tolerance on requirements and an optional application cost.
4. It solves the program.
5. It writes a dose table sorted by field and product, and a one-line cost
   summary.

Two Streamlit dashboards (`app/optimizador.py` and its backup
`app/optimizador_respaldo_1610.py`) launch the engine for scenarios A and B
and then work with its results:
- they read the cost back;
- they format it in Chilean pesos;
- they describe the difference between the scenarios;
- they write Markdown tables;
- they save drawn field polygons;
- they map unknown crops onto known ones;
- they give an agronomic reading of the blend.

The model has one module per concern:

- `Wrappers` (wrappers.dfy): `Option` and `Result`.
- `Text` (text.dfy): digits, decimal rendering, strip, join/split, string order.
- `Blend` (blend.dfy): products, fields, parameters, the linear program's constraints and objective.
- `Tables` (tables.dfy): header clean-up, column validation, numeric coercion, requirement lookup.
- `Precheck` (precheck.dfy): the pre-check's bound, its diagnostics, and its soundness.
- `Extract` (extract.dfy): rounding, the dose table, sorting, the cost recomputation, the summary line.
- `Pipeline` (pipeline.dfy): a whole run as a function of the tables, the parameters and a solver.
- `Cli` (cli.dfy): which command lines start a run, and the output file names.
- `Clp` (clp.dfy): peso formatting, reading the summary back, cost-difference wording.
- `Markdown` (markdown.dfy): the Markdown table writer and a reader for its output.
- `Drawings` (drawings.dfy): saving drawn polygons as GeoJSON features, the crop fallback.
- `Agronomy` (agronomy.dfy): the agronomic reading of a dose table.

The solver (CBC through PuLP) is a parameter: `solve: Problem -> Answer`. The
model only assumes it is honest, meaning an answer reported `Optimal` is
admissible for the program it was given. Reading and writing files becomes
table values in and output values out. A table cell is `Cell(text, num)`,
where `num` is pandas' numeric reading of the cell (`None` for NaN or
unparseable text).

## Model

| member | source | states |
|---|---|---|
| Tables.CleanName | optim/solver.py:49 | a cleaned header name is the whitespace-stripped name (`Text.Strip`: leading and trailing whitespace removed) with its leading byte-order marks removed; hence a slice that cuts off only whitespace and byte-order marks in front and only whitespace behind, that neither starts with a byte-order mark nor ends with whitespace, and a name with neither at its edges is returned unchanged |
| Tables.RenameAll | optim/solver.py:52-60 | the synonym correction applied at every position, each name judged against the whole cleaned header; its effect is stated by RenameAllKeeps and RenameAllKeys |
| Tables.RenameAllKeeps | optim/solver.py:52-60 | the mistyped "P205_req_kg_ha" becomes "P2O5_req_kg_ha" and never survives the correction, and every name that is not one of the three corrected spellings is kept unchanged |
| Tables.NormalizeHeader | optim/solver.py:46-61 | the header `read_csv_flexible` leaves: as long as the raw header; the mistyped oxide column becomes "P2O5_req_kg_ha" and never survives; every other trimmed name except "Cultivo"/"Producto" stays as trimmed; "cultivo" (resp. "producto") is a column iff either spelling was one after trimming |
| Tables.RenameAllKeys | optim/solver.py:55-58 | a capitalised "Cultivo" (resp. "Producto") is lowered unless the lower-case spelling is already a column, in which case it is kept; after the correction "cultivo" (resp. "producto") is a column iff either spelling was one before |
| Tables.FirstMissing | optim/solver.py:71-84 | the reported column is the first listed required column that is absent; none is reported iff all are present |
| Tables.HasAllListed | optim/solver.py:71-84 | the listed column checks are exactly the conditions that the fields, requirements and products tables have their required columns |
| Tables.Validate | optim/solver.py:66-84 | no failure iff all three tables have their required columns; a missing index column (crop, product) is reported before any other missing column, and fields are checked before requirements before products; a reported missing column is the first absent one in that table's listed order, where the loop exits |
| Tables.Load | optim/solver.py:66-84 | loading fails exactly when validation of the normalised headers fails, with that failure; on success the normalised headers have every required column, and the inputs are the fields, requirements and products read from the tables under their normalised headers, one record per row |
| Tables.Coerce | optim/solver.py:88-92 | an unparseable cell becomes the default, a numeric one keeps its value |
| Tables.LoadProducts | optim/solver.py:86-97 | unparseable minimum doses and prices become 0, unparseable maximum doses become 1e6, and each nutrient fraction times 100 is the cell's percentage (0 when unparseable) |
| Tables.LoadFields | optim/solver.py:104-106 | one field record per row, with the identifier, crop and area read from their columns |
| Tables.LoadRequirements | optim/solver.py:67 | one requirement record per row, with the crop and the three requirements read from their columns |
| Tables.RowsFor | optim/solver.py:124 | the rows naming a crop are exactly the requirement rows with that crop |
| Tables.LookupReq | optim/solver.py:124-126 | a lookup succeeds iff exactly one row names the crop and its three requirements are numeric, and then returns that row's numbers; no row gives "crop not found", several rows give "ambiguous", and a single row with a non-numeric requirement gives "not numeric" |
| Precheck.MaxFrac | optim/solver.py:140-142 | the richest fraction dominates every product's fraction, and is 0 for no products |
| Precheck.MaxFracAttained | optim/solver.py:140-142 | the richest fraction is the fraction of some product |
| Precheck.Bound | optim/solver.py:134-147 | the bound never exceeds the max-dose bound, nor mix cap times richest fraction when the mix cap is on, nor the N cap for N when it is on, and equals one of them |
| Precheck.NutrientCheck | optim/solver.py:149-154 | a nutrient yields a diagnostic iff its relaxed requirement exceeds the bound by more than 1e-6, and the diagnostic carries the requirement and the bound |
| Precheck.NutrientDiagnostics | optim/solver.py:149-154 | the nutrient diagnostics are exactly one per unmet nutrient, each carrying the relaxed requirement and the bound, in the order N, P2O5, K2O |
| Precheck.FieldDiagnostics | optim/solver.py:129-154 | every diagnostic names the field; the minimum-dose diagnostic appears iff the minimum doses exceed an enabled mix cap by more than 1e-9, and then comes first; a nutrient diagnostic appears, carrying the relaxed requirement and the bound, iff that nutrient is unmet; the diagnostics follow the order mix, N, P2O5, K2O with none repeated; no diagnostic iff no condition holds |
| Precheck.Run | optim/solver.py:111-156 | the pre-check succeeds iff every field's crop can be looked up, otherwise it fails with the lookup failure of the first field, in order, whose lookup fails; on success its list is every field's diagnostics, field by field in table order, and is empty iff every field's crop is found and the field has none |
| Precheck.Diagnose | optim/solver.py:119-154 | the diagnostics of all fields are each field's diagnostics joined in field order, nothing dropped or merged, and are empty iff each field's own diagnostics are empty |
| Precheck.MinDosesOncePerField | optim/solver.py:119-132 | when the minimum doses exceed the mix cap, the message opens every field's block of the pre-check's list, so it is repeated once per field |
| Precheck.SupplyWithinBound | optim/solver.py:134-147 | any dose column within its dose bounds, the mix cap and the N cap delivers no more of a nutrient than the bound (non-negative fractions) |
| Precheck.MixCapBound | optim/solver.py:139-142 | under the mix cap a column delivers at most cap times any dominating fraction |
| Precheck.DiagnosticRefutesField | optim/solver.py:149-154 | given non-negative nutrient percentages, a field with a diagnostic admits no dose column satisfying the program's constraints for that field |
| Precheck.NegativeFractionRejectsFeasible | optim/solver.py:135-137 | the hypothesis is needed: with products of 10% and -10% nitrogen (both up to 100 kg/ha) and a field needing 5 kg/ha, the rough bound is 0, the field is diagnosed, yet 100 kg/ha of the first product alone satisfies it |
| Blend.EffectiveAntitone | optim/solver.py:193-195 | a larger tolerance never raises a non-negative relaxed requirement |
| Blend.FeasibleUnderLooser | optim/solver.py:193-209 | for non-negative requirements, a plan admissible under tighter parameters stays admissible under a larger tolerance and looser or disabled caps |
| Blend.FieldFeasible | optim/solver.py:186-209 | the constraints of one field: each nutrient's supply at least its tolerance-relaxed requirement, the mix cap and N cap when enabled, and each dose non-negative and within the product's bounds |
| Blend.Feasible | optim/solver.py:169-209 | a plan the program admits: one dose per product and field, every field's constraints met |
| Blend.Objective | optim/solver.py:172-182 | the objective: dose times area times price per kg over every product and field, plus the same with the application cost per kg when that cost is positive |
| Extract.RoundHalfEven | optim/solver.py:242 | the result is within 1/2 of the value, a tie goes to the even neighbour, and a non-negative value rounds to a non-negative integer |
| Extract.RoundHalfEvenOfInt | optim/solver.py:242 | an integer rounds to itself |
| Extract.Round2 | optim/solver.py:228 | rounding to hundredths moves a value by at most 0.005, and the result is a whole number of hundredths |
| Extract.ListedAt | optim/solver.py:225-227 | the listed positions of a row of doses are, in increasing order, exactly the positions whose dose exceeds 1e-6 |
| Extract.ProductRows | optim/solver.py:225-228 | one product's rows are one per listed dose, in field order: the k-th row names the field of the k-th listed position, the product, and that dose rounded |
| Extract.ProductRowsMembers | optim/solver.py:225-228 | one product's rows are exactly its fields with a dose above 1e-6, each with the dose rounded |
| Extract.ExtractRows | optim/solver.py:223-228 | the rows are the products' blocks of rows joined in product order, and are exactly the (product, field) pairs whose dose exceeds 1e-6, each carrying its dose rounded to hundredths |
| Extract.ExtractRowsBlock | optim/solver.py:223-228 | product p's rows sit together in the unsorted table, right after the rows of the products before it |
| Extract.ExtractRowsEmpty | optim/solver.py:223-230 | the extracted table is empty iff no dose exceeds 1e-6 |
| Extract.SortRows | optim/solver.py:230 | the table is sorted by (field, product) and is a permutation of the extracted rows |
| Extract.SortedRowsAllPairs | optim/solver.py:230 | in the sorted table every earlier row orders before every later one |
| Extract.RecomputeCost | optim/solver.py:233-240 | the second pass's total equals the objective the program minimised |
| Extract.SummaryLine | optim/solver.py:242 | the summary is "Costo total (CLP): ", then the decimal string of the rounded cost, then a newline |
| Extract.UnlistedDoseStillCosts | optim/solver.py:227-240 | a dose too small to be listed still counts in the summary cost |
| Pipeline.ExitCode | optim/solver.py:71-84 | a run ends with status 1 iff it raised, and with status 2 iff one of the engine's own checks stopped it |
| Pipeline.FirstBadArea | optim/solver.py:174 | no field is reported iff every area is a number, and a reported field has a non-numeric area |
| Pipeline.FieldSpecs | optim/solver.py:186-195 | the field constraints are built iff every crop can be looked up, each from its field's area and its crop's requirement; a clean unknown-crop stop is caused by a crop with no row |
| Pipeline.BuildProblem | optim/solver.py:169-209 | the program is built iff every area is a number and every field's crop lookup succeeds; the first field with a non-numeric area raises; a built program has the loaded products, the scenario parameters, and one field per row with its area and its crop's requirement |
| Pipeline.Finish | optim/solver.py:214-242 | the run stops with the status iff it is not optimal; it writes its outputs iff the status is optimal and some dose exceeds 1e-6, and raises on the empty table iff the status is optimal and no dose does; written outputs come from an admissible plan, the table is the sorted permutation of the extracted rows, and the summary states the objective |
| Pipeline.Scenario | optim/solver.py:158-218 | a pre-check that raises ends the scenario with that lookup failure (status 1); a pre-check with diagnostics ends it with those diagnostics (status 2); a successful scenario passed the pre-check with no diagnostic and built its program, and its outputs are the finish of the solver's answer to that program; conversely a clean pre-check goes on to the build, ending with the build's failure or with the finish of the solver's answer |
| Pipeline.ScenarioSucceedsIff | optim/solver.py:158-242 | a scenario writes its outputs iff the pre-check reports nothing, the program is built, the solver reports an optimal (hence admissible) plan, and some dose of it exceeds 1e-6 |
| Pipeline.Run | optim/solver.py:66-242 | a validation failure ends the run with that failure; once the tables load, the run is the scenario on the loaded inputs |
| Pipeline.RunNeverReportsUnknownCrop | optim/solver.py:120-190 | the clean unknown-crop exit is unreachable, because the pre-check looks every crop up first and raises |
| Pipeline.ValidationFailureIgnoresScenario | optim/solver.py:66-84 | a validation failure ends the run identically for every parameter set and solver, and a missing column exits with status 2 |
| Pipeline.StatusDecidesOutcome | optim/solver.py:214-218 | once the program is built, the run stops with the solver's status exactly when that status is not optimal |
| Pipeline.PrecheckRejectsOnlyInfeasible | optim/solver.py:158-164 | given non-negative nutrient percentages, when the pre-check reports anything, no plan satisfies the program the run would build |
| Pipeline.ListedDosesWithinBounds | optim/solver.py:207-228 | every listed dose names a real field and product, and lies within that product's dose bounds and above the epsilon, up to the 0.005 rounding |
| Pipeline.ExtractedDoseWithinBounds | optim/solver.py:207-228 | every extracted row of an admissible plan names a real field and product, and its dose lies within that product's bounds and above the epsilon, up to the 0.005 rounding |
| Cli.LaunchAsWritten | optim/solver.py:20-39 | as written, a command line is rejected iff it carries an undeclared option, and otherwise the missing tag attribute fails |
| Cli.NoRunStarts | optim/solver.py:20-39 | as written, no command line starts a run |
| Cli.DashboardsCannotStartARun | optim/solver.py:20-39 | the backup dashboard's command line is rejected for "--tag", and the current dashboard's fails on the missing tag attribute |
| Cli.ScenarioOptionsDeclared | optim/solver.py:20-27 | the parser declares the six options the dashboards pass, and not "--tag" |
| Cli.StartRun | optim/solver.py:20-28 | with the tag declared, a command line starts a run iff all its options are declared, and the run's tag is the last "--tag" value |
| Cli.OutputNames | optim/solver.py:39-41 | the outputs are "resultados_dosis.csv" and "_resumen.txt", with "_" and the tag inserted before the extension when a non-empty tag is given |
| Cli.BackupDashboardFindsItsFiles | app/optimizador_respaldo_1610.py:494-509 | with the tag declared, the backup dashboard's command line starts a run whose output names are the two files the dashboard then looks for |
| Clp.FormatClp | app/optimizador.py:35-40 | the text starts with "$", and a minus sign follows iff the amount is negative |
| Clp.FormatClpUnformat | app/optimizador.py:38 | removing "$" and every "." from a formatted amount gives the integer's decimal string |
| Clp.FormatClpGrouping | app/optimizador.py:38 | the digits are grouped in threes from the right, with a leading group of one to three digits, and a dot appears iff the magnitude is at least 1000 |
| Clp.ParseCost | app/optimizador_respaldo_1610.py:327-332 | a missing file, or a text without digits, reads as 0; otherwise the value is the number denoted by all the text's digits in order |
| Clp.ParseCostLeadingZero | app/optimizador.py:49 | a leading zero does not change the value read, as `int("007")` is 7 |
| Clp.ParseCostIgnoresNonDigits | app/optimizador.py:43-49 | text without digits changes nothing in the parsed cost, wherever it sits |
| Clp.SummaryRoundTrip | app/optimizador.py:43-49 | reading the engine's summary line back gives the magnitude of the rounded cost, so a negative cost loses its sign |
| Clp.SummaryRoundTripWhole | app/optimizador.py:43-49 | a whole non-negative cost written by the engine reads back exactly |
| Clp.TrendOf | app/optimizador.py:266 | B is dearer, cheaper or the same iff B - A is positive, negative or zero |
| Clp.TrendSwap | app/optimizador.py:266 | swapping the scenarios swaps dearer and cheaper and keeps "same" |
| Clp.Say | app/optimizador.py:121 | each of a dashboard's three words is said exactly for its own sign of B - A: the dearer word iff positive, the cheaper word iff negative, the unchanged word iff zero |
| Clp.WordingsDistinct | app/optimizador_respaldo_1610.py:395 | the backup report's "más caro", "más barato", "igual", the current report's words (lines 121 and 376 of app/optimizador.py) and its "sube", "baja", "no cambia" (line 266) each tell the three outcomes apart; the two reports differ only in the word for an unchanged cost |
| Markdown.Row | app/optimizador.py:55-58 | one table line, "| " + cells joined by " | " + " |"; what it promises is stated by ParseRowOfRow |
| Markdown.Table | app/optimizador.py:52-59 | `df_to_md_table`: header line, one "---" per column, one line per row, joined by newlines; stated by ParseTableOfTable and TableEndsWithBar |
| Markdown.ParseRowOfRow | app/optimizador.py:55-58 | a written line whose cells hold no bar and no newline reads back as exactly its cells, and contains no newline |
| Markdown.ParseTableOfTable | app/optimizador.py:52-59 | the table text splits into header, separator and one line per row, which read back as the columns, one "---" per column and the rows |
| Markdown.TableEndsWithBar | app/optimizador.py:59 | the text ends with the last line's closing bar, with no trailing newline |
| Drawings.PotreroName | app/optimizador_respaldo_1610.py:570 | the default name is "Potrero_" followed by the position's decimal string |
| Drawings.PotreroNamesDistinct | app/optimizador_respaldo_1610.py:570 | different positions get different default names |
| Drawings.SetDefault | app/optimizador_respaldo_1610.py:570-571 | the key is added only when missing; every existing entry is kept |
| Drawings.StampKeepsExisting | app/optimizador_respaldo_1610.py:569-571 | a saved polygon keeps all its properties and gains exactly "potrero" and "cultivo" when missing, set to its position's name and "SinCultivo" |
| Drawings.Polygons | app/optimizador_respaldo_1610.py:566-568 | only polygon drawings are saved, at most one per drawing |
| Drawings.PolygonsFrom | app/optimizador_respaldo_1610.py:566-568 | every saved polygon is one of the drawings |
| Drawings.PolygonsComplete | app/optimizador_respaldo_1610.py:566-568 | no polygon drawing is left out |
| Drawings.Append | app/optimizador_respaldo_1610.py:565-572 | the save loop appends one feature per polygon after the existing features, which it leaves unchanged |
| Drawings.AppendAt | app/optimizador_respaldo_1610.py:565-572 | the feature of the i-th polygon sits right after the i features before it and is stamped with that 1-based position |
| Drawings.Merge | app/optimizador_respaldo_1610.py:559-578 | the save: the collection written, or nothing; its layout is stated by MergeLayout, DefaultNameIsPosition and KeptOnlyFromCollection, and the empty case by NothingSavedIff |
| Drawings.MergeLayout | app/optimizador_respaldo_1610.py:559-572 | the saved collection is the kept features in order, then one feature per polygon drawing in order, carrying that drawing's geometry |
| Drawings.DefaultNameIsPosition | app/optimizador_respaldo_1610.py:565-574 | the k-th polygon drawing is saved at position (kept features + k), and when it had no name it is named after that 1-based position |
| Drawings.StampedName | app/optimizador_respaldo_1610.py:569-570 | a drawing without a name is stamped with the name of the position it is given |
| Drawings.AppendedName | app/optimizador_respaldo_1610.py:570-572 | the save loop names an unnamed polygon "Potrero_" and the 1-based position it is appended at |
| Drawings.KeptOnlyFromCollection | app/optimizador_respaldo_1610.py:561-564 | earlier features survive only from a stored feature collection, and then all of them survive |
| Drawings.NothingSavedIff | app/optimizador_respaldo_1610.py:573-574 | nothing is written iff nothing is kept and no drawing is a polygon |
| Drawings.Fallback | app/optimizador_respaldo_1610.py:609 | a known crop is kept and any other becomes the first option |
| Drawings.AssignCrops | app/optimizador_respaldo_1610.py:607-610 | with options every crop becomes one of them and known crops are kept; with no options nothing changes |
| Drawings.AssignCropsIdempotent | app/optimizador_respaldo_1610.py:607-610 | applying the fallback a second time changes nothing |
| Drawings.FallbackCropsAreKnown | app/optimizador_respaldo_1610.py:603-610 | when the options are the requirement table's crops, no field's crop is then unknown to the engine's lookup |
| Agronomy.Matches | app/optimizador_respaldo_1610.py:691 | the matching product rows are exactly those with the row's product name |
| Agronomy.JoinRow | app/optimizador_respaldo_1610.py:691 | a left-joined dose row gives one row per matching product row, the i-th carrying the i-th match's percentages, or a single row without percentages when none matches; each has the dose row's product and dose |
| Agronomy.LeftJoin | app/optimizador_respaldo_1610.py:691 | the join is each dose row's joined rows, in dose-table order; it drops no dose row, and every joined row comes from a dose row |
| Agronomy.Value | app/optimizador_respaldo_1610.py:692-694 | a contribution is dose times percentage over 100, and 0 when the percentage cell is blank |
| Agronomy.Names | app/optimizador_respaldo_1610.py:695-698 | the product groups are distinct and are exactly the products of the joined rows |
| Agronomy.Regroup | app/optimizador_respaldo_1610.py:695-698 | summing per product over the distinct products gives the plain column total |
| Agronomy.SummaryTotal | app/optimizador_respaldo_1610.py:695-712 | a column total as the dashboard takes it, the sum of the per-product sums rounded to hundredths; its distance from the true total is stated by SummaryTotalClose |
| Agronomy.Present | app/optimizador_respaldo_1610.py:701-703 | `tiene_*`: a nutrient's summary total exceeds 0.5; related to the true contribution by PresenceFollowsContribution |
| Agronomy.SummaryTotalClose | app/optimizador_respaldo_1610.py:695-703 | the total of the rounded per-product sums is within 0.005 per product of the plain total |
| Agronomy.PresenceFollowsContribution | app/optimizador_respaldo_1610.py:701-703 | a nutrient is flagged present when its actual contribution exceeds 0.5 by the rounding slack, and absent when it falls below 0.5 by that slack |
| Agronomy.PhraseOf | app/optimizador_respaldo_1610.py:705-708 | the phrase is "N and P" iff both, "main N" iff N only, "main P" iff P only, "adds K" iff K alone, and none otherwise |
| Agronomy.Classify | app/optimizador_respaldo_1610.py:712-717 | no class iff no limit; below iff under 90% of the limit; near iff between 90% and the limit; exceeds iff above the limit |
| Agronomy.ClassifyMonotone | app/optimizador_respaldo_1610.py:714-717 | a larger total never reads as a better class |
| Agronomy.Interpret | app/optimizador_respaldo_1610.py:685-717 | the phrase is the one PhraseOf picks from the N, P2O5 and K2O presence flags of the joined table, the no-potassium sentence appears iff K2O is absent, and the mix class is that of the summed mix against the limit |
| Agronomy.ZeroLimitReadsAsExceeded | app/optimizador_respaldo_1610.py:712-717 | as written, a mix limit of 0, which disables the engine's cap, makes every positive mix read as exceeding it |
| Agronomy.SummedFieldsReadAsExceeded | app/optimizador_respaldo_1610.py:712-717 | as written, an admitted plan with 400 kg/ha on each of two fields under a 600 kg/ha cap reads as exceeding it, while per field it is below 90% of it |
| Agronomy.Largest | app/optimizador_respaldo_1610.py:712 | the largest value bounds every value and is one of them |
| Agronomy.ClassifyPerField | app/optimizador_respaldo_1610.py:712-717 | corrected: no class iff the cap is disabled or there are no fields, and "exceeds" iff the cap is on and some field's mix is above it |
| Agronomy.FieldMasses | optim/solver.py:201-202 | one mix mass per field: the sum of that field's doses |
| Agronomy.AdmittedPlanNeverExceeds | optim/solver.py:201-202 | with the per-field reading, a plan the engine admits never reads as exceeding the mix cap |

## Left out

- The CBC solve itself. It is an oracle parameter, and the model assumes only that an "Optimal" answer is admissible. Optimality of the plan is not modelled.
- Reading and writing files: CSV parsing, the delimiter sniffing, the UTF-8 BOM on the whole file, and the file system. Each table arrives as a header and rows of cells, and each output is a value.
- Parsing a cell's text to a number. It is folded into `Cell.num`, pandas' numeric reading of the cell.
- Floating point. Every quantity is an exact real. `round` is modelled as round-half-even on reals, and binary representation effects on ties are not modelled. `int(round(x, 0))` and `f"{n:,.0f}"` are exact only below 2^53.
- `--reqpath`. It is read at optim/solver.py:35-36, but the table read there is never used; the run reads the fixed requirements file. Option values (float parsing, argparse abbreviations) are not modelled: `Cli` only decides which option names are accepted.
- Duplicate field or product identifiers. They are modelled positionally, so each row is its own field or product. In the source, dictionaries keyed by identifier keep the last row.
- A non-numeric area or requirement. It is modelled as a crash (`AreaNotNumeric`, `RequirementNotNumeric`), where in the source a text requirement makes `float(...)` at optim/solver.py:124-126 raise ValueError, a blank one becomes NaN and propagates into the solver, and a text area fails when the objective multiplies it. A duplicated crop row is modelled as a crash (`CropAmbiguous`).
- `Clp.ParseCost`: `isdigit` is modelled on ASCII digits only. Python also accepts other Unicode digits.
- `Clp.ParseCost`: the main dashboard's reader raises on a missing path, where the backup's reads 0. The model takes the backup's guard, with `None` standing for both a missing path and a missing file.
- The predominant product (`idxmax` over "% mezcla") and the literal sentences of the agronomic reading. The reading is modelled by its decisions (phrase, potassium note, mix class), not by its wording.
- The order of pandas' `groupby` groups. Only sums over the groups are used, and they do not depend on the order.
- The products table the agronomic reading reads: it is taken as already parsed, without the engine's header normalisation.
- Agronomy.ClassifyPerField: it compares the plan's exact per-field masses with the cap. A per-field table total built from rounded doses can exceed the exact mass by 0.005 per product.
- The Streamlit interface, the map widget, geodesic polygon areas, the PDF report, the duplicated reading block of the backup dashboard (lines 832-865, identical in decisions to lines 685-717), and the PDF-patching tool under tools/. These are presentation or I/O outside the blend logic.
- Extract.SortRows: it orders field and product identifiers as text. When every identifier in the fields table (resp. every product name) is a number, pandas reads that column as numbers (optim/solver.py:66, 68, 103-104), and `sort_values` at optim/solver.py:230 then orders those identifiers numerically (1, 2, 10 rather than 1, 10, 2). Such identifiers are also rewritten in the output in pandas' numeric form ("01" is written as "1"), which the model does not do either.
- Agronomy.Value: a percentage column holding non-numeric text is read by pandas as text, and the contribution at app/optimizador_respaldo_1610.py:692 then raises TypeError. The model takes the percentage columns as numeric, with blank cells missing.
- Markdown cell rendering: `df_to_md_table` renders each header and cell with `str(x)` (app/optimizador.py:54, 57). The model takes the cells as already rendered text, so pandas' rendering of numbers (`400.0`, `nan`) is not modelled.
- A malformed saved GeoJSON file: JSON that is not an object, or a collection whose "features" is null, makes the save at app/optimizador_respaldo_1610.py:561-564 raise. The model represents the stored document only by its "type" and "features" members, and reads a null "features" as an absent one, which keeps nothing.
- Drawings.Fallback: its "first option" is the first of the options as given. The dashboard builds the options with `sorted(...unique())` (app/optimizador_respaldo_1610.py:603), so there it is the alphabetically smallest crop; the sorting itself is not modelled.
- Precheck.DiagnosticRefutesField and Pipeline.PrecheckRejectsOnlyInfeasible: both hold only for non-negative nutrient percentages. The percentages are read with `to_numeric` and no sign check (optim/solver.py:92), and with a negative percentage the rough bound at optim/solver.py:135-137 can reject a field the program could satisfy, which then exits as "modelo Infeasible" (Precheck.NegativeFractionRejectsFeasible). The model does not promise the pre-check's soundness for such inputs.
- The summary cost includes doses too small to be listed in the dose table (`Extract.UnlistedDoseStillCosts`). A description that reads the cost as the cost of the listed doses disagrees with the code, and the model follows the code.

## Findings

| source | as written | input that shows it | evidently intended | confidence | as-written member | corrected member |
|---|---|---|---|---|---|---|
| optim/solver.py:20-41 | the parser never declares `--tag`, yet line 39 reads `args.tag` | the backup dashboard's `--tag A` is rejected by the parser (exit 2); the current dashboard's `--out_csv`/`--out_txt` pass the parser, then line 39 raises AttributeError (exit 1) | declare `--tag`, so a tagged run writes `resultados_dosis_{tag}.csv` and `_resumen_{tag}.txt`, the files app/optimizador_respaldo_1610.py:495-496 looks for | not executed | Cli.LaunchAsWritten, Cli.DashboardsCannotStartARun | Cli.StartRun, Cli.BackupDashboardFindsItsFiles |
| app/optimizador_respaldo_1610.py:712-717 | the mix limit, a per-field cap in kg/ha, is compared with the sum of kg/ha over ALL fields; a limit of 0 (allowed by the inputs at lines 483 and 488, and read as "no cap" by the engine) is compared literally | two fields with 400 kg/ha each under a 600 kg/ha cap read "supera el límite"; any positive mix with limit 0 reads "supera" | compare each field's mix with the cap, and say nothing when the cap is disabled | not executed | Agronomy.SummedFieldsReadAsExceeded, Agronomy.ZeroLimitReadsAsExceeded | Agronomy.ClassifyPerField, Agronomy.AdmittedPlanNeverExceeds |

=== FILE: agronomy.dfy ===
/** The dashboard's agronomic reading of a scenario's dose table: the
    per-product nutrient contributions, whether each nutrient is present,
    the sentence chosen from those flags, and where the total mix stands
    against the mix limit. */
module Agronomy {
  import opened Wrappers
  import opened Blend
  import opened Extract
  import opened Seqs

  // ---------------------------------------------------------------------
  // Joining the dose table with the product percentages
  // ---------------------------------------------------------------------

  /** A product's nutrient percentages as read from the product table,
      whose percentage columns are numeric; a blank cell (NaN) is missing. */
  datatype Percentages = Percentages(name: string, n: Option<real>, p: Option<real>, k: Option<real>)

  /** A dose row after the left join on the product name: its dose and the
      matched percentages, or None when no product row has that name. */
  datatype Joined = Joined(product: string, kgHa: real, pct: Option<Percentages>)

  function Matches(prods: seq<Percentages>, name: string): (r: seq<Percentages>)
    ensures forall q :: q in r <==> q in prods && q.name == name
  {
    if prods == [] then []
    else (if prods[0].name == name then [prods[0]] else []) + Matches(prods[1..], name)
  }

  /** One dose row joined: one row per matching product row, or a single
      row without percentages when nothing matches. */
  function JoinRow(row: DoseRow, prods: seq<Percentages>): (r: seq<Joined>)
    ensures |r| >= 1
    ensures var ms := Matches(prods, row.product); |r| == if ms == [] then 1 else |ms|
    ensures var ms := Matches(prods, row.product);
      ms != [] ==> forall i :: 0 <= i < |r| ==> r[i].pct == Some(ms[i])
    ensures forall i :: 0 <= i < |r| ==> r[i].product == row.product && r[i].kgHa == row.kgHa
    ensures forall i :: 0 <= i < |r| ==>
      (r[i].pct.None? <==> forall q :: q in prods ==> q.name != row.product)
    ensures forall i :: 0 <= i < |r| && r[i].pct.Some? ==>
      r[i].pct.value in prods && r[i].pct.value.name == row.product
  {
    var ms := Matches(prods, row.product);
    if ms == [] then [Joined(row.product, row.kgHa, None)]
    else
      assert ms[0] in prods;
      seq(|ms|, i requires 0 <= i < |ms| => Joined(row.product, row.kgHa, Some(ms[i])))
  }

  /** Each dose row's joined rows, dose row by dose row. */
  function JoinBlocks(rows: seq<DoseRow>, prods: seq<Percentages>): (bs: seq<seq<Joined>>)
    ensures |bs| == |rows|
    ensures forall i :: 0 <= i < |rows| ==> bs[i] == JoinRow(rows[i], prods)
  {
    seq(|rows|, i requires 0 <= i < |rows| => JoinRow(rows[i], prods))
  }

  /** The left join, keeping the dose table's row order: dose row `i`'s
      joined rows form block `i`. */
  function LeftJoin(rows: seq<DoseRow>, prods: seq<Percentages>): (r: seq<Joined>)
    ensures r == Flatten(JoinBlocks(rows, prods))
    ensures |r| >= |rows|
    ensures forall j :: j in r ==> exists d :: d in rows && d.product == j.product && d.kgHa == j.kgHa
  {
    if rows == [] then []
    else
      var head := JoinRow(rows[0], prods);
      assert forall i :: 0 <= i < |head| ==> head[i] in head;
      assert JoinBlocks(rows, prods)[1..] == JoinBlocks(rows[1..], prods);
      head + LeftJoin(rows[1..], prods)
  }

  // ---------------------------------------------------------------------
  // Contributions and group sums
  // ---------------------------------------------------------------------

  /** A column of the summary: the dose itself, or one nutrient's
      contribution. */
  datatype Measure = Dose | Contribution(nut: Nutrient)

  function Pct(q: Percentages, nut: Nutrient): Option<real> {
    match nut
    case N => q.n
    case P2O5 => q.p
    case K2O => q.k
  }

  /** A joined row's value in a column: the dose, or dose * pct / 100. A
      missing percentage makes the product undefined, which the sums skip,
      so it counts as 0. */
  function Value(j: Joined, m: Measure): (v: real)
    ensures m.Contribution? && (j.pct.None? || Pct(j.pct.value, m.nut).None?) ==> v == 0.0
    ensures m.Contribution? && j.pct.Some? && Pct(j.pct.value, m.nut).Some? ==>
      v * 100.0 == j.kgHa * Pct(j.pct.value, m.nut).value
  {
    match m
    case Dose => j.kgHa
    case Contribution(nut) =>
      if j.pct.None? || Pct(j.pct.value, nut).None? then 0.0
      else j.kgHa * Pct(j.pct.value, nut).value / 100.0
  }

  /** The column's plain total over all joined rows. */
  function Total(js: seq<Joined>, m: Measure): real {
    if js == [] then 0.0 else Value(js[0], m) + Total(js[1..], m)
  }

  /** The column's sum over the rows of product `g`. */
  function GroupTotal(js: seq<Joined>, g: string, m: Measure): real {
    if js == [] then 0.0
    else (if js[0].product == g then Value(js[0], m) else 0.0) + GroupTotal(js[1..], g, m)
  }

  predicate Distinct(gs: seq<string>) {
    forall a, b :: 0 <= a < b < |gs| ==> gs[a] != gs[b]
  }

  /** The product names of the joined rows, each once, in order of first
      appearance. */
  function Names(js: seq<Joined>): (gs: seq<string>)
    ensures Distinct(gs)
    ensures forall j :: j in js ==> j.product in gs
    ensures forall g :: g in gs ==> exists j :: j in js && j.product == g
  {
    if js == [] then []
    else
      var rest := Names(js[1..]);
      if js[0].product in rest then rest else [js[0].product] + rest
  }

  /** Sum over the groups `gs` of each group's total. */
  function SumGroups(js: seq<Joined>, gs: seq<string>, m: Measure): real {
    if gs == [] then 0.0 else GroupTotal(js, gs[0], m) + SumGroups(js, gs[1..], m)
  }

  /** Sum over the groups `gs` of each group's total rounded to hundredths,
      as the summary table holds them. */
  function SumRoundedGroups(js: seq<Joined>, gs: seq<string>, m: Measure): real {
    if gs == [] then 0.0 else Round2(GroupTotal(js, gs[0], m)) + SumRoundedGroups(js, gs[1..], m)
  }

  /** A column's total as the dashboard computes it: the sum of the rounded
      per-product sums. */
  function SummaryTotal(js: seq<Joined>, m: Measure): real {
    SumRoundedGroups(js, Names(js), m)
  }

  /** A nutrient counts as present when its summary total exceeds 0.5. */
  predicate Present(js: seq<Joined>, nut: Nutrient) {
    SummaryTotal(js, Contribution(nut)) > 0.5
  }

  // ---------------------------------------------------------------------
  // Regrouping and rounding
  // ---------------------------------------------------------------------

  function Occurrences(gs: seq<string>, g: string): nat {
    if gs == [] then 0 else (if gs[0] == g then 1 else 0) + Occurrences(gs[1..], g)
  }

  lemma {:induction false} OccursOnce(gs: seq<string>, g: string)
    requires Distinct(gs) && g in gs
    ensures Occurrences(gs, g) == 1
  {
    if gs[0] == g {
      OccursNot(gs[1..], g);
    } else {
      OccursOnce(gs[1..], g);
    }
  }

  lemma {:induction false} OccursNot(gs: seq<string>, g: string)
    requires g !in gs
    ensures Occurrences(gs, g) == 0
  {
    if gs != [] {
      OccursNot(gs[1..], g);
    }
  }

  /** `v` added up `k` times. */
  function Times(k: nat, v: real): real {
    if k == 0 then 0.0 else v + Times(k - 1, v)
  }

  /** Summing the groups splits off the first joined row: it is counted once
      per group that names its product. */
  lemma {:induction false} PeelFirst(js: seq<Joined>, gs: seq<string>, m: Measure)
    requires js != []
    ensures SumGroups(js, gs, m)
      == Times(Occurrences(gs, js[0].product), Value(js[0], m)) + SumGroups(js[1..], gs, m)
  {
    if gs != [] {
      var g, v := js[0].product, Value(js[0], m);
      PeelFirst(js, gs[1..], m);
      if gs[0] == g {
        assert GroupTotal(js, gs[0], m) == v + GroupTotal(js[1..], gs[0], m);
        assert Occurrences(gs, g) == 1 + Occurrences(gs[1..], g);
      } else {
        assert GroupTotal(js, gs[0], m) == GroupTotal(js[1..], gs[0], m);
      }
    }
  }

  /** Summing per product over distinct names that cover every row gives the
      plain total. */
  lemma {:induction false} Regroup(js: seq<Joined>, gs: seq<string>, m: Measure)
    requires Distinct(gs)
    requires forall j :: j in js ==> j.product in gs
    ensures SumGroups(js, gs, m) == Total(js, m)
  {
    if js == [] {
      ZeroGroups(gs, m);
    } else {
      PeelFirst(js, gs, m);
      assert js[0] in js;
      OccursOnce(gs, js[0].product);
      forall j | j in js[1..]
        ensures j.product in gs
      {
        assert j in js;
      }
      Regroup(js[1..], gs, m);
    }
  }

  lemma {:induction false} ZeroGroups(gs: seq<string>, m: Measure)
    ensures SumGroups([], gs, m) == 0.0
  {
    if gs != [] {
      ZeroGroups(gs[1..], m);
    }
  }

  /** Rounding each group moves the sum by at most half a hundredth per
      group. */
  lemma {:induction false} RoundedGroupsClose(js: seq<Joined>, gs: seq<string>, m: Measure)
    ensures -0.005 * (|gs| as real) <= SumRoundedGroups(js, gs, m) - SumGroups(js, gs, m) <= 0.005 * (|gs| as real)
  {
    if gs != [] {
      RoundedGroupsClose(js, gs[1..], m);
    }
  }

  /** The summary total is within half a hundredth per product of the plain
      total of the column. */
  lemma SummaryTotalClose(js: seq<Joined>, m: Measure)
    ensures var slack := 0.005 * (|Names(js)| as real);
      -slack <= SummaryTotal(js, m) - Total(js, m) <= slack
  {
    Regroup(js, Names(js), m);
    RoundedGroupsClose(js, Names(js), m);
  }

  /** Presence follows the actual contribution except within the rounding
      slack: clearly above 0.5 it is present, clearly below it is not. */
  lemma PresenceFollowsContribution(js: seq<Joined>, nut: Nutrient)
    ensures var slack := 0.005 * (|Names(js)| as real);
      && (Total(js, Contribution(nut)) > 0.5 + slack ==> Present(js, nut))
      && (Total(js, Contribution(nut)) + slack <= 0.5 ==> !Present(js, nut))
  {
    SummaryTotalClose(js, Contribution(nut));
  }

  // ---------------------------------------------------------------------
  // The reading
  // ---------------------------------------------------------------------

  /** The clause explaining the predominant product. */
  datatype Phrase = DoubleNP | MainN | MainP | AddsK | NoPhrase

  /** N and P together take precedence, then N, then P, then K. */
  function PhraseOf(n: bool, p: bool, k: bool): (r: Phrase)
    ensures r == DoubleNP <==> n && p
    ensures r == MainN <==> n && !p
    ensures r == MainP <==> !n && p
    ensures r == AddsK <==> !n && !p && k
    ensures r == NoPhrase <==> !n && !p && !k
  {
    if n && p then DoubleNP
    else if n then MainN
    else if p then MainP
    else if k then AddsK
    else NoPhrase
  }

  datatype MixClass = Below | Near | Exceeds

  function Rank(c: MixClass): nat {
    match c
    case Below => 0
    case Near => 1
    case Exceeds => 2
  }

  /** The total mix against the limit: under 90% of it is below, up to the
      limit is near, beyond is exceeding; with no limit there is no
      sentence. */
  function Classify(total: real, limit: Option<real>): (r: Option<MixClass>)
    ensures r.None? <==> limit.None?
    ensures r == Some(Below) <==> limit.Some? && total < 0.9 * limit.value
    ensures r == Some(Near) <==> limit.Some? && 0.9 * limit.value <= total <= limit.value
    ensures r == Some(Exceeds) <==> limit.Some? && total >= 0.9 * limit.value && total > limit.value
  {
    match limit
    case None => None
    case Some(lim) =>
      if total < 0.9 * lim then Some(Below)
      else if total <= lim then Some(Near)
      else Some(Exceeds)
  }

  /** A larger mix never reads as a better class. */
  lemma ClassifyMonotone(a: real, b: real, lim: real)
    requires a <= b
    ensures Rank(Classify(a, Some(lim)).value) <= Rank(Classify(b, Some(lim)).value)
  {
  }

  /** What the dashboard says about a scenario. */
  datatype Reading = Reading(phrase: Phrase, noPotassium: bool, mix: Option<MixClass>)

  /** The reading of a dose table, as written: the flags from the summary
      totals, and the total of all doses on all fields against the mix
      limit. */
  function Interpret(rows: seq<DoseRow>, prods: seq<Percentages>, limit: Option<real>): (r: Reading)
    ensures var js := LeftJoin(rows, prods);
      && r.phrase == PhraseOf(Present(js, N), Present(js, P2O5), Present(js, K2O))
      && (r.phrase == DoubleNP <==> Present(js, N) && Present(js, P2O5))
      && (r.phrase == AddsK <==> !Present(js, N) && !Present(js, P2O5) && Present(js, K2O))
      && (r.noPotassium <==> !Present(js, K2O))
      && r.mix == Classify(SummaryTotal(js, Dose), limit)
  {
    var js := LeftJoin(rows, prods);
    Reading(PhraseOf(Present(js, N), Present(js, P2O5), Present(js, K2O)),
            !Present(js, K2O),
            Classify(SummaryTotal(js, Dose), limit))
  }

  // ---------------------------------------------------------------------
  // The mix limit is per field, and 0 means none
  // ---------------------------------------------------------------------

  /** The largest of a non-empty list. */
  function Largest(ts: seq<real>): (m: real)
    requires ts != []
    ensures forall i :: 0 <= i < |ts| ==> ts[i] <= m
    ensures exists i :: 0 <= i < |ts| && ts[i] == m
  {
    if |ts| == 1 then ts[0]
    else
      var rest := Largest(ts[1..]);
      if ts[0] >= rest then ts[0] else rest
  }

  /** The classification the engine's own rules call for: the limit binds
      each field separately and only when positive, so the worst field is
      compared with it, and a limit of 0 gives no sentence. */
  function ClassifyPerField(mixes: seq<real>, lim: real): (r: Option<MixClass>)
    ensures r.None? <==> lim <= 0.0 || mixes == []
    ensures r == Some(Exceeds) <==> lim > 0.0 && exists i :: 0 <= i < |mixes| && mixes[i] > lim
  {
    if lim <= 0.0 || mixes == [] then None else Classify(Largest(mixes), Some(lim))
  }

  /** The mass mixed on each field by a plan. */
  function FieldMasses(pb: Problem, x: seq<seq<real>>): (ms: seq<real>)
    requires Shaped(pb, x)
    ensures |ms| == |pb.fields|
    ensures forall j :: 0 <= j < |ms| ==> ms[j] == Mass(Column(x, j))
  {
    seq(|pb.fields|, j requires 0 <= j < |pb.fields| => Mass(Column(x, j)))
  }

  /** With the per-field rule, a plan the engine admits never reads as
      exceeding the limit it was solved under. */
  lemma AdmittedPlanNeverExceeds(pb: Problem, x: seq<seq<real>>)
    requires Feasible(pb, x)
    ensures ClassifyPerField(FieldMasses(pb, x), pb.params.mixmax) != Some(Exceeds)
  {
  }

  /** As written, a limit of 0, which the engine reads as "no limit", makes
      every positive mix read as exceeding it; the per-field rule says
      nothing. */
  lemma ZeroLimitReadsAsExceeded(total: real, mixes: seq<real>)
    requires total > 0.0
    ensures Classify(total, Some(0.0)) == Some(Exceeds)
    ensures !MixCapOn(Params(0.0, 0.0, 0.0, 0.0))
    ensures ClassifyPerField(mixes, 0.0).None?
  {
  }

  // Two fields each mixing 400 kg/ha of urea under a 600 kg/ha limit.
  const ExampleUrea: Product := Product("urea", 0.46, 0.0, 0.0, 500000.0, 0.0, 1000.0)
  const ExampleProblem: Problem :=
    Problem([ExampleUrea],
            [FieldSpec("P1", 1.0, Req(100.0, 0.0, 0.0)), FieldSpec("P2", 1.0, Req(100.0, 0.0, 0.0))],
            Params(0.0, 600.0, 0.02, 0.0))
  const ExamplePlan: seq<seq<real>> := [[400.0, 400.0]]
  const ExampleRows: seq<DoseRow> := [DoseRow("P1", "urea", 400.0), DoseRow("P2", "urea", 400.0)]
  const ExamplePercentages: seq<Percentages> := [Percentages("urea", Some(46.0), Some(0.0), Some(0.0))]

  lemma ExamplePlanAdmitted()
    ensures Feasible(ExampleProblem, ExamplePlan)
  {
    var pb, x := ExampleProblem, ExamplePlan;
    forall j | 0 <= j < 2
      ensures FieldFeasible(pb.products, pb.fields[j], pb.params, Column(x, j))
    {
      var col := Column(x, j);
      assert col == [400.0];
      assert Mass(col) == 400.0;
      forall nut: Nutrient
        ensures Supply(pb.products, col, nut) >= Effective(pb.fields[j].req, pb.params.tol, nut)
      {
        assert Supply(pb.products, col, nut) == 400.0 * Frac(ExampleUrea, nut);
      }
    }
  }

  lemma ExampleRowsWritten()
    ensures Shaped(ExampleProblem, ExamplePlan)
    ensures ExtractRows(ExampleProblem, ExamplePlan) == ExampleRows
  {
    var pb, x := ExampleProblem, ExamplePlan;
    ExampleProductRows();
    assert Blocks(pb, x) == [ExampleRows];
    assert Flatten([ExampleRows]) == ExampleRows + Flatten([ExampleRows][1..]);
  }

  lemma ExampleProductRows()
    ensures ProductRows("urea", ExamplePlan[0], ExampleProblem.fields) == ExampleRows
  {
    var row := ExamplePlan[0];
    assert row[..1] == [400.0] && [400.0][..0] == [];
    assert ListedAt(row) == [0, 1];
    RoundHalfEvenOfInt(40000);
    assert Round2(400.0) == 400.0;
  }

  lemma ExampleJoined()
    ensures LeftJoin(ExampleRows, ExamplePercentages)
            == [Joined("urea", 400.0, Some(ExamplePercentages[0])), Joined("urea", 400.0, Some(ExamplePercentages[0]))]
  {
    var prods := ExamplePercentages;
    assert Matches(prods, "urea") == prods;
    var one := [Joined("urea", 400.0, Some(prods[0]))];
    assert JoinRow(ExampleRows[0], prods) == one;
    assert JoinRow(ExampleRows[1], prods) == one;
    assert LeftJoin(ExampleRows[1..][1..], prods) == [];
  }

  lemma ExampleSummedMix()
    ensures SummaryTotal(LeftJoin(ExampleRows, ExamplePercentages), Dose) == 800.0
  {
    var prods := ExamplePercentages;
    var js := LeftJoin(ExampleRows, prods);
    ExampleJoined();
    assert Names(js[1..]) == ["urea"];
    assert Names(js) == ["urea"];
    assert GroupTotal(js[1..][1..], "urea", Dose) == 0.0;
    assert GroupTotal(js[1..], "urea", Dose) == 400.0;
    assert GroupTotal(js, "urea", Dose) == 800.0;
    RoundHalfEvenOfInt(80000);
    assert Round2(800.0) == 800.0;
    assert SumRoundedGroups(js, ["urea"][1..], Dose) == 0.0;
    assert SumRoundedGroups(js, ["urea"], Dose) == 800.0;
  }

  /** As written, two fields each mixing 400 kg/ha under a 600 kg/ha limit,
      a plan the engine admits, read as exceeding the limit, because the
      doses of both fields are added up; the per-field rule reads "below". */
  lemma SummedFieldsReadAsExceeded()
    ensures Feasible(ExampleProblem, ExamplePlan)
    ensures ExtractRows(ExampleProblem, ExamplePlan) == ExampleRows
    ensures Interpret(ExampleRows, ExamplePercentages, Some(600.0)).mix == Some(Exceeds)
    ensures ClassifyPerField(FieldMasses(ExampleProblem, ExamplePlan), 600.0) == Some(Below)
  {
    ExamplePlanAdmitted();
    ExampleRowsWritten();
    ExampleSummedClass();
    ExamplePerField();
  }

  lemma ExampleSummedClass()
    ensures Interpret(ExampleRows, ExamplePercentages, Some(600.0)).mix == Some(Exceeds)
  {
    ExampleSummedMix();
    assert Classify(800.0, Some(600.0)) == Some(Exceeds);
  }

  lemma ExamplePerField()
    ensures ClassifyPerField(FieldMasses(ExampleProblem, ExamplePlan), 600.0) == Some(Below)
  {
    var ms := FieldMasses(ExampleProblem, ExamplePlan);
    assert Column(ExamplePlan, 0) == [400.0];
    assert Column(ExamplePlan, 1) == [400.0];
    assert Mass([400.0]) == 400.0 + Mass([]);
    assert ms == [400.0, 400.0];
    assert Largest(ms) == 400.0;
  }
}

=== FILE: blend.dfy ===
/** The linear program the engine hands to its solver, written as
    predicates: which dose plans are admissible and what they cost.
    A dose plan `x` is indexed product-first, `x[i][j]` being the dose in
    kg/ha of product `i` on field `j`, as the solver's variables are. */
module Blend {

  /** The three nutrient axes, in the engine's column order. */
  datatype Nutrient = N | P2O5 | K2O

  /** A product after loading: nutrient contents as FRACTIONS (percent / 100),
      price in CLP per tonne, and per-hectare dose bounds in kg/ha. */
  datatype Product = Product(
    name: string,
    n: real, p: real, k: real,
    price: real,
    dmin: real, dmax: real)

  /** Per-hectare requirement of a crop, in kg/ha of each nutrient. */
  datatype Req = Req(n: real, p: real, k: real)

  /** A field as the optimisation sees it: its identifier, area in hectares
      and the requirement of its crop. */
  datatype FieldSpec = FieldSpec(name: string, area: real, req: Req)

  /** The scenario parameters: nutrient cap on N and mix cap (0 or less =
      disabled), tolerance fraction, application cost in CLP per tonne. */
  datatype Params = Params(nmax: real, mixmax: real, tol: real, costoap: real)

  /** The command-line defaults. */
  const DefaultParams := Params(0.0, 0.0, 0.02, 0.0)

  datatype Problem = Problem(products: seq<Product>, fields: seq<FieldSpec>, params: Params)

  function Frac(pr: Product, nut: Nutrient): real {
    match nut
    case N => pr.n
    case P2O5 => pr.p
    case K2O => pr.k
  }

  function Amount(r: Req, nut: Nutrient): real {
    match nut
    case N => r.n
    case P2O5 => r.p
    case K2O => r.k
  }

  predicate MixCapOn(ps: Params) {
    ps.mixmax > 0.0
  }

  predicate NCapOn(ps: Params) {
    ps.nmax > 0.0
  }

  /** The tolerance-relaxed requirement, (1 - tol) * requirement. */
  function Effective(r: Req, tol: real, nut: Nutrient): real {
    (1.0 - tol) * Amount(r, nut)
  }

  /** Nutrient delivered by doses `ds` of products `ps` (one dose each). */
  function Supply(ps: seq<Product>, ds: seq<real>, nut: Nutrient): real
    requires |ps| == |ds|
  {
    if |ds| == 0 then 0.0
    else ds[0] * Frac(ps[0], nut) + Supply(ps[1..], ds[1..], nut)
  }

  /** Total mass of the doses `ds`. */
  function Mass(ds: seq<real>): real {
    if |ds| == 0 then 0.0 else ds[0] + Mass(ds[1..])
  }

  /** Every product has a dose on every field. */
  predicate Shaped(pb: Problem, x: seq<seq<real>>) {
    && |x| == |pb.products|
    && forall i :: 0 <= i < |x| ==> |x[i]| == |pb.fields|
  }

  /** The doses of all products on field `j`, in product order. */
  function Column(x: seq<seq<real>>, j: nat): (col: seq<real>)
    requires forall i :: 0 <= i < |x| ==> j < |x[i]|
    ensures |col| == |x|
    ensures forall i :: 0 <= i < |x| ==> col[i] == x[i][j]
  {
    seq(|x|, i requires 0 <= i < |x| => x[i][j])
  }

  /** The constraints the engine states for one field: sufficiency of each
      nutrient with tolerance, the mix cap and the N cap when enabled, and
      the dose bounds of every product (with x >= 0 from the variables'
      lower bound). */
  predicate FieldFeasible(ps: seq<Product>, f: FieldSpec, prm: Params, col: seq<real>)
    requires |col| == |ps|
  {
    && (forall nut: Nutrient :: Supply(ps, col, nut) >= Effective(f.req, prm.tol, nut))
    && (MixCapOn(prm) ==> Mass(col) <= prm.mixmax)
    && (NCapOn(prm) ==> Supply(ps, col, N) <= prm.nmax)
    && (forall i :: 0 <= i < |col| ==> 0.0 <= col[i] && ps[i].dmin <= col[i] <= ps[i].dmax)
  }

  /** A plan the linear program admits. */
  predicate Feasible(pb: Problem, x: seq<seq<real>>) {
    && Shaped(pb, x)
    && forall j :: 0 <= j < |pb.fields| ==>
         FieldFeasible(pb.products, pb.fields[j], pb.params, Column(x, j))
  }

  // ---------------------------------------------------------------------
  // Objective
  // ---------------------------------------------------------------------

  /** Sum over the first `m` fields of dose * area * rate for one product's
      row of doses. */
  function RowCost(row: seq<real>, fs: seq<FieldSpec>, rate: real, m: nat): real
    requires m <= |row| && m <= |fs|
  {
    if m == 0 then 0.0
    else RowCost(row, fs, rate, m - 1) + row[m - 1] * fs[m - 1].area * rate
  }

  /** Product cost of the first `n` products: price per tonne / 1000 gives
      price per kg. */
  function ProductCost(pb: Problem, x: seq<seq<real>>, n: nat): real
    requires Shaped(pb, x) && n <= |x|
  {
    if n == 0 then 0.0
    else ProductCost(pb, x, n - 1)
         + RowCost(x[n - 1], pb.fields, pb.products[n - 1].price / 1000.0, |pb.fields|)
  }

  /** Application cost of the first `n` products at `costoap` per tonne. */
  function ApplicationCost(pb: Problem, x: seq<seq<real>>, n: nat): real
    requires Shaped(pb, x) && n <= |x|
  {
    if n == 0 then 0.0
    else ApplicationCost(pb, x, n - 1)
         + RowCost(x[n - 1], pb.fields, pb.params.costoap / 1000.0, |pb.fields|)
  }

  /** The objective the engine minimises: product cost, plus application
      cost only when `costoap` is positive. */
  function Objective(pb: Problem, x: seq<seq<real>>): real
    requires Shaped(pb, x)
  {
    ProductCost(pb, x, |x|)
    + (if pb.params.costoap > 0.0 then ApplicationCost(pb, x, |x|) else 0.0)
  }

  // ---------------------------------------------------------------------
  // How the feasible region moves with the parameters
  // ---------------------------------------------------------------------

  /** `looser` admits at least what `tight` admits: no smaller tolerance,
      and each cap either disabled or no lower than an enabled tight cap. */
  predicate Looser(tight: Params, looser: Params) {
    && tight.tol <= looser.tol
    && (MixCapOn(looser) ==> MixCapOn(tight) && tight.mixmax <= looser.mixmax)
    && (NCapOn(looser) ==> NCapOn(tight) && tight.nmax <= looser.nmax)
  }

  /** Raising the tolerance lowers every effective requirement, provided
      the requirement itself is not negative. */
  lemma EffectiveAntitone(r: Req, tol1: real, tol2: real, nut: Nutrient)
    requires tol1 <= tol2
    requires Amount(r, nut) >= 0.0
    ensures Effective(r, tol2, nut) <= Effective(r, tol1, nut)
  {
    assert (tol2 - tol1) * Amount(r, nut) >= 0.0;
  }

  /** A plan admissible under tighter parameters stays admissible under
      looser ones, when requirements are not negative: the feasible region
      only grows. */
  lemma FeasibleUnderLooser(pb: Problem, x: seq<seq<real>>, prm: Params)
    requires Feasible(pb, x)
    requires Looser(pb.params, prm)
    requires forall j, nut: Nutrient :: 0 <= j < |pb.fields| ==> Amount(pb.fields[j].req, nut) >= 0.0
    ensures Feasible(pb.(params := prm), x)
  {
    var pb2 := pb.(params := prm);
    forall j | 0 <= j < |pb.fields|
      ensures FieldFeasible(pb2.products, pb2.fields[j], prm, Column(x, j))
    {
      var col := Column(x, j);
      forall nut: Nutrient
        ensures Supply(pb.products, col, nut) >= Effective(pb.fields[j].req, prm.tol, nut)
      {
        EffectiveAntitone(pb.fields[j].req, pb.params.tol, prm.tol, nut);
      }
    }
  }
}

=== FILE: cli.dfy ===
/** The engine's command line as far as it decides whether a run starts:
    which options the parser accepts, and the output file names derived
    from the scenario tag. Option values are not parsed here; the scenario
    parameters a run uses are `Blend.Params`. */
module Cli {
  import opened Wrappers

  /** One option on the command line, with its value. */
  datatype Flag = Flag(name: string, value: string)

  /** How the engine process ends before or at the start of a run. */
  datatype Start =
    | UsageError(flag: string)        // the parser rejects an option (exit 2)
    | MissingAttribute(name: string)  // an attribute the parser never set is read (exit 1)
    | Started(tag: Option<string>)    // the run proceeds with this tag

  /** The options the parser declares. */
  const Declared: seq<string> := ["--nmax", "--mixmax", "--tol", "--costoap", "--out_csv", "--out_txt", "--reqpath"]

  /** The options the parser declares once the tag option is added. */
  const DeclaredWithTag: seq<string> := Declared + ["--tag"]

  /** The first option that is not declared, if any. */
  function FirstUndeclared(flags: seq<Flag>, declared: seq<string>): (r: Option<string>)
    ensures r.None? <==> forall i :: 0 <= i < |flags| ==> flags[i].name in declared
    ensures r.Some? ==> r.value !in declared && exists i :: 0 <= i < |flags| && flags[i].name == r.value
  {
    if flags == [] then None
    else if flags[0].name !in declared then Some(flags[0].name)
    else
      var rest := FirstUndeclared(flags[1..], declared);
      assert forall i :: 1 <= i < |flags| ==> flags[i] == flags[1..][i - 1];
      rest
  }

  /** The value of the last occurrence of option `name`, as the parser
      keeps it. */
  function LastValue(flags: seq<Flag>, name: string): (r: Option<string>)
    ensures r.None? <==> forall i :: 0 <= i < |flags| ==> flags[i].name != name
    ensures r.Some? ==> exists i :: 0 <= i < |flags| && flags[i] == Flag(name, r.value)
  {
    if flags == [] then None
    else
      var last := flags[|flags| - 1];
      if last.name == name then Some(last.value)
      else
        var r := LastValue(flags[..|flags| - 1], name);
        assert forall i :: 0 <= i < |flags| - 1 ==> flags[..|flags| - 1][i] == flags[i];
        r
  }

  /** The start of a run as written: an undeclared option is rejected, and
      otherwise reading the tag attribute, which the parser never declares,
      fails. */
  function LaunchAsWritten(flags: seq<Flag>): (r: Start)
    ensures r.UsageError? <==> exists i :: 0 <= i < |flags| && flags[i].name !in Declared
  {
    match FirstUndeclared(flags, Declared)
    case Some(f) => UsageError(f)
    case None => MissingAttribute("tag")
  }

  /** No command line starts a run as written. */
  lemma NoRunStarts(flags: seq<Flag>)
    ensures !LaunchAsWritten(flags).Started?
    ensures LaunchAsWritten(flags).UsageError? || LaunchAsWritten(flags) == MissingAttribute("tag")
  {
  }

  /** The start of a run with the tag option declared (no tag by default). */
  function StartRun(flags: seq<Flag>): (r: Start)
    ensures r.UsageError? <==> exists i :: 0 <= i < |flags| && flags[i].name !in DeclaredWithTag
    ensures !r.MissingAttribute?
    ensures r.Started? ==> r.tag == LastValue(flags, "--tag")
  {
    match FirstUndeclared(flags, DeclaredWithTag)
    case Some(f) => UsageError(f)
    case None => Started(LastValue(flags, "--tag"))
  }

  /** The two output files of a run: the dose table and the cost summary,
      with "_" and the tag appended to their base names when a non-empty
      tag is given. */
  function OutputNames(tag: Option<string>): (names: (string, string))
    ensures tag.None? || tag.value == "" ==> names == ("resultados_dosis.csv", "_resumen.txt")
    ensures tag.Some? && tag.value != "" ==>
      names == ("resultados_dosis_" + tag.value + ".csv", "_resumen_" + tag.value + ".txt")
  {
    var suffix := if tag.Some? && tag.value != "" then "_" + tag.value else "";
    assert "resultados_dosis" + "" + ".csv" == "resultados_dosis.csv";
    assert "_resumen" + "" + ".txt" == "_resumen.txt";
    assert tag.Some? ==> "resultados_dosis" + ("_" + tag.value) == "resultados_dosis_" + tag.value;
    assert tag.Some? ==> "_resumen" + ("_" + tag.value) == "_resumen_" + tag.value;
    ("resultados_dosis" + suffix + ".csv", "_resumen" + suffix + ".txt")
  }

  /** The command line the backup dashboard builds for scenario `tag`. */
  function BackupDashboardFlags(nmax: string, mixmax: string, tol: string, costoap: string, tag: string): seq<Flag> {
    [Flag("--nmax", nmax), Flag("--mixmax", mixmax), Flag("--tol", tol), Flag("--costoap", costoap), Flag("--tag", tag)]
  }

  /** The command line the current dashboard builds. */
  function CurrentDashboardFlags(nmax: string, mixmax: string, tol: string, costoap: string,
                                 outCsv: string, outTxt: string): seq<Flag> {
    [Flag("--nmax", nmax), Flag("--mixmax", mixmax), Flag("--tol", tol), Flag("--costoap", costoap),
     Flag("--out_csv", outCsv), Flag("--out_txt", outTxt)]
  }

  /** As written, the backup dashboard's command line is rejected for its
      tag option, and the current dashboard's fails on the missing tag
      attribute. */
  lemma DashboardsCannotStartARun(nmax: string, mixmax: string, tol: string, costoap: string,
                                  tag: string, outCsv: string, outTxt: string)
    ensures LaunchAsWritten(BackupDashboardFlags(nmax, mixmax, tol, costoap, tag)) == UsageError("--tag")
    ensures LaunchAsWritten(CurrentDashboardFlags(nmax, mixmax, tol, costoap, outCsv, outTxt)) == MissingAttribute("tag")
  {
    BackupDashboardRejected(nmax, mixmax, tol, costoap, tag);
    CurrentDashboardAccepted(nmax, mixmax, tol, costoap, outCsv, outTxt);
  }

  /** The scenario options both dashboards pass are declared; the tag
      option is not. */
  lemma ScenarioOptionsDeclared()
    ensures "--nmax" in Declared && "--mixmax" in Declared && "--tol" in Declared && "--costoap" in Declared
    ensures "--out_csv" in Declared && "--out_txt" in Declared
    ensures "--tag" !in Declared
  {
    assert Declared[0] == "--nmax" && Declared[1] == "--mixmax" && Declared[2] == "--tol";
    assert Declared[3] == "--costoap" && Declared[4] == "--out_csv" && Declared[5] == "--out_txt";
    assert "--tag"[3] != "--tol"[3];
    forall k | 0 <= k < |Declared|
      ensures Declared[k] != "--tag"
    {
      if k != 2 {
        assert |Declared[k]| != |"--tag"|;
      }
    }
  }

  lemma BackupDashboardRejected(nmax: string, mixmax: string, tol: string, costoap: string, tag: string)
    ensures FirstUndeclared(BackupDashboardFlags(nmax, mixmax, tol, costoap, tag), Declared) == Some("--tag")
  {
    ScenarioOptionsDeclared();
    var b := BackupDashboardFlags(nmax, mixmax, tol, costoap, tag);
    assert FirstUndeclared(b[4..], Declared) == Some("--tag");
    assert FirstUndeclared(b[3..], Declared) == Some("--tag");
    assert FirstUndeclared(b[2..], Declared) == Some("--tag");
    assert FirstUndeclared(b[1..], Declared) == Some("--tag");
  }

  lemma CurrentDashboardAccepted(nmax: string, mixmax: string, tol: string, costoap: string,
                                 outCsv: string, outTxt: string)
    ensures FirstUndeclared(CurrentDashboardFlags(nmax, mixmax, tol, costoap, outCsv, outTxt), Declared).None?
  {
    ScenarioOptionsDeclared();
  }

  /** With the tag option declared, the backup dashboard's command line
      starts a run whose two output files are exactly the ones that
      dashboard then looks for. */
  lemma BackupDashboardFindsItsFiles(nmax: string, mixmax: string, tol: string, costoap: string, tag: string)
    requires tag != ""
    ensures StartRun(BackupDashboardFlags(nmax, mixmax, tol, costoap, tag)) == Started(Some(tag))
    ensures OutputNames(Some(tag)) == ("resultados_dosis_" + tag + ".csv", "_resumen_" + tag + ".txt")
  {
    var b := BackupDashboardFlags(nmax, mixmax, tol, costoap, tag);
    assert LastValue(b, "--tag") == Some(tag);
  }
}

=== FILE: clp.dfy ===
/** The dashboard's money helpers: the Chilean-peso formatter, the reader
    that pulls the cost back out of the engine's summary file, and the
    wording that describes a cost difference between two scenarios. */
module Clp {
  import opened Wrappers
  import opened Text
  import Extract

  // ---------------------------------------------------------------------
  // Formatting: "$" then the number with '.' as thousands separator
  // ---------------------------------------------------------------------

  /** `s` with every occurrence of `c` removed (Python's `replace(c, "")`). */
  function Erase(s: string, c: char): (r: string)
    ensures c !in r
    ensures |r| <= |s|
  {
    if s == [] then [] else (if s[0] == c then [] else [s[0]]) + Erase(s[1..], c)
  }

  lemma {:induction false} EraseAppend(a: string, b: string, c: char)
    ensures Erase(a + b, c) == Erase(a, c) + Erase(b, c)
  {
    if a != [] {
      assert (a + b)[1..] == a[1..] + b;
      EraseAppend(a[1..], b, c);
    } else {
      assert a + b == b;
    }
  }

  /** A separator between two pieces disappears, and a piece without it
      stays. */
  lemma {:induction false} EraseSeparator(a: string, b: string, c: char)
    requires c !in b
    ensures Erase(a + [c] + b, c) == Erase(a, c) + b
  {
    EraseAppend(a + [c], b, c);
    EraseAppend(a, [c], c);
    EraseAbsent(b, c);
    assert [c][1..] == [];
    assert Erase([c], c) == [] + Erase([], c);
    assert Erase(a + [c], c) == Erase(a, c);
  }

  lemma {:induction false} EraseAbsent(s: string, c: char)
    requires c !in s
    ensures Erase(s, c) == s
  {
    if s != [] {
      EraseAbsent(s[1..], c);
    }
  }

  /** A digit string with a '.' before every third digit counted from the
      right, as Python's `,` grouping followed by replacing ',' with '.'. */
  function Group(d: string): (r: string)
    ensures |d| >= 1 ==> |r| >= 1 && r[0] == d[0]
  {
    if |d| <= 3 then d else Group(d[..|d| - 3]) + "." + d[|d| - 3..]
  }

  /** The Chilean-peso rendering of an integer: "$", the sign of a negative
      amount, then the grouped digits (so -1234 shows as "$-1.234"). */
  function FormatClp(n: int): (r: string)
    ensures |r| >= 2 && r[0] == '$'
    ensures n < 0 <==> r[1] == '-'
  {
    "$" + (if n < 0 then "-" else "") + Group(NatToString(Abs(n)))
  }

  /** The digits part of a formatted amount, after "$" and any sign. */
  function GroupedPart(n: int): (g: string)
    ensures FormatClp(n) == "$" + (if n < 0 then "-" else "") + g
  {
    Group(NatToString(Abs(n)))
  }

  /** Well-formed thousands grouping: the pieces between the dots are digit
      strings, the first has one to three digits and every other exactly
      three. */
  predicate WellGrouped(s: string) {
    var parts := Split(s, '.');
    && 1 <= |parts[0]| <= 3
    && (forall k :: 1 <= k < |parts| ==> |parts[k]| == 3)
    && (forall k :: 0 <= k < |parts| ==> AllDigits(parts[k]))
  }

  /** The last group split off by `Group`. */
  lemma GroupLast(d: string)
    requires |d| > 3 && AllDigits(d)
    ensures Group(d) == Group(d[..|d| - 3]) + ['.'] + d[|d| - 3..]
    ensures AllDigits(d[..|d| - 3]) && AllDigits(d[|d| - 3..]) && '.' !in d[|d| - 3..]
  {
    var t := d[|d| - 3..];
    assert forall k :: 0 <= k < |t| ==> IsDigit(t[k]);
  }

  lemma NoDot(d: string)
    requires AllDigits(d)
    ensures '.' !in d
  {
    assert forall k :: 0 <= k < |d| ==> IsDigit(d[k]);
  }

  lemma {:induction false} GroupSplit(d: string)
    requires 1 <= |d| && AllDigits(d)
    ensures WellGrouped(Group(d))
  {
    if |d| <= 3 {
      NoDot(d);
      SplitNoSeparator(d, '.');
    } else {
      GroupLast(d);
      var p, t := d[..|d| - 3], d[|d| - 3..];
      GroupSplit(p);
      SplitConcat(Group(p), '.', t);
      SplitNoSeparator(t, '.');
      assert Split(Group(d), '.') == Split(Group(p), '.') + [t];
    }
  }

  lemma {:induction false} GroupErase(d: string)
    requires AllDigits(d)
    ensures Erase(Group(d), '.') == d
  {
    if |d| <= 3 {
      NoDot(d);
      EraseAbsent(d, '.');
    } else {
      GroupLast(d);
      var p, t := d[..|d| - 3], d[|d| - 3..];
      GroupErase(p);
      EraseSeparator(Group(p), t, '.');
      assert Erase(Group(d), '.') == p + t;
      assert p + t == d;
    }
  }

  lemma {:induction false} GroupCount(d: string)
    requires 1 <= |d| && AllDigits(d)
    ensures Count(Group(d), '.') == (|d| - 1) / 3
  {
    if |d| <= 3 {
      NoDot(d);
      CountAbsent(d, '.');
    } else {
      GroupLast(d);
      var p, t := d[..|d| - 3], d[|d| - 3..];
      GroupCount(p);
      CountAppend(Group(p) + ['.'], t, '.');
      CountAppend(Group(p), ['.'], '.');
      CountAbsent(t, '.');
    }
  }

  /** Removing "$" and every '.' from a formatted amount gives back the
      integer's decimal string. */
  lemma FormatClpUnformat(n: int)
    ensures Erase(Erase(FormatClp(n), '$'), '.') == IntToString(n)
  {
    var d := NatToString(Abs(n));
    var sign: string := if n < 0 then "-" else "";
    var rest := sign + Group(d);
    assert FormatClp(n) == "$" + rest;
    EraseDollar(sign, d);
    EraseAppend(sign, Group(d), '.');
    EraseAbsent(sign, '.');
    GroupErase(d);
  }

  /** The "$" in front is the only one a formatted amount holds. */
  lemma EraseDollar(sign: string, d: string)
    requires sign == "" || sign == "-"
    requires AllDigits(d)
    ensures Erase("$" + (sign + Group(d)), '$') == sign + Group(d)
  {
    var g := Group(d);
    var rest := sign + g;
    assert '$' !in g by {
      GroupAlphabet(d);
    }
    assert '$' !in rest;
    var s := "$" + rest;
    assert s[0] == '$' && s[1..] == rest;
    EraseAbsent(rest, '$');
  }

  /** Grouping introduces no character other than digits and '.'. */
  lemma {:induction false} GroupAlphabet(d: string)
    requires AllDigits(d)
    ensures forall k :: 0 <= k < |Group(d)| ==> IsDigit(Group(d)[k]) || Group(d)[k] == '.'
  {
    if |d| > 3 {
      GroupAlphabet(d[..|d| - 3]);
      var g := Group(d[..|d| - 3]);
      assert Group(d) == g + "." + d[|d| - 3..];
    }
  }

  /** The digits after "$" and the sign are grouped in threes from the
      right, and a dot appears at all exactly when |n| >= 1000. */
  lemma FormatClpGrouping(n: int)
    ensures WellGrouped(GroupedPart(n))
    ensures Count(FormatClp(n), '.') == 0 <==> Abs(n) < 1000
  {
    var d := NatToString(Abs(n));
    GroupSplit(d);
    GroupCount(d);
    NatToStringShort(Abs(n));
    var sign: string := if n < 0 then "-" else "";
    CountAppend("$" + sign, Group(d), '.');
    CountAbsent("$" + sign, '.');
  }

  // ---------------------------------------------------------------------
  // Reading the cost back from the summary file
  // ---------------------------------------------------------------------

  /** The cost the dashboard reads from a summary file: `text` is the
      file's content, or None when no path was given or the file does not
      exist. Every digit of the text is kept, in order, and read as one
      number; no digit at all reads as 0. */
  function ParseCost(text: Option<string>): (r: nat)
    ensures text.None? ==> r == 0
    ensures text.Some? && Digits(text.value) == [] ==> r == 0
    ensures text.Some? ==> r == DigitsValue(Digits(text.value))
  {
    match text
    case None => 0
    case Some(raw) =>
      var dig := Digits(raw);
      if dig == [] then 0 else DigitsValue(dig)
  }

  /** A leading zero in the file is read past: "007" reads as 7, as
      `int("007")` does. */
  lemma ParseCostLeadingZero(raw: string)
    ensures ParseCost(Some("0" + raw)) == ParseCost(Some(raw))
  {
    assert ("0" + raw)[1..] == raw;
    assert Digits("0" + raw) == "0" + Digits(raw);
    DigitsValueLeadingZero(Digits(raw));
  }

  /** Text without digits contributes nothing to the parsed cost, wherever
      it sits. */
  lemma ParseCostIgnoresNonDigits(a: string, noise: string, b: string)
    requires Digits(noise) == []
    ensures ParseCost(Some(a + noise + b)) == ParseCost(Some(a + b))
  {
    DigitsAppend(a + noise, b);
    DigitsAppend(a, noise);
    DigitsAppend(a, b);
    assert Digits(a) + Digits(noise) == Digits(a);
  }

  /** A number framed by digit-free text reads back as its magnitude. */
  lemma ParseCostFramed(pre: string, i: int, post: string)
    requires Digits(pre) == [] && Digits(post) == []
    ensures ParseCost(Some(pre + IntToString(i) + post)) == Abs(i)
  {
    FramedDigits(pre, i, post);
    NatToStringValue(Abs(i));
  }

  /** The digits of a framed number are its magnitude's decimal string. */
  lemma FramedDigits(pre: string, i: int, post: string)
    requires Digits(pre) == [] && Digits(post) == []
    ensures Digits(pre + IntToString(i) + post) == NatToString(Abs(i))
  {
    var s := IntToString(i);
    DigitsAppend(pre + s, post);
    DigitsAppend(pre, s);
    DigitsOfIntToString(i);
  }

  lemma PrefixHasNoDigits()
    ensures Digits(Extract.SummaryPrefix) == []
  {
    var p := Extract.SummaryPrefix;
    assert forall k :: 0 <= k < |p| ==> !IsDigit(p[k]);
    DigitsNone(p);
  }

  /** Reading the summary line back gives the magnitude of the rounded cost:
      the minus sign of a negative cost is lost. */
  lemma SummaryRoundTrip(cost: real)
    ensures ParseCost(Some(Extract.SummaryLine(cost))) == Abs(Extract.RoundHalfEven(cost))
  {
    var i := Extract.RoundHalfEven(cost);
    PrefixHasNoDigits();
    DigitsNone("\n");
    ParseCostFramed(Extract.SummaryPrefix, i, "\n");
    assert Extract.SummaryLine(cost) == Extract.SummaryPrefix + IntToString(i) + "\n";
  }

  /** For a whole, non-negative cost the dashboard reads exactly the cost
      the engine wrote. */
  lemma SummaryRoundTripWhole(c: nat)
    ensures ParseCost(Some(Extract.SummaryLine(c as real))) == c
  {
    SummaryRoundTrip(c as real);
    Extract.RoundHalfEvenOfInt(c);
  }

  // ---------------------------------------------------------------------
  // Describing a cost difference B - A
  // ---------------------------------------------------------------------

  datatype Trend = Dearer | Cheaper | Same

  /** How scenario B's cost compares with scenario A's, from B - A. */
  function TrendOf(diff: int): (t: Trend)
    ensures t == Dearer <==> diff > 0
    ensures t == Cheaper <==> diff < 0
    ensures t == Same <==> diff == 0
  {
    if diff > 0 then Dearer else if diff < 0 then Cheaper else Same
  }

  /** Swapping the scenarios swaps "dearer" and "cheaper". */
  lemma TrendSwap(a: int, b: int)
    ensures TrendOf(b - a) == Dearer <==> TrendOf(a - b) == Cheaper
    ensures TrendOf(b - a) == Same <==> TrendOf(a - b) == Same
  {
  }

  /** The three words a dashboard uses for a dearer, a cheaper and an
      unchanged scenario B. */
  datatype Wording = Wording(dearer: string, cheaper: string, same: string)

  predicate Distinct(w: Wording) {
    w.dearer != w.cheaper && w.dearer != w.same && w.cheaper != w.same
  }

  /** The word for B - A: each of the three words is said exactly for its
      own sign of the difference. */
  function Say(w: Wording, diff: int): (s: string)
    requires Distinct(w)
    ensures s == w.dearer <==> diff > 0
    ensures s == w.cheaper <==> diff < 0
    ensures s == w.same <==> diff == 0
  {
    match TrendOf(diff)
    case Dearer => w.dearer
    case Cheaper => w.cheaper
    case Same => w.same
  }

  /** The report wording of the backup dashboard. */
  const BackupReport: Wording := Wording("m\U{E1}s caro \U{1F4B8}", "m\U{E1}s barato \U{1F4B0}", "igual \U{1F91D}")

  /** The report wording of the current dashboard: the same, except that an
      unchanged cost reads "igual de caro". */
  const CurrentReport: Wording := Wording("m\U{E1}s caro \U{1F4B8}", "m\U{E1}s barato \U{1F4B0}", "igual de caro \U{1F91D}")

  /** The current dashboard's one-word verdict on the change with B. */
  const ChangeWords: Wording := Wording("sube", "baja", "no cambia")

  /** Each dashboard's words tell the three outcomes apart, and the two
      reports differ only in the word for an unchanged cost. */
  lemma WordingsDistinct()
    ensures Distinct(BackupReport) && Distinct(CurrentReport) && Distinct(ChangeWords)
    ensures BackupReport.dearer == CurrentReport.dearer && BackupReport.cheaper == CurrentReport.cheaper
    ensures BackupReport.same != CurrentReport.same
  {
    assert BackupReport.dearer[4] != BackupReport.cheaper[4];
    assert BackupReport.dearer[0] != BackupReport.same[0] && BackupReport.cheaper[0] != BackupReport.same[0];
    assert CurrentReport.dearer[0] != CurrentReport.same[0] && CurrentReport.cheaper[0] != CurrentReport.same[0];
    assert ChangeWords.dearer[0] != ChangeWords.cheaper[0] && ChangeWords.dearer[0] != ChangeWords.same[0];
    assert ChangeWords.cheaper[0] != ChangeWords.same[0];
    assert |BackupReport.same| != |CurrentReport.same|;
  }
}

=== FILE: drawings.dfy ===
/** The dashboard's field map: saving drawn polygons into the GeoJSON
    feature collection, and mapping each field's crop onto the crops the
    requirement table knows. */
module Drawings {
  import opened Wrappers
  import opened Text
  import Tables

  // ---------------------------------------------------------------------
  // GeoJSON objects
  // ---------------------------------------------------------------------

  /** A JSON property value: a string, or any other JSON value, kept as its
      source text. */
  datatype Value = Str(s: string) | Raw(json: string)

  type Properties = map<string, Value>

  /** A geometry object: its "type" member when present, the rest kept
      opaque. */
  datatype Geometry = Geometry(kind: Option<string>, body: string)

  /** A drawing as the map widget returns it. `geometry` is None when the
      member is absent, null or an empty object; `properties` is None when
      it is absent, null or empty. */
  datatype Drawing = Drawing(geometry: Option<Geometry>, properties: Option<Properties>)

  /** A feature of the saved collection. */
  datatype Feature = Feature(properties: Properties, geometry: Geometry)

  /** The previously saved document: its "type" member and its "features"
      member, when present. */
  datatype Saved = Saved(kind: Option<string>, features: Option<seq<Feature>>)

  const DefaultCrop: string := "SinCultivo"

  predicate IsPolygon(d: Drawing) {
    d.geometry.Some? && d.geometry.value.kind == Some("Polygon")
  }

  /** The default name of the feature that lands at 1-based position `k` of
      the collection. */
  function PotreroName(k: nat): (r: string)
    ensures |r| > 8 && r[..8] == "Potrero_" && r[8..] == NatToString(k)
  {
    "Potrero_" + NatToString(k)
  }

  /** Python's `dict.setdefault`: add the key only when it is missing. */
  function SetDefault(m: Properties, key: string, v: Value): (r: Properties)
    ensures key in r
    ensures r.Keys == m.Keys + {key}
    ensures forall k :: k in m ==> r[k] == m[k]
    ensures key !in m ==> r[key] == v
  {
    if key in m then m else m[key := v]
  }

  /** The properties of a newly saved polygon at position `k`. */
  function Stamp(props: Properties, k: nat): Properties {
    SetDefault(SetDefault(props, "potrero", Str(PotreroName(k))), "cultivo", Str(DefaultCrop))
  }

  function NewFeature(d: Drawing, k: nat): Feature
    requires IsPolygon(d)
  {
    Feature(Stamp(d.properties.GetOr(map[]), k), d.geometry.value)
  }

  /** The polygon drawings, in order. */
  function Polygons(ds: seq<Drawing>): (r: seq<Drawing>)
    ensures |r| <= |ds|
    ensures forall i :: 0 <= i < |r| ==> IsPolygon(r[i])
  {
    if ds == [] then []
    else (if IsPolygon(ds[0]) then [ds[0]] else []) + Polygons(ds[1..])
  }

  /** Every saved polygon is one of the drawings. */
  lemma {:induction false} PolygonsFrom(ds: seq<Drawing>, i: nat)
    requires i < |Polygons(ds)|
    ensures Polygons(ds)[i] in ds
  {
    var rest := Polygons(ds[1..]);
    if IsPolygon(ds[0]) && i == 0 {
      assert Polygons(ds)[0] == ds[0];
    } else {
      var k := if IsPolygon(ds[0]) then i - 1 else i;
      assert Polygons(ds)[i] == rest[k];
      PolygonsFrom(ds[1..], k);
    }
  }

  /** No polygon drawing is left out. */
  lemma {:induction false} PolygonsComplete(ds: seq<Drawing>, d: Drawing)
    requires d in ds && IsPolygon(d)
    ensures d in Polygons(ds)
  {
    if ds[0] != d {
      PolygonsComplete(ds[1..], d);
    }
  }

  /** The earlier features that survive: those of a stored feature
      collection (none if it has no "features" member), and nothing when
      there is no stored file or it is some other kind of object. */
  function Kept(prev: Option<Saved>): seq<Feature> {
    if prev.Some? && prev.value.kind == Some("FeatureCollection") then prev.value.features.GetOr([])
    else []
  }

  /** The save loop: walk the drawings in order and append each polygon,
      named after the collection's length at that moment. */
  function Append(acc: seq<Feature>, ds: seq<Drawing>): (r: seq<Feature>)
    ensures |r| == |acc| + |Polygons(ds)|
    ensures r[..|acc|] == acc
    decreases |ds|
  {
    if ds == [] then acc
    else if IsPolygon(ds[0]) then
      var acc' := acc + [NewFeature(ds[0], |acc| + 1)];
      var r := Append(acc', ds[1..]);
      assert |Polygons(ds)| == 1 + |Polygons(ds[1..])|;
      assert r[..|acc|] == acc'[..|acc|] == acc;
      r
    else
      assert |Polygons(ds)| == |Polygons(ds[1..])|;
      Append(acc, ds[1..])
  }

  /** The feature appended for the i-th polygon drawing sits right after the
      i features before it, and is named after that position. */
  lemma {:induction false} AppendAt(acc: seq<Feature>, ds: seq<Drawing>, i: nat)
    requires i < |Polygons(ds)|
    ensures Append(acc, ds)[|acc| + i] == NewFeature(Polygons(ds)[i], |acc| + i + 1)
    decreases |ds|
  {
    PolygonsStep(ds, i);
    if IsPolygon(ds[0]) && i == 0 {
      AppendHead(acc, ds);
    } else if IsPolygon(ds[0]) {
      var acc' := acc + [NewFeature(ds[0], |acc| + 1)];
      AppendStep(acc, ds);
      AppendAt(acc', ds[1..], i - 1);
      assert |acc'| + (i - 1) == |acc| + i;
    } else {
      AppendStep(acc, ds);
      AppendAt(acc, ds[1..], i);
    }
  }

  /** Where the i-th polygon drawing comes from: the first drawing, or the
      polygons of the rest. */
  lemma PolygonsStep(ds: seq<Drawing>, i: nat)
    requires i < |Polygons(ds)|
    ensures ds != []
    ensures IsPolygon(ds[0]) && i == 0 ==> Polygons(ds)[i] == ds[0]
    ensures IsPolygon(ds[0]) && i > 0 ==> i - 1 < |Polygons(ds[1..])| && Polygons(ds)[i] == Polygons(ds[1..])[i - 1]
    ensures !IsPolygon(ds[0]) ==> i < |Polygons(ds[1..])| && Polygons(ds)[i] == Polygons(ds[1..])[i]
  {
  }

  /** One step of the save loop. */
  lemma AppendStep(acc: seq<Feature>, ds: seq<Drawing>)
    requires ds != []
    ensures IsPolygon(ds[0]) ==> Append(acc, ds) == Append(acc + [NewFeature(ds[0], |acc| + 1)], ds[1..])
    ensures !IsPolygon(ds[0]) ==> Append(acc, ds) == Append(acc, ds[1..])
  {
  }

  /** A leading polygon drawing becomes the feature right after `acc`. */
  lemma AppendHead(acc: seq<Feature>, ds: seq<Drawing>)
    requires ds != [] && IsPolygon(ds[0])
    ensures |Append(acc, ds)| > |acc|
    ensures Append(acc, ds)[|acc|] == NewFeature(ds[0], |acc| + 1)
  {
    var acc' := acc + [NewFeature(ds[0], |acc| + 1)];
    var r := Append(acc', ds[1..]);
    assert Append(acc, ds) == r;
    assert r[..|acc'|] == acc';
    assert r[|acc|] == acc'[|acc|];
  }

  /** Saving the drawing: the collection to write, or None when it would be
      empty, in which case nothing is written. */
  function Merge(prev: Option<Saved>, ds: seq<Drawing>): Option<seq<Feature>> {
    var features := Append(Kept(prev), ds);
    if features == [] then None else Some(features)
  }

  // ---------------------------------------------------------------------
  // Properties of a save
  // ---------------------------------------------------------------------

  /** A stamped feature keeps every property it had, and gains exactly
      "potrero" and "cultivo" when they were missing: the name of its
      position and the placeholder crop. */
  lemma StampKeepsExisting(props: Properties, k: nat)
    ensures Stamp(props, k).Keys == props.Keys + {"potrero", "cultivo"}
    ensures forall key :: key in props ==> Stamp(props, k)[key] == props[key]
    ensures "potrero" !in props ==> Stamp(props, k)["potrero"] == Str(PotreroName(k))
    ensures "cultivo" !in props ==> Stamp(props, k)["cultivo"] == Str(DefaultCrop)
  {
  }

  /** The saved collection starts with the kept features, in order, and
      continues with one feature per polygon drawing, in order, carrying
      that drawing's geometry. */
  lemma MergeLayout(prev: Option<Saved>, ds: seq<Drawing>)
    requires Merge(prev, ds).Some?
    ensures var fs := Merge(prev, ds).value;
      && |fs| == |Kept(prev)| + |Polygons(ds)|
      && fs[..|Kept(prev)|] == Kept(prev)
      && forall i :: |Kept(prev)| <= i < |fs| ==>
           fs[i].geometry == Polygons(ds)[i - |Kept(prev)|].geometry.value
           && fs[i].geometry.kind == Some("Polygon")
  {
    var fs := Merge(prev, ds).value;
    forall i | |Kept(prev)| <= i < |fs|
      ensures fs[i].geometry == Polygons(ds)[i - |Kept(prev)|].geometry.value
    {
      AppendAt(Kept(prev), ds, i - |Kept(prev)|);
      assert fs[|Kept(prev)| + (i - |Kept(prev)|)] == fs[i];
    }
  }

  /** The k-th polygon drawing lands at position |kept| + k of the saved
      collection and, when it had no name, is named after that 1-based
      position. */
  lemma DefaultNameIsPosition(prev: Option<Saved>, ds: seq<Drawing>, k: nat)
    requires k < |Polygons(ds)|
    requires "potrero" !in Polygons(ds)[k].properties.GetOr(map[])
    ensures Merge(prev, ds).Some?
    ensures var fs, i := Merge(prev, ds).value, |Kept(prev)| + k;
      && i < |fs|
      && "potrero" in fs[i].properties
      && fs[i].properties["potrero"] == Str(PotreroName(i + 1))
  {
    AppendedName(Kept(prev), ds, k);
  }

  /** The save loop names an unnamed polygon after the position it lands
      at. */
  lemma AppendedName(acc: seq<Feature>, ds: seq<Drawing>, j: nat)
    requires j < |Polygons(ds)|
    requires "potrero" !in Polygons(ds)[j].properties.GetOr(map[])
    ensures "potrero" in Append(acc, ds)[|acc| + j].properties
      && Append(acc, ds)[|acc| + j].properties["potrero"] == Str(PotreroName(|acc| + j + 1))
  {
    AppendAt(acc, ds, j);
    StampedName(Polygons(ds)[j].properties.GetOr(map[]), |acc| + j + 1);
  }

  /** An unnamed drawing is stamped with the name of its position. */
  lemma StampedName(props: Properties, k: nat)
    requires "potrero" !in props
    ensures "potrero" in Stamp(props, k) && Stamp(props, k)["potrero"] == Str(PotreroName(k))
  {
    var named := SetDefault(props, "potrero", Str(PotreroName(k)));
    assert named["potrero"] == Str(PotreroName(k));
    assert "potrero"[0] != "cultivo"[0];
  }

  /** Earlier features survive only from a stored feature collection. */
  lemma KeptOnlyFromCollection(prev: Option<Saved>)
    ensures Kept(prev) != [] ==> prev.Some? && prev.value.kind == Some("FeatureCollection")
    ensures prev.Some? && prev.value.kind == Some("FeatureCollection") ==>
      Kept(prev) == prev.value.features.GetOr([])
  {
  }

  /** Nothing is written exactly when there is nothing to keep and no
      polygon was drawn. */
  lemma NothingSavedIff(prev: Option<Saved>, ds: seq<Drawing>)
    ensures Merge(prev, ds).None? <==> Kept(prev) == [] && forall d :: d in ds ==> !IsPolygon(d)
  {
    if Merge(prev, ds).None? {
      forall d | d in ds
        ensures !IsPolygon(d)
      {
        if IsPolygon(d) {
          PolygonsComplete(ds, d);
        }
      }
    }
    if Kept(prev) == [] && forall d :: d in ds ==> !IsPolygon(d) {
      if |Polygons(ds)| > 0 {
        PolygonsFrom(ds, 0);
      }
    }
  }

  /** Two different positions get two different default names. */
  lemma PotreroNamesDistinct(a: nat, b: nat)
    requires a != b
    ensures PotreroName(a) != PotreroName(b)
  {
    if PotreroName(a) == PotreroName(b) {
      assert NatToString(a) == PotreroName(a)[8..];
      NatToStringValue(a);
      NatToStringValue(b);
    }
  }

  // ---------------------------------------------------------------------
  // Crop fallback for the field table
  // ---------------------------------------------------------------------

  /** One field's crop: kept when it is a known option, otherwise the first
      option. */
  function Fallback(options: seq<string>, crop: string): (r: string)
    requires options != []
    ensures r in options
    ensures crop in options ==> r == crop
    ensures crop !in options ==> r == options[0]
  {
    if crop in options then crop else options[0]
  }

  /** The crops of the field table after the fallback. With no known
      options (the requirement table could not be read) nothing changes. */
  function AssignCrops(options: seq<string>, crops: seq<string>): (r: seq<string>)
    ensures |r| == |crops|
    ensures options == [] ==> r == crops
    ensures options != [] ==> forall i :: 0 <= i < |r| ==> r[i] in options
    ensures forall i :: 0 <= i < |r| && crops[i] in options ==> r[i] == crops[i]
  {
    if options == [] then crops
    else seq(|crops|, i requires 0 <= i < |crops| => Fallback(options, crops[i]))
  }

  /** Applying the fallback twice changes nothing more. */
  lemma AssignCropsIdempotent(options: seq<string>, crops: seq<string>)
    ensures AssignCrops(options, AssignCrops(options, crops)) == AssignCrops(options, crops)
  {
  }

  /** When the options are the crops named by the requirement table, every
      field's crop after the fallback has a requirement row, so the engine's
      lookup never fails with an unknown crop. */
  lemma FallbackCropsAreKnown(reqs: seq<Tables.ReqRow>, options: seq<string>, crops: seq<string>)
    requires options != []
    requires forall o :: o in options ==> exists k :: 0 <= k < |reqs| && reqs[k].crop == o
    ensures forall i :: 0 <= i < |crops| ==>
      !(Tables.LookupReq(reqs, AssignCrops(options, crops)[i]).Failure?
        && Tables.LookupReq(reqs, AssignCrops(options, crops)[i]).error.CropNotFound?)
  {
    var r := AssignCrops(options, crops);
    forall i | 0 <= i < |crops|
      ensures !(Tables.LookupReq(reqs, r[i]).Failure? && Tables.LookupReq(reqs, r[i]).error.CropNotFound?)
    {
      assert r[i] in options;
      var k :| 0 <= k < |reqs| && reqs[k].crop == r[i];
    }
  }
}

=== FILE: extract.dfy ===
/** Turning a solved plan into the engine's two outputs: the dose table
    (doses above a small epsilon, rounded to hundredths, sorted by field and
    product) and the one-line cost summary. */
module Extract {
  import opened Text
  import opened Blend
  import opened Seqs

  // ---------------------------------------------------------------------
  // Rounding (Python's round: nearest, ties to even), on exact reals
  // ---------------------------------------------------------------------

  /** The nearest integer to `v`; a value exactly halfway goes to the even
      neighbour. */
  function RoundHalfEven(v: real): (r: int)
    ensures -0.5 <= (r as real) - v <= 0.5
    ensures ((r as real) - v == 0.5 || v - (r as real) == 0.5) ==> r % 2 == 0
    ensures v >= 0.0 ==> r >= 0
  {
    var f := v.Floor;
    var frac := v - f as real;
    if frac < 0.5 then f
    else if frac > 0.5 then f + 1
    else if f % 2 == 0 then f else f + 1
  }

  lemma RoundHalfEvenOfInt(n: int)
    ensures RoundHalfEven(n as real) == n
  {
  }

  /** `round(v, 2)`: the nearest hundredth, ties to even. */
  function Round2(v: real): (r: real)
    ensures -0.005 <= r - v <= 0.005
    ensures (r * 100.0).Floor as real == r * 100.0
  {
    (RoundHalfEven(v * 100.0) as real) / 100.0
  }

  // ---------------------------------------------------------------------
  // Dose table
  // ---------------------------------------------------------------------

  /** One output row: field, product, rounded dose in kg/ha. */
  datatype DoseRow = DoseRow(field: string, product: string, kgHa: real)

  /** Doses at or below this are numerically zero and not listed. */
  const Epsilon: real := 0.000001

  /** The row for dose `v` of a product on a field, when it is listed. */
  predicate Listed(v: real) {
    v > Epsilon
  }

  /** The positions of the listed doses in `row`, in increasing order. */
  function ListedAt(row: seq<real>): (ks: seq<nat>)
    ensures forall k :: 0 <= k < |ks| ==> ks[k] < |row| && Listed(row[ks[k]])
    ensures forall k, l :: 0 <= k < l < |ks| ==> ks[k] < ks[l]
    ensures forall j :: 0 <= j < |row| && Listed(row[j]) ==> j in ks
  {
    if |row| == 0 then []
    else
      var n := |row| - 1;
      var front := ListedAt(row[..n]);
      assert forall j :: 0 <= j < n ==> row[..n][j] == row[j];
      front + (if Listed(row[n]) then [n] else [])
  }

  /** Rows of one product across the fields: one per listed dose, in
      field order. */
  function ProductRows(name: string, row: seq<real>, fs: seq<FieldSpec>): (rs: seq<DoseRow>)
    requires |row| == |fs|
    ensures |rs| == |ListedAt(row)|
    ensures forall k :: 0 <= k < |rs| ==>
      rs[k] == DoseRow(fs[ListedAt(row)[k]].name, name, Round2(row[ListedAt(row)[k]]))
  {
    if |row| == 0 then []
    else
      var n := |row| - 1;
      var front := ProductRows(name, row[..n], fs[..n]);
      assert forall j :: 0 <= j < n ==> row[..n][j] == row[j] && fs[..n][j] == fs[j];
      front + (if Listed(row[n]) then [DoseRow(fs[n].name, name, Round2(row[n]))] else [])
  }

  /** The rows of one product are exactly its listed doses, each rounded. */
  lemma ProductRowsMembers(name: string, row: seq<real>, fs: seq<FieldSpec>, r: DoseRow)
    requires |row| == |fs|
    ensures r in ProductRows(name, row, fs) <==>
      exists j :: 0 <= j < |fs| && Listed(row[j]) && r == DoseRow(fs[j].name, name, Round2(row[j]))
  {
    var rs := ProductRows(name, row, fs);
    var ks := ListedAt(row);
    if r in rs {
      var k :| 0 <= k < |rs| && rs[k] == r;
      assert Listed(row[ks[k]]);
    }
    if exists j :: 0 <= j < |fs| && Listed(row[j]) && r == DoseRow(fs[j].name, name, Round2(row[j])) {
      var j :| 0 <= j < |fs| && Listed(row[j]) && r == DoseRow(fs[j].name, name, Round2(row[j]));
      var k :| 0 <= k < |ks| && ks[k] == j;
      assert rs[k] == r;
    }
  }

  /** The engine's dose rows grouped by product: block `p` holds product
      `p`'s rows. */
  function Blocks(pb: Problem, x: seq<seq<real>>): (bs: seq<seq<DoseRow>>)
    requires Shaped(pb, x)
    ensures |bs| == |x|
    ensures forall p :: 0 <= p < |x| ==> bs[p] == ProductRows(pb.products[p].name, x[p], pb.fields)
  {
    seq(|x|, p requires 0 <= p < |x| => ProductRows(pb.products[p].name, x[p], pb.fields))
  }

  /** Rows of products `i` onward, in the engine's loop order (products
      outer, fields inner). */
  function RowsFrom(pb: Problem, x: seq<seq<real>>, i: nat): (rs: seq<DoseRow>)
    requires Shaped(pb, x) && i <= |x|
    ensures rs == Flatten(Blocks(pb, x)[i..])
    decreases |x| - i
  {
    if i == |x| then []
    else
      FlattenFrom(Blocks(pb, x), i);
      ProductRows(pb.products[i].name, x[i], pb.fields) + RowsFrom(pb, x, i + 1)
  }

  /** The listed rows, before sorting: product by product, and within a
      product field by field, exactly the (product, field) pairs whose dose
      exceeds the epsilon, each with its dose rounded. */
  function ExtractRows(pb: Problem, x: seq<seq<real>>): (rs: seq<DoseRow>)
    requires Shaped(pb, x)
    ensures rs == Flatten(Blocks(pb, x))
    ensures forall r :: r in rs <==>
      exists p, j :: 0 <= p < |x| && 0 <= j < |pb.fields| && Listed(x[p][j])
        && r == DoseRow(pb.fields[j].name, pb.products[p].name, Round2(x[p][j]))
  {
    ExtractRowsMembers(pb, x);
    RowsFrom(pb, x, 0)
  }

  lemma ExtractRowsMembers(pb: Problem, x: seq<seq<real>>)
    requires Shaped(pb, x)
    ensures forall r :: r in Flatten(Blocks(pb, x)) <==>
      exists p, j :: 0 <= p < |x| && 0 <= j < |pb.fields| && Listed(x[p][j])
        && r == DoseRow(pb.fields[j].name, pb.products[p].name, Round2(x[p][j]))
  {
    var bs := Blocks(pb, x);
    forall r
      ensures r in Flatten(bs) <==>
        exists p, j :: 0 <= p < |x| && 0 <= j < |pb.fields| && Listed(x[p][j])
          && r == DoseRow(pb.fields[j].name, pb.products[p].name, Round2(x[p][j]))
    {
      FlattenMember(bs, r);
      forall p | 0 <= p < |x| {
        ProductRowsMembers(pb.products[p].name, x[p], pb.fields, r);
      }
    }
  }

  /** Some dose of the plan exceeds the epsilon. */
  predicate SomeListed(pb: Problem, x: seq<seq<real>>)
    requires Shaped(pb, x)
  {
    exists p, j :: 0 <= p < |x| && 0 <= j < |pb.fields| && Listed(x[p][j])
  }

  /** The dose table is empty exactly when no dose exceeds the epsilon. */
  lemma ExtractRowsEmpty(pb: Problem, x: seq<seq<real>>)
    requires Shaped(pb, x)
    ensures ExtractRows(pb, x) == [] <==> !SomeListed(pb, x)
  {
    var rs := ExtractRows(pb, x);
    if rs != [] {
      assert rs[0] in rs;
    }
    forall p, j | 0 <= p < |x| && 0 <= j < |pb.fields| && Listed(x[p][j])
      ensures rs != []
    {
      assert DoseRow(pb.fields[j].name, pb.products[p].name, Round2(x[p][j])) in rs;
    }
  }

  /** Product `p`'s rows sit together in the dose table, at the offset of
      the products before it. */
  lemma ExtractRowsBlock(pb: Problem, x: seq<seq<real>>, p: nat)
    requires Shaped(pb, x) && p < |x|
    ensures Offset(Blocks(pb, x), p) + |Blocks(pb, x)[p]| == Offset(Blocks(pb, x), p + 1) <= |ExtractRows(pb, x)|
    ensures ExtractRows(pb, x)[Offset(Blocks(pb, x), p)..Offset(Blocks(pb, x), p + 1)]
            == ProductRows(pb.products[p].name, x[p], pb.fields)
  {
    FlattenBlock(Blocks(pb, x), p);
  }

  // ---------------------------------------------------------------------
  // Sorting by (field, product)
  // ---------------------------------------------------------------------

  predicate RowLe(a: DoseRow, b: DoseRow) {
    StrLe(a.field, b.field) && (a.field == b.field ==> StrLe(a.product, b.product))
  }

  lemma RowLeTotal(a: DoseRow, b: DoseRow)
    ensures RowLe(a, b) || RowLe(b, a)
  {
    StrLeTotal(a.field, b.field);
    StrLeTotal(a.product, b.product);
  }

  lemma RowLeTransitive(a: DoseRow, b: DoseRow, c: DoseRow)
    requires RowLe(a, b) && RowLe(b, c)
    ensures RowLe(a, c)
  {
    StrLeTransitive(a.field, b.field, c.field);
    if a.field == c.field {
      StrLeAntisymmetric(a.field, b.field);
      StrLeTransitive(a.product, b.product, c.product);
    }
  }

  predicate SortedRows(s: seq<DoseRow>) {
    forall k :: 0 < k < |s| ==> RowLe(s[k - 1], s[k])
  }

  function Insert(r: DoseRow, s: seq<DoseRow>): (t: seq<DoseRow>)
    requires SortedRows(s)
    ensures SortedRows(t)
    ensures multiset(t) == multiset(s) + multiset{r}
    ensures |t| == |s| + 1
    ensures t[0] == r || (|s| > 0 && t[0] == s[0])
  {
    if |s| == 0 then [r]
    else if RowLe(r, s[0]) then [r] + s
    else
      RowLeTotal(r, s[0]);
      var rest := Insert(r, s[1..]);
      assert s == [s[0]] + s[1..];
      [s[0]] + rest
  }

  /** The dose table's order: sorted by (field, product), same rows. */
  function SortRows(s: seq<DoseRow>): (t: seq<DoseRow>)
    ensures SortedRows(t)
    ensures multiset(t) == multiset(s)
  {
    if |s| == 0 then []
    else
      assert s == [s[0]] + s[1..];
      Insert(s[0], SortRows(s[1..]))
  }

  /** Sorted by adjacent pairs means sorted by every pair. */
  lemma {:induction false} SortedRowsAllPairs(s: seq<DoseRow>, a: nat, b: nat)
    requires SortedRows(s) && a <= b < |s|
    ensures RowLe(s[a], s[b])
    decreases b - a
  {
    if a == b {
      StrLeTotal(s[a].field, s[a].field);
      StrLeTotal(s[a].product, s[a].product);
    } else {
      SortedRowsAllPairs(s, a + 1, b);
      RowLeTransitive(s[a], s[a + 1], s[b]);
    }
  }

  // ---------------------------------------------------------------------
  // Cost recomputation and the summary line
  // ---------------------------------------------------------------------

  /** Application cost of the first `n` products when it is enabled. */
  function AppliedCost(pb: Problem, x: seq<seq<real>>, n: nat): real
    requires Shaped(pb, x) && n <= |x|
  {
    if pb.params.costoap > 0.0 then ApplicationCost(pb, x, n) else 0.0
  }

  /** The engine's second pass over the solution: for every (product, field)
      with a non-zero value it adds dose * area * price per kg, and the
      application term when `costoap` is positive. The total equals the
      objective on the whole solution, doses at or below the table's
      epsilon included. */
  method RecomputeCost(pb: Problem, x: seq<seq<real>>) returns (total: real)
    requires Shaped(pb, x)
    ensures total == Objective(pb, x)
  {
    var fs := pb.fields;
    var on := pb.params.costoap > 0.0;
    var app := pb.params.costoap / 1000.0;
    total := 0.0;
    var i := 0;
    while i < |x|
      invariant 0 <= i <= |x|
      invariant total == ProductCost(pb, x, i) + AppliedCost(pb, x, i)
    {
      var rate := pb.products[i].price / 1000.0;
      var j := 0;
      while j < |fs|
        invariant 0 <= j <= |fs|
        invariant total == ProductCost(pb, x, i) + AppliedCost(pb, x, i)
                           + RowCost(x[i], fs, rate, j) + (if on then RowCost(x[i], fs, app, j) else 0.0)
      {
        var v := x[i][j];
        if v != 0.0 {
          total := total + v * fs[j].area * rate;
          if on {
            total := total + v * fs[j].area * app;
          }
        }
        j := j + 1;
      }
      i := i + 1;
    }
  }

  const SummaryPrefix: string := "Costo total (CLP): "

  /** The summary file's text: the prefix, the cost rounded to an integer,
      a newline. */
  function SummaryLine(cost: real): (line: string)
    ensures |line| > |SummaryPrefix| && line[..|SummaryPrefix|] == SummaryPrefix
    ensures line[|line| - 1] == '\n'
    ensures line[|SummaryPrefix|..|line| - 1] == IntToString(RoundHalfEven(cost))
  {
    SummaryPrefix + IntToString(RoundHalfEven(cost)) + "\n"
  }

  /** The cost summary counts doses the table leaves out: one product on
      one 1000 ha field at 1e-6 kg/ha is too small to list, yet costs 1 CLP
      at 1,000,000 CLP per tonne. */
  lemma UnlistedDoseStillCosts()
    ensures
      var pb := Problem([Product("urea", 0.46, 0.0, 0.0, 1000000.0, 0.0, 300.0)],
                        [FieldSpec("P1", 1000.0, Req(0.0, 0.0, 0.0))], DefaultParams);
      var x := [[Epsilon]];
      && Shaped(pb, x)
      && ExtractRows(pb, x) == []
      && Objective(pb, x) == 1.0
  {
    var pb := Problem([Product("urea", 0.46, 0.0, 0.0, 1000000.0, 0.0, 300.0)],
                      [FieldSpec("P1", 1000.0, Req(0.0, 0.0, 0.0))], DefaultParams);
    var x := [[Epsilon]];
    assert ProductRows("urea", x[0], pb.fields) == [];
    assert RowsFrom(pb, x, 1) == [];
    assert ExtractRows(pb, x) == RowsFrom(pb, x, 0) == [];
    assert ProductCost(pb, x, 1) == RowCost(x[0], pb.fields, 1000.0, 1) == Epsilon * 1000.0 * 1000.0;
  }
}

=== FILE: markdown.dfy ===
/** The dashboard's Markdown table writer: one line per header, separator
    and data row, each written as `| a | b |`, joined by newlines. */
module Markdown {
  import opened Text

  /** One table line: "| ", the cells joined by " | ", then " |". */
  function Row(cells: seq<string>): string {
    "| " + Join(cells, " | ") + " |"
  }

  /** The separator cells: one "---" per column. */
  function Dashes(k: nat): (r: seq<string>)
    ensures |r| == k
    ensures forall i :: 0 <= i < k ==> r[i] == "---"
  {
    seq(k, _ => "---")
  }

  function Rows(rows: seq<seq<string>>): (r: seq<string>)
    ensures |r| == |rows|
    ensures forall i :: 0 <= i < |rows| ==> r[i] == Row(rows[i])
  {
    if rows == [] then [] else [Row(rows[0])] + Rows(rows[1..])
  }

  /** The whole table: header line, separator line, one line per data row,
      joined by "\n" with no newline at the end. */
  function Table(columns: seq<string>, rows: seq<seq<string>>): string {
    Join([Row(columns), Row(Dashes(|columns|))] + Rows(rows), "\n")
  }

  // ---------------------------------------------------------------------
  // Reading a table back
  // ---------------------------------------------------------------------

  /** A cell with its surrounding single spaces removed. */
  function Unpad(c: string): string {
    if |c| >= 2 then c[1..|c| - 1] else c
  }

  /** The cells of one line: the pieces between its '|' characters, each
      without the padding space on either side. */
  function ParseRow(line: string): seq<string> {
    var parts := Split(line, '|');
    if |parts| < 2 then [] else seq(|parts| - 2, i requires 0 <= i < |parts| - 2 => Unpad(parts[i + 1]))
  }

  /** The cells of every line of a table text. */
  function ParseTable(text: string): seq<seq<string>> {
    var lines := Split(text, '\n');
    seq(|lines|, i requires 0 <= i < |lines| => ParseRow(lines[i]))
  }

  /** Cells a table can carry without ambiguity: no '|' and no newline. */
  predicate PlainCell(c: string) {
    '|' !in c && '\n' !in c
  }

  predicate PlainRow(cells: seq<string>) {
    |cells| >= 1 && forall i :: 0 <= i < |cells| ==> PlainCell(cells[i])
  }

  // ---------------------------------------------------------------------
  // Proofs
  // ---------------------------------------------------------------------

  function Padded(cells: seq<string>): (r: seq<string>)
    ensures |r| == |cells|
    ensures forall i :: 0 <= i < |cells| ==> r[i] == " " + cells[i] + " "
  {
    seq(|cells|, i requires 0 <= i < |cells| => " " + cells[i] + " ")
  }

  lemma {:induction false} JoinPadded(cells: seq<string>)
    requires |cells| >= 1
    ensures Join(Padded(cells), "|") == " " + Join(cells, " | ") + " "
  {
    if |cells| > 1 {
      JoinPadded(cells[1..]);
      assert Padded(cells)[1..] == Padded(cells[1..]);
    }
  }

  /** A line with at least one cell is the padded cells joined by '|',
      with an empty piece at either end. */
  lemma RowAsJoin(cells: seq<string>)
    requires |cells| >= 1
    ensures Row(cells) == Join([""] + Padded(cells) + [""], "|")
  {
    var p := Padded(cells);
    JoinPadded(cells);
    JoinSnoc([""] + p, "", "|");
    assert ([""] + p)[1..] == p;
  }

  /** A written line reads back as the cells it was written from. */
  lemma ParseRowOfRow(cells: seq<string>)
    requires PlainRow(cells)
    ensures ParseRow(Row(cells)) == cells
    ensures '\n' !in Row(cells)
  {
    var parts := [""] + Padded(cells) + [""];
    RowAsJoin(cells);
    forall k | 0 <= k < |parts|
      ensures '|' !in parts[k] && '\n' !in parts[k]
    {
      if 1 <= k < |parts| - 1 {
        assert parts[k] == " " + cells[k - 1] + " ";
      }
    }
    SplitJoin(parts, '|');
    JoinAbsent(parts, "|", '\n');
    assert Split(Row(cells), '|') == parts;
    var r := ParseRow(Row(cells));
    assert |r| == |cells|;
    forall i | 0 <= i < |cells|
      ensures r[i] == cells[i]
    {
      var c := cells[i];
      var piece := parts[i + 1];
      assert piece == " " + c + " ";
      assert r[i] == Unpad(piece);
      assert piece[1..|piece| - 1] == c;
    }
  }

  /** The lines a table is joined from. */
  function Lines(columns: seq<string>, rows: seq<seq<string>>): (r: seq<string>)
    ensures |r| == |rows| + 2
    ensures Table(columns, rows) == Join(r, "\n")
  {
    [Row(columns), Row(Dashes(|columns|))] + Rows(rows)
  }

  lemma DashesPlain(k: nat)
    requires k >= 1
    ensures PlainRow(Dashes(k))
  {
    var d := Dashes(k);
    forall i | 0 <= i < k
      ensures PlainCell(d[i])
    {
      assert d[i] == "---";
    }
  }

  /** The k-th line of a table is written from the k-th of its header,
      separator and data rows, and reads back as those cells. */
  lemma LineOf(columns: seq<string>, rows: seq<seq<string>>, k: nat)
    requires PlainRow(columns)
    requires forall i :: 0 <= i < |rows| ==> PlainRow(rows[i])
    requires k < |rows| + 2
    ensures var cells := ([columns, Dashes(|columns|)] + rows)[k];
      && Lines(columns, rows)[k] == Row(cells)
      && ParseRow(Row(cells)) == cells
      && '\n' !in Row(cells)
  {
    if k == 0 {
      ParseRowOfRow(columns);
    } else if k == 1 {
      DashesPlain(|columns|);
      ParseRowOfRow(Dashes(|columns|));
    } else {
      ParseRowOfRow(rows[k - 2]);
    }
  }

  /** Splitting the table text at newlines gives back its lines. */
  lemma SplitTable(columns: seq<string>, rows: seq<seq<string>>)
    requires PlainRow(columns)
    requires forall i :: 0 <= i < |rows| ==> PlainRow(rows[i])
    ensures Split(Table(columns, rows), '\n') == Lines(columns, rows)
  {
    var lines := Lines(columns, rows);
    forall k | 0 <= k < |lines|
      ensures '\n' !in lines[k]
    {
      LineOf(columns, rows, k);
    }
    SplitJoin(lines, '\n');
  }

  /** Every line of the table, the header, the separator and each row, reads
      back as the cells it was written from; so the text has exactly
      |rows| + 2 lines and the separator has one "---" per column. */
  lemma ParseTableOfTable(columns: seq<string>, rows: seq<seq<string>>)
    requires PlainRow(columns)
    requires forall i :: 0 <= i < |rows| ==> PlainRow(rows[i])
    ensures ParseTable(Table(columns, rows)) == [columns, Dashes(|columns|)] + rows
    ensures |Split(Table(columns, rows), '\n')| == |rows| + 2
  {
    SplitTable(columns, rows);
    var lines := Lines(columns, rows);
    var want := [columns, Dashes(|columns|)] + rows;
    var parsed := ParseTable(Table(columns, rows));
    assert |parsed| == |want|;
    forall k | 0 <= k < |lines|
      ensures parsed[k] == want[k]
    {
      LineOf(columns, rows, k);
    }
  }

  /** The text ends with the closing " |" of its last line, not with a
      newline. */
  lemma TableEndsWithBar(columns: seq<string>, rows: seq<seq<string>>)
    ensures var t := Table(columns, rows); |t| > 0 && t[|t| - 1] == '|'
  {
    var lines := Lines(columns, rows);
    var init := lines[..|lines| - 1];
    var last := lines[|lines| - 1];
    assert lines == init + [last];
    JoinSnoc(init, last, "\n");
    if rows == [] {
      assert last == Row(Dashes(|columns|));
    } else {
      assert last == Row(rows[|rows| - 1]);
    }
  }
}

=== FILE: pipeline.dfy ===
/** One scenario run of the engine as a pure function: load and validate
    the tables, pre-check, build the linear program, solve it, extract the
    dose table and the cost summary. The solver is a parameter: any
    function from problems to answers that only calls a plan optimal when
    the plan is admissible. */
module Pipeline {
  import opened Wrappers
  import opened Text
  import opened Blend
  import opened Tables
  import Precheck
  import opened Extract

  /** The statuses the solver wrapper can report. */
  datatype Status = Optimal | NotSolved | Infeasible | Unbounded | Undefined

  datatype Answer = Answer(status: Status, x: seq<seq<real>>)

  /** The solver's promise: an answer reported optimal is admissible. */
  predicate Honest(pb: Problem, a: Answer) {
    a.status == Optimal ==> Feasible(pb, a.x)
  }

  /** An uncaught exception: the run ends with status 1. */
  datatype Crash =
    | IndexColumnMissing(table: TableName, column: string)
    | LookupFailed(cause: LookupFailure)
    | AreaNotNumeric(field: string)
    | EmptyDoseTable

  /** Why a run produced no outputs. All but `Crash` are the engine's own
      checks, which exit with status 2. */
  datatype Failure =
    | MissingColumn(table: TableName, column: string)
    | UnknownCrop(field: string, crop: string)
    | PrecheckInfeasible(diagnostics: seq<Precheck.Diagnostic>)
    | NonOptimal(status: Status)
    | Crash(cause: Crash)

  function ExitCode(f: Failure): (code: int)
    ensures code == 1 <==> f.Crash?
    ensures code == 2 <==> !f.Crash?
  {
    if f.Crash? then 1 else 2
  }

  /** What a successful run writes: the dose table and the summary text. */
  datatype Output = Output(table: seq<DoseRow>, summary: string)

  function FromLoad(e: LoadFailure): Failure {
    match e
    case IndexMissing(t, c) => Crash(IndexColumnMissing(t, c))
    case ColumnMissing(t, c) => MissingColumn(t, c)
  }

  /** The first field (in order) whose area is not a number. */
  function FirstBadArea(fs: seq<FieldRow>): (r: Option<nat>)
    ensures r.None? <==> forall j :: 0 <= j < |fs| ==> fs[j].area.Some?
    ensures r.Some? ==> r.value < |fs| && fs[r.value].area.None?
  {
    if |fs| == 0 then None
    else if fs[0].area.None? then Some(0)
    else
      var rest := FirstBadArea(fs[1..]);
      assert forall j :: 1 <= j < |fs| ==> fs[j] == fs[1..][j - 1];
      if rest.None? then None else Some(rest.value + 1)
  }

  /** The per-field constraints' inputs, field by field: the first field
      whose crop is missing from the requirements index stops the run
      cleanly; any other lookup failure raises. */
  function FieldSpecs(fs: seq<FieldRow>, reqs: seq<ReqRow>): (r: Result<seq<FieldSpec>, Failure>)
    requires forall j :: 0 <= j < |fs| ==> fs[j].area.Some?
    ensures r.Success? <==> forall j :: 0 <= j < |fs| ==> LookupReq(reqs, fs[j].crop).Success?
    ensures r.Success? ==> |r.value| == |fs| && forall j :: 0 <= j < |fs| ==>
      r.value[j] == FieldSpec(fs[j].name, fs[j].area.value, LookupReq(reqs, fs[j].crop).value)
    ensures r.Failure? && r.error.UnknownCrop? ==>
      exists j :: 0 <= j < |fs| && LookupReq(reqs, fs[j].crop).Failure?
        && LookupReq(reqs, fs[j].crop).error.CropNotFound?
  {
    var ls := Lookups(fs, reqs);
    match FirstFailure(ls)
    case Some(j) =>
      var e := ls[j].error;
      if e.CropNotFound? then Failure(UnknownCrop(fs[j].name, fs[j].crop))
      else Failure(Crash(LookupFailed(e)))
    case None =>
      Success(seq(|fs|, j requires 0 <= j < |fs| =>
        FieldSpec(fs[j].name, fs[j].area.value, LookupReq(reqs, fs[j].crop).value)))
  }

  /** The linear program of a scenario. The objective, built first, needs
      every area; the constraints then need every field's requirement. */
  function BuildProblem(inp: Inputs, prm: Params): (r: Result<Problem, Failure>)
    ensures r.Success? ==> r.value.products == inp.products && r.value.params == prm
    ensures r.Success? ==> forall j :: 0 <= j < |inp.fields| ==> inp.fields[j].area.Some?
    ensures r.Success? ==> forall j :: 0 <= j < |inp.fields| ==> LookupReq(inp.reqs, inp.fields[j].crop).Success?
    ensures r.Failure? && r.error.UnknownCrop? ==>
      exists j :: 0 <= j < |inp.fields| && LookupReq(inp.reqs, inp.fields[j].crop).Failure?
        && LookupReq(inp.reqs, inp.fields[j].crop).error.CropNotFound?
    ensures r.Success? ==> |r.value.fields| == |inp.fields| && forall j :: 0 <= j < |inp.fields| ==>
      r.value.fields[j] == FieldSpec(inp.fields[j].name, inp.fields[j].area.value,
                                     LookupReq(inp.reqs, inp.fields[j].crop).value)
    ensures r.Success? <==>
      forall j :: 0 <= j < |inp.fields| ==>
        inp.fields[j].area.Some? && LookupReq(inp.reqs, inp.fields[j].crop).Success?
    ensures var bad := FirstBadArea(inp.fields);
      bad.Some? ==> r == Failure(Crash(AreaNotNumeric(inp.fields[bad.value].name)))
  {
    match FirstBadArea(inp.fields)
    case Some(j) => Failure(Crash(AreaNotNumeric(inp.fields[j].name)))
    case None =>
      match FieldSpecs(inp.fields, inp.reqs)
      case Failure(e) => Failure(e)
      case Success(specs) => Success(Problem(inp.products, specs, prm))
  }

  /** Every problem the solver may be handed, answered honestly. */
  ghost predicate HonestSolver(solve: Problem -> Answer) {
    forall pb :: Honest(pb, solve(pb))
  }

  /** The last stage: the solver's answer to the built program. A
      non-optimal status ends the run; an empty dose table raises when it
      is sorted; otherwise the sorted table and the summary are written. */
  function Finish(pb: Problem, a: Answer): (r: Result<Output, Failure>)
    requires Honest(pb, a)
    ensures r.Failure? ==> r.error == NonOptimal(a.status) || r.error == Crash(EmptyDoseTable)
    ensures r.Failure? && r.error.NonOptimal? <==> a.status != Optimal
    ensures r.Success? ==>
      && a.status == Optimal
      && Feasible(pb, a.x)
      && SortedRows(r.value.table)
      && multiset(r.value.table) == multiset(ExtractRows(pb, a.x))
      && |r.value.table| > 0
      && r.value.summary == SummaryLine(Objective(pb, a.x))
    ensures r.Success? <==> a.status == Optimal && SomeListed(pb, a.x)
    ensures r == Failure(Crash(EmptyDoseTable)) <==> a.status == Optimal && !SomeListed(pb, a.x)
  {
    if a.status != Optimal then Failure(NonOptimal(a.status))
    else
      ExtractRowsEmpty(pb, a.x);
      var rows := ExtractRows(pb, a.x);
      if rows == [] then Failure(Crash(EmptyDoseTable))
      else Success(Output(SortRows(rows), SummaryLine(Objective(pb, a.x))))
  }

  /** A scenario on loaded tables: pre-check (aborting on any diagnostic),
      build the program, solve, finish. */
  function Scenario(inp: Inputs, prm: Params, solve: Problem -> Answer): (r: Result<Output, Failure>)
    requires HonestSolver(solve)
    ensures var pre := Precheck.Run(inp.fields, inp.reqs, inp.products, prm);
      pre.Failure? ==> r == Failure(Crash(LookupFailed(pre.error))) && ExitCode(r.error) == 1
    ensures var pre := Precheck.Run(inp.fields, inp.reqs, inp.products, prm);
      pre.Success? && pre.value != [] ==> r == Failure(PrecheckInfeasible(pre.value)) && ExitCode(r.error) == 2
    ensures r.Success? ==>
      && Precheck.Run(inp.fields, inp.reqs, inp.products, prm) == Success([])
      && BuildProblem(inp, prm).Success?
      && r == Finish(BuildProblem(inp, prm).value, solve(BuildProblem(inp, prm).value))
    ensures var pre, bp := Precheck.Run(inp.fields, inp.reqs, inp.products, prm), BuildProblem(inp, prm);
      pre == Success([]) && bp.Success? ==> r == Finish(bp.value, solve(bp.value))
    ensures var pre, bp := Precheck.Run(inp.fields, inp.reqs, inp.products, prm), BuildProblem(inp, prm);
      pre == Success([]) && bp.Failure? ==> r == Failure(bp.error)
  {
    match Precheck.Run(inp.fields, inp.reqs, inp.products, prm)
    case Failure(e) => Failure(Crash(LookupFailed(e)))
    case Success(diags) =>
      if diags != [] then Failure(PrecheckInfeasible(diags))
      else
        match BuildProblem(inp, prm)
        case Failure(e) => Failure(e)
        case Success(pb) =>
          assert Honest(pb, solve(pb));
          Finish(pb, solve(pb))
  }

  /** A scenario run from the three raw tables. */
  function Run(ft: Table, rt: Table, pt: Table, prm: Params, solve: Problem -> Answer)
    : (r: Result<Output, Failure>)
    requires HonestSolver(solve)
    ensures Load(ft, rt, pt).Failure? ==> r == Failure(FromLoad(Load(ft, rt, pt).error))
    ensures Load(ft, rt, pt).Success? ==> r == Scenario(Load(ft, rt, pt).value, prm, solve)
  {
    match Load(ft, rt, pt)
    case Failure(e) => Failure(FromLoad(e))
    case Success(inp) => Scenario(inp, prm, solve)
  }

  // ---------------------------------------------------------------------
  // Properties of a run
  // ---------------------------------------------------------------------

  /** A scenario writes its outputs exactly when the pre-check is clean,
      the program is built, the solver reports an optimal plan and some
      dose of it exceeds the epsilon. */
  lemma ScenarioSucceedsIff(inp: Inputs, prm: Params, solve: Problem -> Answer)
    requires HonestSolver(solve)
    ensures var pre, bp := Precheck.Run(inp.fields, inp.reqs, inp.products, prm), BuildProblem(inp, prm);
      Scenario(inp, prm, solve).Success? <==>
        && pre == Success([])
        && bp.Success?
        && solve(bp.value).status == Optimal
        && Feasible(bp.value, solve(bp.value).x)
        && SomeListed(bp.value, solve(bp.value).x)
  {
    var bp := BuildProblem(inp, prm);
    if bp.Success? {
      assert Honest(bp.value, solve(bp.value));
    }
  }

  /** The clean unknown-crop exit never happens: the pre-check looks every
      crop up first, and a missing crop raises there. */
  lemma ScenarioNeverReportsUnknownCrop(inp: Inputs, prm: Params, solve: Problem -> Answer)
    requires HonestSolver(solve)
    ensures !(Scenario(inp, prm, solve).Failure? && Scenario(inp, prm, solve).error.UnknownCrop?)
  {
    var pre := Precheck.Run(inp.fields, inp.reqs, inp.products, prm);
    if pre.Success? && pre.value == [] && BuildProblem(inp, prm).Failure? && BuildProblem(inp, prm).error.UnknownCrop? {
      assert false;
    }
  }

  /** The same, for a whole run: an unknown crop never exits cleanly. */
  lemma RunNeverReportsUnknownCrop(ft: Table, rt: Table, pt: Table, prm: Params, solve: Problem -> Answer)
    requires HonestSolver(solve)
    ensures !(Run(ft, rt, pt, prm, solve).Failure? && Run(ft, rt, pt, prm, solve).error.UnknownCrop?)
  {
    if Load(ft, rt, pt).Success? {
      ScenarioNeverReportsUnknownCrop(Load(ft, rt, pt).value, prm, solve);
    }
  }

  /** A table failing validation ends the run the same way whatever the
      scenario parameters and whatever the solver: nothing is pre-checked,
      built or solved. */
  lemma ValidationFailureIgnoresScenario(ft: Table, rt: Table, pt: Table,
                                         prm1: Params, solve1: Problem -> Answer,
                                         prm2: Params, solve2: Problem -> Answer)
    requires HonestSolver(solve1) && HonestSolver(solve2)
    requires Load(ft, rt, pt).Failure?
    ensures Run(ft, rt, pt, prm1, solve1) == Run(ft, rt, pt, prm2, solve2)
    ensures Run(ft, rt, pt, prm1, solve1).Failure?
    ensures Load(ft, rt, pt).error.ColumnMissing? ==> ExitCode(Run(ft, rt, pt, prm1, solve1).error) == 2
  {
  }

  /** Once the program is built, a non-optimal status ends the run with that
      status and no output. */
  lemma StatusDecidesOutcome(inp: Inputs, prm: Params, solve: Problem -> Answer)
    requires HonestSolver(solve)
    requires Precheck.Run(inp.fields, inp.reqs, inp.products, prm) == Success([])
    requires BuildProblem(inp, prm).Success?
    ensures var st := solve(BuildProblem(inp, prm).value).status;
      st != Optimal <==> Scenario(inp, prm, solve) == Failure(NonOptimal(st))
  {
    var pb := BuildProblem(inp, prm).value;
    assert Honest(pb, solve(pb));
  }

  /** The pre-check is sound for the program the run would build: if it
      reports anything, no dose plan satisfies that program, given
      non-negative nutrient percentages (see
      Precheck.NegativeFractionRejectsFeasible for why that is needed). */
  lemma {:induction false} PrecheckRejectsOnlyInfeasible(inp: Inputs, prm: Params, x: seq<seq<real>>)
    requires Precheck.NonNegativeFractions(inp.products)
    requires Precheck.Run(inp.fields, inp.reqs, inp.products, prm).Success?
    requires Precheck.Run(inp.fields, inp.reqs, inp.products, prm).value != []
    requires BuildProblem(inp, prm).Success?
    ensures !Feasible(BuildProblem(inp, prm).value, x)
  {
    var pb := BuildProblem(inp, prm).value;
    if Feasible(pb, x) {
      var j :| 0 <= j < |inp.fields| &&
        Precheck.FieldDiagnostics(inp.fields[j].name, inp.products,
                                  LookupReq(inp.reqs, inp.fields[j].crop).value, prm) != [];
      assert pb.fields[j].req == LookupReq(inp.reqs, inp.fields[j].crop).value;
      Precheck.DiagnosticRefutesField(pb.products, pb.fields[j], prm, Column(x, j));
      assert false;
    }
  }

  /** Every listed dose comes from a (product, field) pair of an admissible
      plan whose dose exceeded the epsilon, and lies within that product's
      dose bounds up to the rounding to hundredths. */
  lemma {:induction false} ListedDosesWithinBounds(pb: Problem, a: Answer, row: DoseRow)
    requires Honest(pb, a)
    requires Finish(pb, a).Success?
    requires row in Finish(pb, a).value.table
    ensures exists p, j :: (0 <= p < |pb.products| && 0 <= j < |pb.fields|
                            && row.field == pb.fields[j].name && row.product == pb.products[p].name
                            && pb.products[p].dmin - 0.005 <= row.kgHa <= pb.products[p].dmax + 0.005
                            && row.kgHa >= Epsilon - 0.005)
  {
    var out := Finish(pb, a).value;
    assert Feasible(pb, a.x);
    assert row in multiset(out.table);
    assert row in multiset(ExtractRows(pb, a.x));
    ExtractedDoseWithinBounds(pb, a.x, row);
  }

  /** The same for the unsorted rows of an admissible plan. */
  lemma ExtractedDoseWithinBounds(pb: Problem, x: seq<seq<real>>, row: DoseRow)
    requires Feasible(pb, x)
    requires row in ExtractRows(pb, x)
    ensures exists p, j :: (0 <= p < |pb.products| && 0 <= j < |pb.fields|
                            && row.field == pb.fields[j].name && row.product == pb.products[p].name
                            && pb.products[p].dmin - 0.005 <= row.kgHa <= pb.products[p].dmax + 0.005
                            && row.kgHa >= Epsilon - 0.005)
  {
    var p, j :| 0 <= p < |x| && 0 <= j < |pb.fields| && Listed(x[p][j])
      && row == DoseRow(pb.fields[j].name, pb.products[p].name, Round2(x[p][j]));
    DoseWithinBounds(pb, x, p, j);
    var v := x[p][j];
    assert -0.005 <= Round2(v) - v <= 0.005;
    assert pb.products[p].dmin - 0.005 <= row.kgHa <= pb.products[p].dmax + 0.005;
  }

  /** A dose of a feasible plan lies within its product's dose bounds. */
  lemma DoseWithinBounds(pb: Problem, x: seq<seq<real>>, p: nat, j: nat)
    requires Feasible(pb, x)
    requires p < |pb.products| && j < |pb.fields|
    ensures Shaped(pb, x) && pb.products[p].dmin <= x[p][j] <= pb.products[p].dmax
  {
    assert FieldFeasible(pb.products, pb.fields[j], pb.params, Column(x, j));
    assert Column(x, j)[p] == x[p][j];
  }
}

=== FILE: precheck.dfy ===
/** The fast feasibility diagnosis the engine runs before building the
    linear program. Per field it compares each tolerance-relaxed
    requirement with a crude upper bound on what the products can deliver,
    and it flags minimum doses that alone exceed the mix cap. The bound is
    conservative: a diagnostic means the field cannot be satisfied. */
module Precheck {
  import opened Wrappers
  import opened Blend
  import opened Tables
  import opened Seqs

  /** A reason the configuration is rejected before solving. */
  datatype Diagnostic =
    | MinDosesExceedMix(field: string, minTotal: real, mixmax: real)
    | Unreachable(field: string, nutrient: Nutrient, required: real, reachable: real)

  /** Slack allowed when comparing minimum doses with the mix cap. */
  const MixSlack: real := 0.000000001
  /** Slack allowed when comparing a requirement with its bound. */
  const ReqSlack: real := 0.000001

  function Min(a: real, b: real): real {
    if a <= b then a else b
  }

  /** Sum of the minimum doses: the smallest mix every field receives. */
  function MinMixTotal(ps: seq<Product>): real {
    if |ps| == 0 then 0.0 else ps[0].dmin + MinMixTotal(ps[1..])
  }

  /** What the products deliver when each is applied at its maximum dose. */
  function DmaxBound(ps: seq<Product>, nut: Nutrient): real {
    if |ps| == 0 then 0.0 else ps[0].dmax * Frac(ps[0], nut) + DmaxBound(ps[1..], nut)
  }

  /** The richest product's fraction of `nut`; 0 when there are no products. */
  function MaxFrac(ps: seq<Product>, nut: Nutrient): (m: real)
    ensures forall i :: 0 <= i < |ps| ==> Frac(ps[i], nut) <= m
    ensures |ps| == 0 ==> m == 0.0
  {
    if |ps| == 0 then 0.0
    else if |ps| == 1 then Frac(ps[0], nut)
    else
      var rest := MaxFrac(ps[1..], nut);
      assert forall i :: 1 <= i < |ps| ==> ps[i] == ps[1..][i - 1];
      if Frac(ps[0], nut) >= rest then Frac(ps[0], nut) else rest
  }

  /** The richest fraction is one product's fraction. */
  lemma {:induction false} MaxFracAttained(ps: seq<Product>, nut: Nutrient)
    requires |ps| > 0
    ensures exists i :: 0 <= i < |ps| && MaxFrac(ps, nut) == Frac(ps[i], nut)
  {
    if |ps| > 1 {
      MaxFracAttained(ps[1..], nut);
      var i :| 0 <= i < |ps[1..]| && MaxFrac(ps[1..], nut) == Frac(ps[1..][i], nut);
      assert ps[1..][i] == ps[i + 1];
      if Frac(ps[0], nut) >= MaxFrac(ps[1..], nut) {
        assert MaxFrac(ps, nut) == Frac(ps[0], nut);
      } else {
        assert MaxFrac(ps, nut) == Frac(ps[i + 1], nut);
      }
    } else {
      assert MaxFrac(ps, nut) == Frac(ps[0], nut);
    }
  }

  /** The crude upper bound on deliverable `nut`: the max-dose bound,
      lowered to mix cap * richest fraction when the mix cap is on, and for
      N lowered to the N cap when that is on. */
  function Bound(ps: seq<Product>, prm: Params, nut: Nutrient): (b: real)
    ensures b <= DmaxBound(ps, nut)
    ensures MixCapOn(prm) ==> b <= prm.mixmax * MaxFrac(ps, nut)
    ensures nut == N && NCapOn(prm) ==> b <= prm.nmax
    ensures || b == DmaxBound(ps, nut)
            || (MixCapOn(prm) && b == prm.mixmax * MaxFrac(ps, nut))
            || (nut == N && NCapOn(prm) && b == prm.nmax)
  {
    var capped :=
      if MixCapOn(prm) then Min(DmaxBound(ps, nut), prm.mixmax * MaxFrac(ps, nut))
      else DmaxBound(ps, nut);
    if nut == N && NCapOn(prm) then Min(capped, prm.nmax) else capped
  }

  /** The requirement for `nut`, relaxed by the tolerance, exceeds what
      the products can deliver by more than the slack. */
  predicate Unmet(ps: seq<Product>, req: Req, prm: Params, nut: Nutrient) {
    Effective(req, prm.tol, nut) - ReqSlack > Bound(ps, prm, nut)
  }

  /** The minimum doses alone exceed an enabled mix cap. */
  predicate MinimumsOverMix(ps: seq<Product>, prm: Params) {
    MixCapOn(prm) && MinMixTotal(ps) - MixSlack > prm.mixmax
  }

  function NutrientCheck(name: string, ps: seq<Product>, req: Req, prm: Params, nut: Nutrient)
    : (ds: seq<Diagnostic>)
    ensures ds != [] <==> Unmet(ps, req, prm, nut)
    ensures ds != [] ==> ds == [Unreachable(name, nut, Effective(req, prm.tol, nut), Bound(ps, prm, nut))]
  {
    var need := Effective(req, prm.tol, nut);
    var reach := Bound(ps, prm, nut);
    if need - ReqSlack > reach then [Unreachable(name, nut, need, reach)] else []
  }

  /** A diagnostic's place in the engine's order within one field:
      minimum doses against the mix cap, then N, P2O5 and K2O. */
  function Rank(d: Diagnostic): nat {
    match d
    case MinDosesExceedMix(_, _, _) => 0
    case Unreachable(_, nut, _, _) =>
      match nut
      case N => 1
      case P2O5 => 2
      case K2O => 3
  }

  /** Strictly increasing in rank: the engine's order, nothing repeated. */
  predicate Ranked(ds: seq<Diagnostic>) {
    forall a, b :: 0 <= a < b < |ds| ==> Rank(ds[a]) < Rank(ds[b])
  }

  lemma RankedConcat(xs: seq<Diagnostic>, ys: seq<Diagnostic>)
    requires Ranked(xs) && Ranked(ys)
    requires forall x, y :: x in xs && y in ys ==> Rank(x) < Rank(y)
    ensures Ranked(xs + ys)
  {
    forall a, b | 0 <= a < b < |xs + ys|
      ensures Rank((xs + ys)[a]) < Rank((xs + ys)[b])
    {
      if b < |xs| {
      } else if a >= |xs| {
        assert (xs + ys)[a] == ys[a - |xs|] && (xs + ys)[b] == ys[b - |xs|];
      } else {
        assert (xs + ys)[a] in xs && (xs + ys)[b] in ys;
      }
    }
  }

  /** The nutrient diagnostics of one field: N, then P2O5, then K2O, one
      for each nutrient whose relaxed requirement is out of reach. */
  function NutrientDiagnostics(name: string, ps: seq<Product>, req: Req, prm: Params): (ds: seq<Diagnostic>)
    ensures forall d :: d in ds ==>
      && d.Unreachable? && Unmet(ps, req, prm, d.nutrient)
      && d == Unreachable(name, d.nutrient, Effective(req, prm.tol, d.nutrient), Bound(ps, prm, d.nutrient))
    ensures forall nut: Nutrient :: Unmet(ps, req, prm, nut) ==>
      Unreachable(name, nut, Effective(req, prm.tol, nut), Bound(ps, prm, nut)) in ds
    ensures Ranked(ds)
    ensures ds == [] <==> !Unmet(ps, req, prm, N) && !Unmet(ps, req, prm, P2O5) && !Unmet(ps, req, prm, K2O)
  {
    var dn := NutrientCheck(name, ps, req, prm, N);
    var dp := NutrientCheck(name, ps, req, prm, P2O5);
    var dk := NutrientCheck(name, ps, req, prm, K2O);
    RankedConcat(dn, dp);
    RankedConcat(dn + dp, dk);
    var ds := dn + dp + dk;
    assert forall d :: d in ds <==> d in dn || d in dp || d in dk;
    ds
  }

  /** The diagnostics of one field, in the engine's order: minimum doses
      against the mix cap, then N, P2O5 and K2O, each at most once. */
  function FieldDiagnostics(name: string, ps: seq<Product>, req: Req, prm: Params): (ds: seq<Diagnostic>)
    ensures forall d :: d in ds ==> d.field == name
    ensures MinDosesExceedMix(name, MinMixTotal(ps), prm.mixmax) in ds <==> MinimumsOverMix(ps, prm)
    ensures forall d :: d in ds && d.MinDosesExceedMix? ==> MinimumsOverMix(ps, prm)
    ensures forall d :: d in ds && d.Unreachable? ==>
      && Unmet(ps, req, prm, d.nutrient)
      && d == Unreachable(name, d.nutrient, Effective(req, prm.tol, d.nutrient), Bound(ps, prm, d.nutrient))
    ensures forall nut: Nutrient :: Unmet(ps, req, prm, nut) ==>
      Unreachable(name, nut, Effective(req, prm.tol, nut), Bound(ps, prm, nut)) in ds
    ensures Ranked(ds)
    ensures MinimumsOverMix(ps, prm) ==> |ds| > 0 && ds[0] == MinDosesExceedMix(name, MinMixTotal(ps), prm.mixmax)
    ensures ds == [] <==>
      !MinimumsOverMix(ps, prm) && !Unmet(ps, req, prm, N) && !Unmet(ps, req, prm, P2O5) && !Unmet(ps, req, prm, K2O)
  {
    var nuts := NutrientDiagnostics(name, ps, req, prm);
    if MinimumsOverMix(ps, prm) then
      var mix := MinDosesExceedMix(name, MinMixTotal(ps), prm.mixmax);
      RankedConcat([mix], nuts);
      assert forall d :: d in [mix] + nuts <==> d == mix || d in nuts;
      [mix] + nuts
    else
      nuts
  }

  /** A field whose crop is found and which has no diagnostic. */
  predicate Clean(f: FieldRow, reqs: seq<ReqRow>, ps: seq<Product>, prm: Params) {
    match LookupReq(reqs, f.crop)
    case Success(req) => FieldDiagnostics(f.name, ps, req, prm) == []
    case Failure(_) => false
  }

  /** The whole pre-check: every field in order, looking its crop up first.
      A crop that cannot be looked up raises, ending the run. */
  function Run(fs: seq<FieldRow>, reqs: seq<ReqRow>, ps: seq<Product>, prm: Params)
    : (r: Result<seq<Diagnostic>, LookupFailure>)
    ensures r.Success? <==> forall j :: 0 <= j < |fs| ==> LookupReq(reqs, fs[j].crop).Success?
    ensures r.Failure? ==>
      exists j :: (0 <= j < |fs| && LookupReq(reqs, fs[j].crop) == Failure(r.error)
                   && forall k :: 0 <= k < j ==> LookupReq(reqs, fs[k].crop).Success?)
    ensures r.Success? ==> (|r.value| == 0 <==> forall j :: 0 <= j < |fs| ==> Clean(fs[j], reqs, ps, prm))
    ensures r.Success? ==> r.value == Flatten(Reports(fs, Lookups(fs, reqs), ps, prm))
  {
    var ls := Lookups(fs, reqs);
    match FirstFailure(ls)
    case Some(j) => Failure(ls[j].error)
    case None => Success(Diagnose(fs, ls, ps, prm))
  }

  /** Each field's diagnostics, field by field, once every lookup has
      succeeded. */
  function Reports(fs: seq<FieldRow>, ls: seq<Result<Req, LookupFailure>>, ps: seq<Product>, prm: Params)
    : (bs: seq<seq<Diagnostic>>)
    requires |ls| == |fs| && forall j :: 0 <= j < |ls| ==> ls[j].Success?
    ensures |bs| == |fs|
    ensures forall j :: 0 <= j < |fs| ==> bs[j] == FieldDiagnostics(fs[j].name, ps, ls[j].value, prm)
  {
    seq(|fs|, j requires 0 <= j < |fs| => FieldDiagnostics(fs[j].name, ps, ls[j].value, prm))
  }

  /** The diagnostics of every field in order, once every lookup has
      succeeded: nothing is dropped or merged, so a message that concerns
      all fields alike, such as minimum doses over the mix cap, is repeated
      for each field. */
  function Diagnose(fs: seq<FieldRow>, ls: seq<Result<Req, LookupFailure>>, ps: seq<Product>, prm: Params)
    : (ds: seq<Diagnostic>)
    requires |ls| == |fs| && forall j :: 0 <= j < |ls| ==> ls[j].Success?
    ensures ds == Flatten(Reports(fs, ls, ps, prm))
    ensures |ds| == 0 <==> forall j :: 0 <= j < |fs| ==> FieldDiagnostics(fs[j].name, ps, ls[j].value, prm) == []
  {
    FlattenEmpty(Reports(fs, ls, ps, prm));
    if |fs| == 0 then []
    else
      ReportsTail(fs, ls, ps, prm);
      FieldDiagnostics(fs[0].name, ps, ls[0].value, prm) + Diagnose(fs[1..], ls[1..], ps, prm)
  }

  lemma ReportsTail(fs: seq<FieldRow>, ls: seq<Result<Req, LookupFailure>>, ps: seq<Product>, prm: Params)
    requires |ls| == |fs| > 0 && forall j :: 0 <= j < |ls| ==> ls[j].Success?
    ensures Reports(fs, ls, ps, prm)[1..] == Reports(fs[1..], ls[1..], ps, prm)
  {
    var bs := Reports(fs, ls, ps, prm);
    var ts := Reports(fs[1..], ls[1..], ps, prm);
    forall k | 0 <= k < |ts|
      ensures bs[1..][k] == ts[k]
    {
      assert fs[1..][k] == fs[k + 1] && ls[1..][k] == ls[k + 1];
    }
  }

  /** When the minimum doses exceed the mix cap, every field's block of the
      pre-check's output starts with that message, so it appears once per
      field. */
  lemma MinDosesOncePerField(fs: seq<FieldRow>, reqs: seq<ReqRow>, ps: seq<Product>, prm: Params, j: nat)
    requires Run(fs, reqs, ps, prm).Success?
    requires MinimumsOverMix(ps, prm)
    requires j < |fs|
    ensures var bs := Reports(fs, Lookups(fs, reqs), ps, prm);
      && Offset(bs, j) < Offset(bs, j + 1) <= |Run(fs, reqs, ps, prm).value|
      && Run(fs, reqs, ps, prm).value[Offset(bs, j)] == MinDosesExceedMix(fs[j].name, MinMixTotal(ps), prm.mixmax)
  {
    var ls := Lookups(fs, reqs);
    var bs := Reports(fs, ls, ps, prm);
    assert |bs[j]| > 0 && bs[j][0] == MinDosesExceedMix(fs[j].name, MinMixTotal(ps), prm.mixmax);
    FlattenBlockHead(bs, j);
  }

  // ---------------------------------------------------------------------
  // Soundness: the bound really bounds every admissible dose column
  // ---------------------------------------------------------------------

  predicate NonNegativeFractions(ps: seq<Product>) {
    forall i, nut: Nutrient :: 0 <= i < |ps| ==> Frac(ps[i], nut) >= 0.0
  }

  lemma {:induction false} SupplyBelowDmaxBound(ps: seq<Product>, col: seq<real>, nut: Nutrient)
    requires |col| == |ps|
    requires forall i :: 0 <= i < |ps| ==> Frac(ps[i], nut) >= 0.0
    requires forall i :: 0 <= i < |col| ==> col[i] <= ps[i].dmax
    ensures Supply(ps, col, nut) <= DmaxBound(ps, nut)
  {
    if |col| > 0 {
      SupplyBelowDmaxBound(ps[1..], col[1..], nut);
      assert col[0] * Frac(ps[0], nut) <= ps[0].dmax * Frac(ps[0], nut) by {
        assert (ps[0].dmax - col[0]) * Frac(ps[0], nut) >= 0.0;
      }
    }
  }

  lemma {:induction false} SupplyBelowRichest(ps: seq<Product>, col: seq<real>, nut: Nutrient, m: real)
    requires |col| == |ps|
    requires forall i :: 0 <= i < |ps| ==> Frac(ps[i], nut) <= m
    requires forall i :: 0 <= i < |col| ==> col[i] >= 0.0
    ensures Supply(ps, col, nut) <= m * Mass(col)
  {
    if |col| > 0 {
      SupplyBelowRichest(ps[1..], col[1..], nut, m);
      assert col[0] * Frac(ps[0], nut) <= col[0] * m by {
        assert col[0] * (m - Frac(ps[0], nut)) >= 0.0;
      }
      assert Mass(col) == col[0] + Mass(col[1..]);
      assert m * Mass(col) == m * col[0] + m * Mass(col[1..]);
    }
  }

  lemma {:induction false} MassAboveMinimum(ps: seq<Product>, col: seq<real>)
    requires |col| == |ps|
    requires forall i :: 0 <= i < |col| ==> ps[i].dmin <= col[i]
    ensures MinMixTotal(ps) <= Mass(col)
  {
    if |col| > 0 {
      MassAboveMinimum(ps[1..], col[1..]);
    }
  }

  /** Any dose column within [0, dmax], within the mix cap when it is on and
      within the N cap when it is on, delivers no more of each nutrient than
      the pre-check's bound, provided no fraction is negative. */
  lemma {:induction false} ScaledChain(s: real, m: real, mass: real, cap: real)
    requires m >= 0.0 && mass <= cap && s <= m * mass
    ensures s <= cap * m
  {
    assert m * (cap - mass) >= 0.0;
  }

  lemma {:induction false} MaxFracNonNegative(ps: seq<Product>, nut: Nutrient)
    requires NonNegativeFractions(ps)
    ensures MaxFrac(ps, nut) >= 0.0
  {
    if |ps| > 0 {
      assert Frac(ps[0], nut) >= 0.0;
    }
  }

  /** Under the mix cap, no column delivers more than the cap times any
      fraction that dominates every product's. */
  lemma {:induction false} MixCapBound(ps: seq<Product>, prm: Params, col: seq<real>, nut: Nutrient, m: real)
    requires |col| == |ps|
    requires m >= 0.0
    requires forall i :: 0 <= i < |ps| ==> Frac(ps[i], nut) <= m
    requires forall i :: 0 <= i < |col| ==> 0.0 <= col[i]
    requires Mass(col) <= prm.mixmax
    ensures Supply(ps, col, nut) <= prm.mixmax * m
  {
    SupplyBelowRichest(ps, col, nut, m);
    ScaledChain(Supply(ps, col, nut), m, Mass(col), prm.mixmax);
  }

  lemma {:induction false} SupplyWithinBound(ps: seq<Product>, prm: Params, col: seq<real>, nut: Nutrient)
    requires |col| == |ps|
    requires NonNegativeFractions(ps)
    requires forall i :: 0 <= i < |col| ==> 0.0 <= col[i] <= ps[i].dmax
    requires MixCapOn(prm) ==> Mass(col) <= prm.mixmax
    requires NCapOn(prm) ==> Supply(ps, col, N) <= prm.nmax
    ensures Supply(ps, col, nut) <= Bound(ps, prm, nut)
  {
    SupplyBelowDmaxBound(ps, col, nut);
    if MixCapOn(prm) {
      MaxFracNonNegative(ps, nut);
      MixCapBound(ps, prm, col, nut, MaxFrac(ps, nut));
    }
  }

  /** A field with any diagnostic has no admissible dose column: given
      non-negative nutrient percentages, the pre-check never rejects a field
      the linear program could satisfy. */
  lemma {:induction false} DiagnosticRefutesField(ps: seq<Product>, f: FieldSpec, prm: Params, col: seq<real>)
    requires |col| == |ps|
    requires NonNegativeFractions(ps)
    requires FieldDiagnostics(f.name, ps, f.req, prm) != []
    ensures !FieldFeasible(ps, f, prm, col)
  {
    var ds := FieldDiagnostics(f.name, ps, f.req, prm);
    if FieldFeasible(ps, f, prm, col) {
      var d := ds[0];
      assert d in ds;
      if d.MinDosesExceedMix? {
        MassAboveMinimum(ps, col);
        assert false;
      } else {
        SupplyWithinBound(ps, prm, col, d.nutrient);
        assert false;
      }
    }
  }

  // Two products of up to 100 kg/ha, with 10% and -10% nitrogen, and a
  // field needing 5 kg/ha of nitrogen.
  const RichN: Product := Product("A", 0.1, 0.0, 0.0, 0.0, 0.0, 100.0)
  const NegativeN: Product := Product("B", -0.1, 0.0, 0.0, 0.0, 0.0, 100.0)
  const NeedsN: FieldSpec := FieldSpec("P1", 1.0, Req(5.0, 0.0, 0.0))

  /** Without non-negative fractions the bound is not sound: the
      percentages are read with no sign check, and a product with a
      negative nitrogen percentage lowers the rough bound (10 - 10 = 0)
      below the requirement, which the other product alone meets. */
  lemma NegativeFractionRejectsFeasible()
    ensures !NonNegativeFractions([RichN, NegativeN])
    ensures FieldDiagnostics(NeedsN.name, [RichN, NegativeN], NeedsN.req, DefaultParams) != []
    ensures FieldFeasible([RichN, NegativeN], NeedsN, DefaultParams, [100.0, 0.0])
  {
    NegativeFractionDiagnosed();
    NegativeFractionColumnFeasible();
    assert Frac([RichN, NegativeN][1], N) < 0.0;
  }

  lemma NegativeFractionDiagnosed()
    ensures FieldDiagnostics(NeedsN.name, [RichN, NegativeN], NeedsN.req, DefaultParams) != []
  {
    var ps := [RichN, NegativeN];
    assert ps[1..] == [NegativeN] && [NegativeN][1..] == [];
    assert DmaxBound([NegativeN], N) == -10.0 + DmaxBound([], N);
    assert DmaxBound(ps, N) == 0.0;
    assert Bound(ps, DefaultParams, N) == 0.0;
    assert Effective(NeedsN.req, 0.02, N) == 4.9;
    assert Unmet(ps, NeedsN.req, DefaultParams, N);
  }

  lemma NegativeFractionColumnFeasible()
    ensures FieldFeasible([RichN, NegativeN], NeedsN, DefaultParams, [100.0, 0.0])
  {
    var ps := [RichN, NegativeN];
    var col := [100.0, 0.0];
    assert ps[1..] == [NegativeN] && col[1..] == [0.0] && [0.0][1..] == [];
    forall nut: Nutrient ensures Supply(ps, col, nut) == 100.0 * Frac(RichN, nut) {
      assert Supply([NegativeN], [0.0], nut) == 0.0 * Frac(NegativeN, nut) + Supply([], [], nut);
    }
    assert Supply(ps, col, N) == 10.0;
  }
}

=== FILE: seqs.dfy ===
/** Blocks of rows joined end to end: the shape of every table the engine
    builds by an outer loop that emits zero or more rows per step. */
module Seqs {

  /** The blocks `bs` joined in order. */
  function Flatten<T>(bs: seq<seq<T>>): seq<T> {
    if |bs| == 0 then [] else bs[0] + Flatten(bs[1..])
  }

  /** Where block `j` starts in `Flatten(bs)`: the total length of the
      blocks before it. */
  function Offset<T>(bs: seq<seq<T>>, j: nat): nat
    requires j <= |bs|
  {
    if j == 0 then 0 else |bs[0]| + Offset(bs[1..], j - 1)
  }

  /** The joined sequence is as long as all blocks together. */
  lemma {:induction false} FlattenLength<T>(bs: seq<seq<T>>)
    ensures |Flatten(bs)| == Offset(bs, |bs|)
  {
    if |bs| > 0 {
      FlattenLength(bs[1..]);
    }
  }

  /** Block `j` appears whole, at its offset, and later blocks start after it. */
  lemma {:induction false} FlattenBlock<T>(bs: seq<seq<T>>, j: nat)
    requires j < |bs|
    ensures Offset(bs, j) + |bs[j]| == Offset(bs, j + 1) <= |Flatten(bs)|
    ensures Flatten(bs)[Offset(bs, j)..Offset(bs, j + 1)] == bs[j]
  {
    FlattenLength(bs);
    if j == 0 {
      assert Offset(bs[1..], 0) == 0;
      assert Flatten(bs)[..|bs[0]|] == bs[0];
    } else {
      var t := bs[1..];
      FlattenBlock(t, j - 1);
      FlattenLength(t);
      assert t[j - 1] == bs[j];
      var a := Offset(t, j - 1);
      var b := Offset(t, j);
      assert Flatten(bs) == bs[0] + Flatten(t);
      assert Flatten(bs)[|bs[0]| + a..|bs[0]| + b] == Flatten(t)[a..b];
    }
  }

  /** A non-empty block's first element sits at the block's offset. */
  lemma FlattenBlockHead<T>(bs: seq<seq<T>>, j: nat)
    requires j < |bs| && |bs[j]| > 0
    ensures Offset(bs, j) < Offset(bs, j + 1) <= |Flatten(bs)|
    ensures Flatten(bs)[Offset(bs, j)] == bs[j][0]
  {
    FlattenBlock(bs, j);
    assert Flatten(bs)[Offset(bs, j)..Offset(bs, j + 1)][0] == Flatten(bs)[Offset(bs, j)];
  }

  /** An element of the joined sequence comes from some block, and every
      element of every block is in it. */
  lemma {:induction false} FlattenMember<T>(bs: seq<seq<T>>, x: T)
    ensures x in Flatten(bs) <==> exists j :: 0 <= j < |bs| && x in bs[j]
  {
    if |bs| > 0 {
      FlattenMember(bs[1..], x);
      if x in Flatten(bs[1..]) {
        var j :| 0 <= j < |bs[1..]| && x in bs[1..][j];
        assert x in bs[j + 1];
      }
      if exists j :: 0 <= j < |bs| && x in bs[j] {
        var j :| 0 <= j < |bs| && x in bs[j];
        if j > 0 {
          assert bs[1..][j - 1] == bs[j];
        }
      }
    }
  }

  /** The joined sequence is empty exactly when every block is. */
  lemma {:induction false} FlattenEmpty<T>(bs: seq<seq<T>>)
    ensures Flatten(bs) == [] <==> forall j :: 0 <= j < |bs| ==> bs[j] == []
  {
    if |bs| > 0 {
      FlattenEmpty(bs[1..]);
      assert forall j :: 1 <= j < |bs| ==> bs[j] == bs[1..][j - 1];
    }
  }

  /** Joining from block `i` on: block `i`, then the rest. */
  lemma FlattenFrom<T>(bs: seq<seq<T>>, i: nat)
    requires i < |bs|
    ensures Flatten(bs[i..]) == bs[i] + Flatten(bs[i + 1..])
  {
    assert bs[i..][1..] == bs[i + 1..];
  }
}

=== FILE: tables.dfy ===
/** Reading the three input tables (fields, crop requirements, products):
    header clean-up, required-column checks, and lenient numeric coercion.
    Delimiter sniffing and text decoding happen before this model starts;
    a table here is its header and its rows of cells. */
module Tables {
  import opened Wrappers
  import opened Text
  import opened Blend

  /** One cell: its text, and the number pandas reads from it (None where
      the numeric reading would be NaN: blank or unparseable). */
  datatype Cell = Cell(text: string, num: Option<real>)

  datatype Table = Table(header: seq<string>, rows: seq<seq<Cell>>)

  datatype TableName = FieldsTable | RequirementsTable | ProductsTable

  /** Why loading stopped. `IndexMissing` is the KeyError raised when the
      requirements or products table is indexed by a column it lacks (an
      uncaught exception); `ColumnMissing` is the engine's own check, which
      exits with status 2. */
  datatype LoadFailure =
    | IndexMissing(table: TableName, column: string)
    | ColumnMissing(table: TableName, column: string)

  // ---------------------------------------------------------------------
  // Header normalisation
  // ---------------------------------------------------------------------

  const Bom: char := '\U{FEFF}'

  predicate IsBom(c: char) {
    c == Bom
  }

  predicate SpaceOrBom(ch: char) {
    IsSpace(ch) || IsBom(ch)
  }

  /** A header name trimmed of whitespace, then of leading byte-order marks:
      what follows the leading marks of the stripped name, so a slice of the
      name that cuts off only whitespace and byte-order marks in front and
      whitespace behind, and leaves a name with neither untouched. */
  function CleanName(c: string): (r: string)
    ensures r == [] || r[0] != Bom
    ensures r == [] || !IsSpace(r[|r| - 1])
    ensures exists i, j :: Trimmed(c, i, j, r, SpaceOrBom, IsSpace)
    ensures (c == [] || (!SpaceOrBom(c[0]) && !IsSpace(c[|c| - 1]))) ==> r == c
    ensures exists m :: 0 <= m <= |Strip(c)| && r == Strip(c)[m..] && forall k :: 0 <= k < m ==> IsBom(Strip(c)[k])
  {
    CleanNameTrims(c);
    DropWhileSuffix(Strip(c), IsBom);
    DropWhile(Strip(c), IsBom)
  }

  lemma CleanNameTrims(c: string)
    ensures exists i, j :: Trimmed(c, i, j, DropWhile(Strip(c), IsBom), SpaceOrBom, IsSpace)
  {
    TrimThenDrop(c, IsSpace, IsSpace, IsBom, SpaceOrBom);
    var i := LeadCount(c, IsSpace);
    var j := TrimEnd(c, IsSpace, IsSpace);
    var t := c[i..j];
    var m := LeadCount(t, IsBom);
    assert Strip(c) == t;
    assert DropWhile(t, IsBom) == t[m..];
    assert Trimmed(c, i + m, j, DropWhile(t, IsBom), SpaceOrBom, IsSpace);
  }

  /** The synonym correction applied to one cleaned name, given all cleaned
      names of the table. */
  function Rename(c: string, cols: seq<string>): string {
    if c == "P205_req_kg_ha" then "P2O5_req_kg_ha"
    else if c == "Cultivo" && "cultivo" !in cols then "cultivo"
    else if c == "Producto" && "producto" !in cols then "producto"
    else c
  }

  function CleanNames(h: seq<string>): (r: seq<string>)
    ensures |r| == |h|
    ensures forall i :: 0 <= i < |h| ==> r[i] == CleanName(h[i])
  {
    seq(|h|, i requires 0 <= i < |h| => CleanName(h[i]))
  }

  /** The synonym correction applied to every cleaned name. */
  function RenameAll(cols: seq<string>): (r: seq<string>)
    ensures |r| == |cols|
    ensures forall i :: 0 <= i < |cols| ==> r[i] == Rename(cols[i], cols)
  {
    seq(|cols|, i requires 0 <= i < |cols| => Rename(cols[i], cols))
  }

  /** The header after clean-up and synonym correction: every name is
      trimmed, the mistyped oxide column is corrected and never survives,
      other names stay as trimmed except a capitalised crop or product
      column, and the lower-case crop (product) column is present iff
      either spelling was. */
  function NormalizeHeader(h: seq<string>): (r: seq<string>)
    ensures |r| == |h|
    ensures forall i :: 0 <= i < |h| ==> r[i] != "P205_req_kg_ha"
    ensures forall i :: 0 <= i < |h| && CleanName(h[i]) == "P205_req_kg_ha" ==> r[i] == "P2O5_req_kg_ha"
    ensures forall i :: 0 <= i < |h| ==>
      (CleanName(h[i]) != "P205_req_kg_ha" && CleanName(h[i]) != "Cultivo" && CleanName(h[i]) != "Producto") ==>
        r[i] == CleanName(h[i])
    ensures "cultivo" in r <==> ("cultivo" in CleanNames(h) || "Cultivo" in CleanNames(h))
    ensures "producto" in r <==> ("producto" in CleanNames(h) || "Producto" in CleanNames(h))
  {
    RenameAllKeeps(CleanNames(h));
    RenameAllKeys(CleanNames(h));
    RenameAll(CleanNames(h))
  }

  lemma RenameNotTypo(c: string, cols: seq<string>)
    ensures Rename(c, cols) != "P205_req_kg_ha"
  {
    assert "P2O5_req_kg_ha"[2] != "P205_req_kg_ha"[2];
    assert |"cultivo"| != |"P205_req_kg_ha"|;
    assert |"producto"| != |"P205_req_kg_ha"|;
  }

  /** The mistyped oxide name becomes the correct one and never survives the
      correction; any other name that is not a capitalised synonym is kept
      as it is. */
  lemma {:induction false} RenameAllKeeps(cols: seq<string>)
    ensures forall i :: 0 <= i < |cols| && cols[i] == "P205_req_kg_ha" ==> RenameAll(cols)[i] == "P2O5_req_kg_ha"
    ensures forall i :: 0 <= i < |cols| ==> RenameAll(cols)[i] != "P205_req_kg_ha"
    ensures forall i :: 0 <= i < |cols| ==>
      (cols[i] != "P205_req_kg_ha" && cols[i] != "Cultivo" && cols[i] != "Producto") ==>
        RenameAll(cols)[i] == cols[i]
  {
    forall i | 0 <= i < |cols|
      ensures RenameAll(cols)[i] != "P205_req_kg_ha"
    {
      RenameNotTypo(cols[i], cols);
    }
  }

  /** A capitalised crop (product) column is renamed to lower case exactly
      when the lower-case name is absent, and kept otherwise, so the
      lower-case name is present afterwards iff either spelling was present
      before. */
  lemma {:induction false} RenameAllKeys(cols: seq<string>)
    ensures forall i :: 0 <= i < |cols| && cols[i] == "Cultivo" ==>
      RenameAll(cols)[i] == (if "cultivo" in cols then "Cultivo" else "cultivo")
    ensures forall i :: 0 <= i < |cols| && cols[i] == "Producto" ==>
      RenameAll(cols)[i] == (if "producto" in cols then "Producto" else "producto")
    ensures "cultivo" in RenameAll(cols) <==> ("cultivo" in cols || "Cultivo" in cols)
    ensures "producto" in RenameAll(cols) <==> ("producto" in cols || "Producto" in cols)
  {
    assert |"Cultivo"| != |"P205_req_kg_ha"| && |"Producto"| != |"P205_req_kg_ha"|;
    assert "Cultivo"[0] != "Producto"[0];
    var r := RenameAll(cols);
    if "cultivo" in cols {
      var i :| 0 <= i < |cols| && cols[i] == "cultivo";
      assert r[i] == "cultivo";
    } else if "Cultivo" in cols {
      var i :| 0 <= i < |cols| && cols[i] == "Cultivo";
      assert r[i] == "cultivo";
    }
    if "producto" in cols {
      var i :| 0 <= i < |cols| && cols[i] == "producto";
      assert r[i] == "producto";
    } else if "Producto" in cols {
      var i :| 0 <= i < |cols| && cols[i] == "Producto";
      assert r[i] == "producto";
    }
  }

  function NormalizeTable(t: Table): Table {
    t.(header := NormalizeHeader(t.header))
  }

  // ---------------------------------------------------------------------
  // Required columns
  // ---------------------------------------------------------------------

  const FieldColumns: seq<string> := ["potrero", "cultivo", "superficie_ha"]
  const RequirementColumns: seq<string> := ["N_req_kg_ha", "P2O5_req_kg_ha", "K2O_req_kg_ha"]
  const ProductColumns: seq<string> :=
    ["N_pct", "P2O5_pct", "K2O_pct", "precio_CLP_ton", "dosis_min_kg_ha", "dosis_max_kg_ha"]

  /** The first required column, in the order listed, that `cols` lacks. */
  function FirstMissing(cols: seq<string>, required: seq<string>): (r: Option<string>)
    ensures r.None? <==> forall k :: 0 <= k < |required| ==> required[k] in cols
    ensures r.Some? ==> r.value in required && r.value !in cols
    ensures r.Some? ==> (exists k :: 0 <= k < |required| && required[k] == r.value
                           && forall m :: 0 <= m < k ==> required[m] in cols)
  {
    if |required| == 0 then None
    else if required[0] !in cols then Some(required[0])
    else
      var rest := FirstMissing(cols, required[1..]);
      assert rest.Some? ==> (exists k :: 0 < k < |required| && required[k] == rest.value
                                && forall m :: 0 <= m < k ==> required[m] in cols) by {
        if rest.Some? {
          var k' :| 0 <= k' < |required[1..]| && required[1..][k'] == rest.value
                   && forall m :: 0 <= m < k' ==> required[1..][m] in cols;
          assert required[k' + 1] == rest.value;
        }
      }
      rest
  }

  predicate HasAll(cols: seq<string>, required: seq<string>) {
    forall k :: 0 <= k < |required| ==> required[k] in cols
  }

  predicate HasFieldColumns(cols: seq<string>) {
    "potrero" in cols && "cultivo" in cols && "superficie_ha" in cols
  }

  predicate HasRequirementColumns(cols: seq<string>) {
    "cultivo" in cols && "N_req_kg_ha" in cols && "P2O5_req_kg_ha" in cols && "K2O_req_kg_ha" in cols
  }

  predicate HasProductColumns(cols: seq<string>) {
    && "producto" in cols && "N_pct" in cols && "P2O5_pct" in cols && "K2O_pct" in cols
    && "precio_CLP_ton" in cols && "dosis_min_kg_ha" in cols && "dosis_max_kg_ha" in cols
  }

  lemma HasAllListed(cols: seq<string>)
    ensures HasAll(cols, FieldColumns) <==> HasFieldColumns(cols)
    ensures "cultivo" in cols && HasAll(cols, RequirementColumns) <==> HasRequirementColumns(cols)
    ensures "producto" in cols && HasAll(cols, ProductColumns) <==> HasProductColumns(cols)
  {
    assert FieldColumns[0] == "potrero" && FieldColumns[1] == "cultivo" && FieldColumns[2] == "superficie_ha";
    assert RequirementColumns[0] == "N_req_kg_ha" && RequirementColumns[1] == "P2O5_req_kg_ha"
      && RequirementColumns[2] == "K2O_req_kg_ha";
    assert ProductColumns[0] == "N_pct" && ProductColumns[1] == "P2O5_pct" && ProductColumns[2] == "K2O_pct"
      && ProductColumns[3] == "precio_CLP_ton" && ProductColumns[4] == "dosis_min_kg_ha"
      && ProductColumns[5] == "dosis_max_kg_ha";
  }

  // ---------------------------------------------------------------------
  // Cells and coercion
  // ---------------------------------------------------------------------

  /** Position of the first column called `name`. */
  function IndexOf(cols: seq<string>, name: string): (i: nat)
    requires name in cols
    ensures i < |cols| && cols[i] == name
    ensures forall k :: 0 <= k < i ==> cols[k] != name
  {
    if cols[0] == name then 0 else 1 + IndexOf(cols[1..], name)
  }

  /** The cell of `row` in column `name`; a short row reads as blank. */
  function CellAt(cols: seq<string>, row: seq<Cell>, name: string): Cell
    requires name in cols
  {
    var i := IndexOf(cols, name);
    if i < |row| then row[i] else Cell("", None)
  }

  /** pandas' `to_numeric(errors="coerce").fillna(default)`. */
  function Coerce(c: Cell, default: real): (r: real)
    ensures c.num.None? ==> r == default
    ensures c.num.Some? ==> r == c.num.value
  {
    c.num.GetOr(default)
  }

  /** The large sentinel standing for "no maximum dose". */
  const NoMaxDose: real := 1000000.0

  /** One product row, coerced: percentages become fractions. */
  function ProductOf(cols: seq<string>, row: seq<Cell>): Product
    requires HasProductColumns(cols)
  {
    Product(
      CellAt(cols, row, "producto").text,
      Coerce(CellAt(cols, row, "N_pct"), 0.0) / 100.0,
      Coerce(CellAt(cols, row, "P2O5_pct"), 0.0) / 100.0,
      Coerce(CellAt(cols, row, "K2O_pct"), 0.0) / 100.0,
      Coerce(CellAt(cols, row, "precio_CLP_ton"), 0.0),
      Coerce(CellAt(cols, row, "dosis_min_kg_ha"), 0.0),
      Coerce(CellAt(cols, row, "dosis_max_kg_ha"), NoMaxDose))
  }

  /** The product table after coercion: unparseable minimum doses, prices
      and percentages become 0, unparseable maximum doses become the
      sentinel, and each nutrient fraction is its percentage over 100. */
  function LoadProducts(t: Table): (r: seq<Product>)
    requires HasProductColumns(t.header)
    ensures |r| == |t.rows|
    ensures forall i :: 0 <= i < |r| ==>
      var h, row := t.header, t.rows[i];
      && r[i].name == CellAt(h, row, "producto").text
      && (CellAt(h, row, "dosis_min_kg_ha").num.None? ==> r[i].dmin == 0.0)
      && (CellAt(h, row, "dosis_max_kg_ha").num.None? ==> r[i].dmax == NoMaxDose)
      && (CellAt(h, row, "precio_CLP_ton").num.None? ==> r[i].price == 0.0)
      && (CellAt(h, row, "dosis_min_kg_ha").num.Some? ==> r[i].dmin == CellAt(h, row, "dosis_min_kg_ha").num.value)
      && (CellAt(h, row, "dosis_max_kg_ha").num.Some? ==> r[i].dmax == CellAt(h, row, "dosis_max_kg_ha").num.value)
      && (CellAt(h, row, "precio_CLP_ton").num.Some? ==> r[i].price == CellAt(h, row, "precio_CLP_ton").num.value)
      && r[i].n * 100.0 == CellAt(h, row, "N_pct").num.GetOr(0.0)
      && r[i].p * 100.0 == CellAt(h, row, "P2O5_pct").num.GetOr(0.0)
      && r[i].k * 100.0 == CellAt(h, row, "K2O_pct").num.GetOr(0.0)
  {
    seq(|t.rows|, i requires 0 <= i < |t.rows| => ProductOf(t.header, t.rows[i]))
  }

  /** A field row: identifier, crop, and area as read (not coerced). */
  datatype FieldRow = FieldRow(name: string, crop: string, area: Option<real>)

  /** A requirement row: crop and the three requirements as read. */
  datatype ReqRow = ReqRow(crop: string, n: Option<real>, p: Option<real>, k: Option<real>)

  function LoadFields(t: Table): (r: seq<FieldRow>)
    requires HasFieldColumns(t.header)
    ensures |r| == |t.rows|
    ensures forall i :: 0 <= i < |r| ==>
      && r[i].name == CellAt(t.header, t.rows[i], "potrero").text
      && r[i].crop == CellAt(t.header, t.rows[i], "cultivo").text
      && r[i].area == CellAt(t.header, t.rows[i], "superficie_ha").num
  {
    seq(|t.rows|, i requires 0 <= i < |t.rows| =>
      FieldRow(CellAt(t.header, t.rows[i], "potrero").text,
               CellAt(t.header, t.rows[i], "cultivo").text,
               CellAt(t.header, t.rows[i], "superficie_ha").num))
  }

  function LoadRequirements(t: Table): (r: seq<ReqRow>)
    requires HasRequirementColumns(t.header)
    ensures |r| == |t.rows|
    ensures forall i :: 0 <= i < |r| ==>
      && r[i].crop == CellAt(t.header, t.rows[i], "cultivo").text
      && r[i].n == CellAt(t.header, t.rows[i], "N_req_kg_ha").num
      && r[i].p == CellAt(t.header, t.rows[i], "P2O5_req_kg_ha").num
      && r[i].k == CellAt(t.header, t.rows[i], "K2O_req_kg_ha").num
  {
    seq(|t.rows|, i requires 0 <= i < |t.rows| =>
      ReqRow(CellAt(t.header, t.rows[i], "cultivo").text,
             CellAt(t.header, t.rows[i], "N_req_kg_ha").num,
             CellAt(t.header, t.rows[i], "P2O5_req_kg_ha").num,
             CellAt(t.header, t.rows[i], "K2O_req_kg_ha").num))
  }

  datatype Inputs = Inputs(fields: seq<FieldRow>, reqs: seq<ReqRow>, products: seq<Product>)

  /** The first failure of the engine's checks on normalised headers, in
      its order: the requirements and products tables are indexed by crop
      and product as they are read, and only then are the required columns
      of fields, requirements and products checked, each in listed order. */
  function Validate(fh: seq<string>, rh: seq<string>, ph: seq<string>): (r: Option<LoadFailure>)
    ensures r.None? <==> HasFieldColumns(fh) && HasRequirementColumns(rh) && HasProductColumns(ph)
    ensures r.Some? && r.value.IndexMissing? ==>
      (r.value.table == RequirementsTable && "cultivo" !in rh)
      || (r.value.table == ProductsTable && "producto" !in ph && "cultivo" in rh)
    ensures r.Some? && r.value.ColumnMissing? ==> "cultivo" in rh && "producto" in ph
    ensures r.Some? && r.value.ColumnMissing? && r.value.table == FieldsTable ==>
      r.value.column in FieldColumns && r.value.column !in fh
    ensures r.Some? && r.value.ColumnMissing? && r.value.table == RequirementsTable ==>
      HasFieldColumns(fh) && r.value.column in RequirementColumns && r.value.column !in rh
    ensures r.Some? && r.value.ColumnMissing? && r.value.table == ProductsTable ==>
      HasFieldColumns(fh) && HasRequirementColumns(rh)
      && r.value.column in ProductColumns && r.value.column !in ph
    ensures r.Some? && r.value.ColumnMissing? && r.value.table == FieldsTable ==>
      FirstMissing(fh, FieldColumns) == Some(r.value.column)
    ensures r.Some? && r.value.ColumnMissing? && r.value.table == RequirementsTable ==>
      FirstMissing(rh, RequirementColumns) == Some(r.value.column)
    ensures r.Some? && r.value.ColumnMissing? && r.value.table == ProductsTable ==>
      FirstMissing(ph, ProductColumns) == Some(r.value.column)
  {
    HasAllListed(fh);
    HasAllListed(rh);
    HasAllListed(ph);
    if "cultivo" !in rh then Some(IndexMissing(RequirementsTable, "cultivo"))
    else if "producto" !in ph then Some(IndexMissing(ProductsTable, "producto"))
    else
      match FirstMissing(fh, FieldColumns)
      case Some(c) => Some(ColumnMissing(FieldsTable, c))
      case None =>
        match FirstMissing(rh, RequirementColumns)
        case Some(c) => Some(ColumnMissing(RequirementsTable, c))
        case None =>
          match FirstMissing(ph, ProductColumns)
          case Some(c) => Some(ColumnMissing(ProductsTable, c))
          case None => None
  }

  /** The three tables normalised, validated and read into records. */
  function Load(ft: Table, rt: Table, pt: Table): (r: Result<Inputs, LoadFailure>)
    ensures r.Failure? <==>
      Validate(NormalizeHeader(ft.header), NormalizeHeader(rt.header), NormalizeHeader(pt.header)).Some?
    ensures r.Failure? ==>
      r.error == Validate(NormalizeHeader(ft.header), NormalizeHeader(rt.header), NormalizeHeader(pt.header)).value
    ensures r.Success? ==>
      && |r.value.fields| == |ft.rows|
      && |r.value.reqs| == |rt.rows|
      && |r.value.products| == |pt.rows|
    ensures r.Success? ==>
      && HasFieldColumns(NormalizeHeader(ft.header))
      && HasRequirementColumns(NormalizeHeader(rt.header))
      && HasProductColumns(NormalizeHeader(pt.header))
      && r.value == Inputs(LoadFields(Table(NormalizeHeader(ft.header), ft.rows)),
                           LoadRequirements(Table(NormalizeHeader(rt.header), rt.rows)),
                           LoadProducts(Table(NormalizeHeader(pt.header), pt.rows)))
  {
    var fh := NormalizeHeader(ft.header);
    var rh := NormalizeHeader(rt.header);
    var ph := NormalizeHeader(pt.header);
    match Validate(fh, rh, ph)
    case Some(e) => Failure(e)
    case None =>
      Success(Inputs(
        LoadFields(Table(fh, ft.rows)),
        LoadRequirements(Table(rh, rt.rows)),
        LoadProducts(Table(ph, pt.rows))))
  }

  // ---------------------------------------------------------------------
  // Requirement lookup by crop
  // ---------------------------------------------------------------------

  /** Why looking up a crop's requirement raised: no row for the crop
      (KeyError), several rows (the lookup yields a series that cannot be
      turned into one number), or a requirement that is not a number. */
  datatype LookupFailure =
    | CropNotFound(crop: string)
    | CropAmbiguous(crop: string)
    | RequirementNotNumeric(crop: string)

  function RowsFor(reqs: seq<ReqRow>, crop: string): (r: seq<ReqRow>)
    ensures |r| == 0 <==> forall k :: 0 <= k < |reqs| ==> reqs[k].crop != crop
    ensures forall k :: 0 <= k < |r| ==> r[k] in reqs && r[k].crop == crop
    ensures forall k :: 0 <= k < |reqs| && reqs[k].crop == crop ==> reqs[k] in r
  {
    if reqs == [] then []
    else (if reqs[0].crop == crop then [reqs[0]] else []) + RowsFor(reqs[1..], crop)
  }

  /** The requirement of `crop`: defined when exactly one row names it and
      its three requirements are numbers. */
  function LookupReq(reqs: seq<ReqRow>, crop: string): (r: Result<Req, LookupFailure>)
    ensures r.Failure? && r.error.CropNotFound? <==> forall k :: 0 <= k < |reqs| ==> reqs[k].crop != crop
    ensures r.Success? <==>
      var rows := RowsFor(reqs, crop);
      |rows| == 1 && rows[0].n.Some? && rows[0].p.Some? && rows[0].k.Some?
    ensures |RowsFor(reqs, crop)| > 1 ==> r == Failure(CropAmbiguous(crop))
    ensures |RowsFor(reqs, crop)| == 1 && !r.Success? ==> r == Failure(RequirementNotNumeric(crop))
    ensures r.Success? ==>
      (exists k :: 0 <= k < |reqs| && reqs[k] == ReqRow(crop, Some(r.value.n), Some(r.value.p), Some(r.value.k)))
  {
    var rows := RowsFor(reqs, crop);
    if |rows| == 0 then Failure(CropNotFound(crop))
    else if |rows| > 1 then Failure(CropAmbiguous(crop))
    else
      var row := rows[0];
      if row.n.None? || row.p.None? || row.k.None? then Failure(RequirementNotNumeric(crop))
      else Success(Req(row.n.value, row.p.value, row.k.value))
  }

  /** Every field's requirement lookup, in field order. */
  function Lookups(fs: seq<FieldRow>, reqs: seq<ReqRow>): (ls: seq<Result<Req, LookupFailure>>)
    ensures |ls| == |fs|
    ensures forall j :: 0 <= j < |fs| ==> ls[j] == LookupReq(reqs, fs[j].crop)
  {
    seq(|fs|, j requires 0 <= j < |fs| => LookupReq(reqs, fs[j].crop))
  }
}

=== FILE: text.dfy ===
/** Character and string helpers shared by the engine and the dashboard:
    decimal digits, integer rendering, whitespace trimming, the ordering
    Python uses on strings, and joining/splitting on a separator. */
module Text {

  // ---------------------------------------------------------------------
  // Decimal digits (ASCII 0-9)
  // ---------------------------------------------------------------------

  predicate IsDigit(c: char) {
    '0' <= c <= '9'
  }

  predicate AllDigits(s: string) {
    forall k :: 0 <= k < |s| ==> IsDigit(s[k])
  }

  function DigitChar(d: nat): (c: char)
    requires d < 10
    ensures IsDigit(c)
  {
    (('0' as int) + d) as char
  }

  function DigitValue(c: char): (d: nat)
    requires IsDigit(c)
    ensures d < 10
  {
    (c as int) - ('0' as int)
  }

  lemma DigitCharValue(d: nat)
    requires d < 10
    ensures DigitValue(DigitChar(d)) == d
  {
  }

  /** The digit characters of `s`, in order; everything else is dropped. */
  function Digits(s: string): (r: string)
    ensures AllDigits(r)
    ensures |r| <= |s|
  {
    if s == [] then []
    else (if IsDigit(s[0]) then [s[0]] else []) + Digits(s[1..])
  }

  /** A text without a digit has no digits to extract. */
  lemma {:induction false} DigitsNone(s: string)
    requires forall k :: 0 <= k < |s| ==> !IsDigit(s[k])
    ensures Digits(s) == []
  {
    if s != [] {
      DigitsNone(s[1..]);
    }
  }

  lemma {:induction false} DigitsAppend(a: string, b: string)
    ensures Digits(a + b) == Digits(a) + Digits(b)
  {
    if a == [] {
      assert a + b == b;
    } else {
      var head: string := if IsDigit(a[0]) then [a[0]] else [];
      assert (a + b)[0] == a[0];
      assert (a + b)[1..] == a[1..] + b;
      assert Digits(a + b) == head + Digits(a[1..] + b);
      assert Digits(a) == head + Digits(a[1..]);
      DigitsAppend(a[1..], b);
      assert head + (Digits(a[1..]) + Digits(b)) == (head + Digits(a[1..])) + Digits(b);
    }
  }

  lemma {:induction false} DigitsOfAllDigits(s: string)
    requires AllDigits(s)
    ensures Digits(s) == s
  {
    if s != [] {
      DigitsOfAllDigits(s[1..]);
    }
  }

  /** The number a string of decimal digits denotes (leading zeros allowed),
      read left to right as Python's `int` does. */
  function DigitsValue(s: string): nat
    requires AllDigits(s)
  {
    if s == [] then 0
    else DigitsValue(s[..|s| - 1]) * 10 + DigitValue(s[|s| - 1])
  }

  /** A leading zero does not change the number a digit string denotes. */
  lemma {:induction false} DigitsValueLeadingZero(s: string)
    requires AllDigits(s)
    ensures AllDigits("0" + s) && DigitsValue("0" + s) == DigitsValue(s)
  {
    var z := "0" + s;
    if s != [] {
      assert z[..|z| - 1] == "0" + s[..|s| - 1];
      assert z[|z| - 1] == s[|s| - 1];
      DigitsValueLeadingZero(s[..|s| - 1]);
    } else {
      assert z[..|z| - 1] == [];
    }
  }

  /** The decimal rendering of a natural number, without leading zeros. */
  function NatToString(n: nat): (r: string)
    ensures AllDigits(r)
    ensures 1 <= |r|
    ensures r[0] == '0' ==> n == 0
    ensures n < 10 <==> |r| == 1
  {
    if n < 10 then [DigitChar(n)]
    else NatToString(n / 10) + [DigitChar(n % 10)]
  }

  /** Reading back a rendered number gives the number. */
  lemma {:induction false} NatToStringValue(n: nat)
    ensures DigitsValue(NatToString(n)) == n
  {
    var s := NatToString(n);
    if n < 10 {
      assert s[..0] == [];
      DigitCharValue(n);
    } else {
      assert s[..|s| - 1] == NatToString(n / 10);
      NatToStringValue(n / 10);
      DigitCharValue(n % 10);
    }
  }

  lemma {:induction false} NatToStringShort(n: nat)
    ensures n < 1000 ==> |NatToString(n)| <= 3
    ensures |NatToString(n)| <= 3 ==> n < 1000
  {
    if n >= 10 {
      NatToStringShort(n / 10);
    }
  }

  /** Python's `str` of an int: a minus sign, then the digits of |i|. */
  function IntToString(i: int): (r: string)
    ensures i < 0 ==> r == "-" + NatToString(-i)
    ensures i >= 0 ==> r == NatToString(i)
  {
    if i < 0 then "-" + NatToString(-i) else NatToString(i)
  }

  function Abs(i: int): nat {
    if i < 0 then -i else i
  }

  lemma DigitsOfIntToString(i: int)
    ensures Digits(IntToString(i)) == NatToString(Abs(i))
  {
    DigitsOfAllDigits(NatToString(Abs(i)));
    if i < 0 {
      DigitsAppend("-", NatToString(-i));
    }
  }

  // ---------------------------------------------------------------------
  // Whitespace trimming (Python's str.strip with no argument)
  // ---------------------------------------------------------------------

  /** The characters Python's `str.isspace` accepts. The byte-order mark
      U+FEFF is not among them. */
  predicate IsSpace(c: char) {
    || c == ' ' || c == '\t' || c == '\n' || c == '\r'
    || c == '\U{000B}' || c == '\U{000C}'
    || ('\U{001C}' <= c <= '\U{001F}')
    || c == '\U{0085}' || c == '\U{00A0}' || c == '\U{1680}'
    || ('\U{2000}' <= c <= '\U{200A}')
    || c == '\U{2028}' || c == '\U{2029}' || c == '\U{202F}'
    || c == '\U{205F}' || c == '\U{3000}'
  }

  /** How many leading characters of `s` satisfy `drop`. */
  function LeadCount(s: string, drop: char -> bool): (n: nat)
    ensures n <= |s|
    ensures forall k :: 0 <= k < n ==> drop(s[k])
    ensures n == |s| || !drop(s[n])
  {
    if s != [] && drop(s[0]) then
      var m := LeadCount(s[1..], drop);
      assert forall k :: 1 <= k < 1 + m ==> s[k] == s[1..][k - 1];
      1 + m
    else 0
  }

  /** How many trailing characters of `s` satisfy `drop`. */
  function TrailCount(s: string, drop: char -> bool): (n: nat)
    ensures n <= |s|
    ensures forall k :: |s| - n <= k < |s| ==> drop(s[k])
    ensures n == |s| || !drop(s[|s| - n - 1])
  {
    if s != [] && drop(s[|s| - 1]) then
      var m := TrailCount(s[..|s| - 1], drop);
      assert forall k :: |s| - 1 - m <= k < |s| - 1 ==> s[k] == s[..|s| - 1][k];
      1 + m
    else 0
  }

  /** `s` without the longest prefix of characters satisfying `drop`. */
  function DropWhile(s: string, drop: char -> bool): (r: string)
    ensures |r| <= |s| && r == s[|s| - |r|..]
    ensures forall k :: 0 <= k < |s| - |r| ==> drop(s[k])
    ensures r == [] || !drop(r[0])
    ensures (s == [] || !drop(s[0])) ==> r == s
  {
    s[LeadCount(s, drop)..]
  }

  /** What `DropWhile` leaves is a suffix, and everything before it is
      dropped. */
  lemma DropWhileSuffix(s: string, drop: char -> bool)
    ensures exists m :: 0 <= m <= |s| && DropWhile(s, drop) == s[m..] && forall k :: 0 <= k < m ==> drop(s[k])
  {
    var m := LeadCount(s, drop);
    assert DropWhile(s, drop) == s[m..];
  }

  /** `r` is the slice `s[i..j]`, and what was cut off satisfies `pre`
      before it and `post` after it. */
  predicate Trimmed(s: string, i: int, j: int, r: string, pre: char -> bool, post: char -> bool) {
    && 0 <= i <= j <= |s| && r == s[i..j]
    && (forall k :: 0 <= k < i ==> pre(s[k]))
    && (forall k :: j <= k < |s| ==> post(s[k]))
  }

  /** Where the slice left by cutting a `pre` prefix and then a `post`
      suffix ends. */
  function TrimEnd(s: string, pre: char -> bool, post: char -> bool): (j: nat)
    ensures LeadCount(s, pre) <= j <= |s|
  {
    var i := LeadCount(s, pre);
    |s| - TrailCount(s[i..], post)
  }

  /** Cutting a `pre` prefix and then a `post` suffix leaves a trimmed
      slice whose ends, when it is not empty, satisfy neither. */
  lemma TrimBoth(s: string, pre: char -> bool, post: char -> bool)
    ensures Trimmed(s, LeadCount(s, pre), TrimEnd(s, pre, post),
                    s[LeadCount(s, pre)..TrimEnd(s, pre, post)], pre, post)
    ensures LeadCount(s, pre) < TrimEnd(s, pre, post) ==>
      !pre(s[LeadCount(s, pre)]) && !post(s[TrimEnd(s, pre, post) - 1])
  {
    TrimBack(s, LeadCount(s, pre), post);
  }

  /** Cutting the `post` suffix off `s[i..]`: what is cut satisfies `post`,
      and the last character kept, if any, does not. */
  lemma TrimBack(s: string, i: nat, post: char -> bool)
    requires i <= |s|
    ensures forall k :: |s| - TrailCount(s[i..], post) <= k < |s| ==> post(s[k])
    ensures i < |s| - TrailCount(s[i..], post) ==> !post(s[|s| - TrailCount(s[i..], post) - 1])
  {
    var t := s[i..];
    var n := TrailCount(t, post);
    forall k | |s| - n <= k < |s|
      ensures post(s[k])
    {
      assert s[k] == t[k - i];
    }
    if i < |s| - n {
      assert s[|s| - n - 1] == t[|t| - n - 1];
    }
  }

  /** Cutting a further `drop` prefix off a trimmed slice leaves a trimmed
      slice, whose front cut now satisfies `front`, which holds wherever
      `pre` or `drop` does. */
  lemma TrimmedDropFront(s: string, i: int, j: int, t: string, pre: char -> bool, post: char -> bool,
                         drop: char -> bool, front: char -> bool)
    requires Trimmed(s, i, j, t, pre, post)
    requires forall ch :: pre(ch) ==> front(ch)
    requires forall ch :: drop(ch) ==> front(ch)
    ensures Trimmed(s, i + LeadCount(t, drop), j, t[LeadCount(t, drop)..], front, post)
  {
    var m := LeadCount(t, drop);
    assert t[m..] == s[i + m..j];
    forall k | 0 <= k < i + m
      ensures front(s[k])
    {
      if k >= i {
        assert s[k] == t[k - i];
      }
    }
  }

  /** Trimming a `pre` prefix and a `post` suffix, then a further `drop`
      prefix, leaves a slice trimmed of `front` before and `post` after. */
  lemma TrimThenDrop(s: string, pre: char -> bool, post: char -> bool, drop: char -> bool, front: char -> bool)
    requires forall ch :: pre(ch) ==> front(ch)
    requires forall ch :: drop(ch) ==> front(ch)
    ensures var i, j := LeadCount(s, pre), TrimEnd(s, pre, post);
      Trimmed(s, i + LeadCount(s[i..j], drop), j, s[i..j][LeadCount(s[i..j], drop)..], front, post)
  {
    var i, j := LeadCount(s, pre), TrimEnd(s, pre, post);
    TrimBoth(s, pre, post);
    TrimmedDropFront(s, i, j, s[i..j], pre, post, drop, front);
  }

  /** Python's `str.strip()`: the slice of `s` left once the whitespace on
      either side is removed. */
  function Strip(s: string): (r: string)
    ensures r == [] || (!IsSpace(r[0]) && !IsSpace(r[|r| - 1]))
    ensures exists i, j :: Trimmed(s, i, j, r, IsSpace, IsSpace)
    ensures (s == [] || (!IsSpace(s[0]) && !IsSpace(s[|s| - 1]))) ==> r == s
  {
    TrimBoth(s, IsSpace, IsSpace);
    var i := LeadCount(s, IsSpace);
    var j := TrimEnd(s, IsSpace, IsSpace);
    assert s != [] && !IsSpace(s[0]) && !IsSpace(s[|s| - 1]) ==> i == 0 && j == |s|;
    s[i..j]
  }

  // ---------------------------------------------------------------------
  // String ordering (Python compares code points lexicographically)
  // ---------------------------------------------------------------------

  predicate StrLe(a: string, b: string)
    decreases |a|
  {
    |a| == 0 || (|b| > 0 && (a[0] < b[0] || (a[0] == b[0] && StrLe(a[1..], b[1..]))))
  }

  lemma StrLeTotal(a: string, b: string)
    ensures StrLe(a, b) || StrLe(b, a)
  {
  }

  lemma StrLeTransitive(a: string, b: string, c: string)
    requires StrLe(a, b) && StrLe(b, c)
    ensures StrLe(a, c)
  {
  }

  lemma StrLeAntisymmetric(a: string, b: string)
    requires StrLe(a, b) && StrLe(b, a)
    ensures a == b
  {
  }

  // ---------------------------------------------------------------------
  // Joining and splitting
  // ---------------------------------------------------------------------

  /** Python's `sep.join(parts)`. */
  function Join(parts: seq<string>, sep: string): string {
    if |parts| == 0 then ""
    else if |parts| == 1 then parts[0]
    else parts[0] + sep + Join(parts[1..], sep)
  }

  /** Joining one more part appends the separator and that part. */
  lemma {:induction false} JoinSnoc(parts: seq<string>, x: string, sep: string)
    requires |parts| >= 1
    ensures Join(parts + [x], sep) == Join(parts, sep) + sep + x
  {
    if |parts| == 1 {
      assert (parts + [x])[1..] == [x];
    } else {
      assert (parts + [x])[1..] == parts[1..] + [x];
      JoinSnoc(parts[1..], x, sep);
    }
  }

  /** Python's `s.split(c)` for a single-character separator. */
  function Split(s: string, c: char): (r: seq<string>)
    ensures |r| >= 1
  {
    if s == [] then [""]
    else
      var rest := Split(s[1..], c);
      if s[0] == c then [""] + rest
      else [[s[0]] + rest[0]] + rest[1..]
  }

  /** Splitting at a separator that sits between two strings splits each
      side on its own. */
  lemma {:induction false} SplitConcat(a: string, c: char, b: string)
    ensures Split(a + [c] + b, c) == Split(a, c) + Split(b, c)
  {
    if a == [] {
      assert a + [c] + b == [c] + b;
      assert ([c] + b)[1..] == b;
    } else {
      assert (a + [c] + b)[1..] == a[1..] + [c] + b;
      SplitConcat(a[1..], c, b);
    }
  }

  /** Number of occurrences of `c` in `s`. */
  function Count(s: string, c: char): nat {
    if s == [] then 0 else (if s[0] == c then 1 else 0) + Count(s[1..], c)
  }

  lemma {:induction false} CountAppend(a: string, b: string, c: char)
    ensures Count(a + b, c) == Count(a, c) + Count(b, c)
  {
    if a == [] {
      assert a + b == b;
    } else {
      assert (a + b)[1..] == a[1..] + b;
      CountAppend(a[1..], b, c);
    }
  }

  lemma {:induction false} CountAbsent(s: string, c: char)
    requires c !in s
    ensures Count(s, c) == 0
  {
    if s != [] {
      CountAbsent(s[1..], c);
    }
  }

  /** Splitting a piece that has no separator, followed by the separator and
      more text, yields the piece and then the split of the rest. */
  lemma {:induction false} SplitPrefix(a: string, c: char, b: string)
    requires c !in a
    ensures Split(a + [c] + b, c) == [a] + Split(b, c)
    decreases |a|
  {
    if a == [] {
      assert a + [c] + b == [c] + b;
      assert ([c] + b)[1..] == b;
    } else {
      var s := a + [c] + b;
      assert s[0] == a[0];
      assert s[1..] == a[1..] + [c] + b;
      SplitPrefix(a[1..], c, b);
      assert [a[0]] + a[1..] == a;
    }
  }

  lemma {:induction false} SplitNoSeparator(a: string, c: char)
    requires c !in a
    ensures Split(a, c) == [a]
  {
    if a != [] {
      SplitNoSeparator(a[1..], c);
      assert [a[0]] + a[1..] == a;
    }
  }

  /** Splitting a joined list of separator-free pieces recovers the pieces. */
  lemma {:induction false} SplitJoin(parts: seq<string>, c: char)
    requires |parts| >= 1
    requires forall k :: 0 <= k < |parts| ==> c !in parts[k]
    ensures Split(Join(parts, [c]), c) == parts
  {
    if |parts| == 1 {
      SplitNoSeparator(parts[0], c);
    } else {
      SplitJoin(parts[1..], c);
      SplitPrefix(parts[0], c, Join(parts[1..], [c]));
      assert [parts[0]] + parts[1..] == parts;
    }
  }

  lemma {:induction false} JoinAbsent(parts: seq<string>, sep: string, c: char)
    requires c !in sep
    requires forall k :: 0 <= k < |parts| ==> c !in parts[k]
    ensures c !in Join(parts, sep)
  {
    if |parts| > 1 {
      JoinAbsent(parts[1..], sep, c);
    }
  }

  /** A joined list counts the separator's occurrences once per gap. */
  lemma {:induction false} CountJoin(parts: seq<string>, sep: string, c: char)
    requires forall k :: 0 <= k < |parts| ==> c !in parts[k]
    ensures Count(Join(parts, sep), c) == if |parts| == 0 then 0 else (|parts| - 1) * Count(sep, c)
  {
    if |parts| == 1 {
      CountAbsent(parts[0], c);
    } else if |parts| > 1 {
      CountJoin(parts[1..], sep, c);
      CountAbsent(parts[0], c);
      CountAppend(parts[0], sep, c);
      CountAppend(parts[0] + sep, Join(parts[1..], sep), c);
    }
  }
}

=== FILE: wrappers.dfy ===
/** Option and Result types used for the engine's missing values and failures. */
module Wrappers {

  /** A value that may be absent: a missing file, a cell pandas reads as NaN. */
  datatype Option<+T> = None | Some(value: T) {

    /** The wrapped value, or `default` when absent. */
    function GetOr(default: T): T {
      match this
      case Some(v) => v
      case None => default
    }
  }

  /** Either a computed value or the failure that stopped the computation. */
  datatype Result<+R, +E> = Success(value: R) | Failure(error: E) {

    predicate IsFailure() {
      Failure?
    }

    function PropagateFailure<U>(): Result<U, E>
      requires Failure?
    {
      Failure(error)
    }

    function Extract(): R
      requires Success?
    {
      value
    }
  }

  /** The position of the first failed result, if any. */
  function FirstFailure<T, E>(rs: seq<Result<T, E>>): (r: Option<nat>)
    ensures r.None? <==> forall j :: 0 <= j < |rs| ==> rs[j].Success?
    ensures r.Some? ==> r.value < |rs| && rs[r.value].Failure?
    ensures r.Some? ==> forall j :: 0 <= j < r.value ==> rs[j].Success?
  {
    if |rs| == 0 then None
    else if rs[0].Failure? then Some(0)
    else
      var rest := FirstFailure(rs[1..]);
      assert forall j :: 1 <= j < |rs| ==> rs[j] == rs[1..][j - 1];
      if rest.None? then None else Some(rest.value + 1)
  }
}
